=== FILE: README.md ===
# BJMU Mahjong League — a Dafny model of the scoring pipeline

This project models the server-side core of the BJMU Mahjong League web app: how a
four-player game is settled, how a member's cached statistics are recomputed, and how
the store changes under the actions that write it. In the source these actions are
Next.js server actions over SQLite. Here the three tables are one immutable `Store`
value (`members`, `game_records`, `game_results`, plus the two AUTOINCREMENT counters),
and each action is a pure function from store to store.

| module | file | models |
|---|---|---|
| `Scoring` | `scoring.dfy` | `getRankBonus` and `processTiedScores` (`src/lib/scoring.ts`). The loop is a `method` proved equal to a functional reference, `Settle`. |
| `SettlementFacts` | `settlement_facts.dfy` | What a settlement promises: competition ranks, shared standing for ties, a bonus pool of 20, and worked tie patterns. |
| `MemberStats` | `member_stats.dfy` | The recomputation loop of `updateMemberStats`. It is a fold over result rows, with `Math.round` written out. |
| `Schema` | `schema.dfy` | The rows of `src/lib/schema.ts`, the store, and row selection and rewriting. |
| `Members` | `members.dfy` | `addMember`, `renameMember`, `mergeMembers`, `deleteMember`, and the write-back of `updateMemberStats`. |
| `Games` | `games.dfy` | The validation chain and seat rows of `submitGame`/`updateGameRecord`, `deleteGameRecord`, the recompute lists, and `getSeasonStats`. |
| `LegacyData` | `legacy_data.dfy` | `parseLegacyPlayers`, the record split and store rebuild of `importLegacyData`, and `exportData` with its re-import. |
| `Text`, `Wrappers` | `text.dfy`, `wrappers.dfy` | JavaScript `trim`, `new Set(xs)` size and iteration order, and `Option`/`Result`. |

**The central invariant.** Three conditions together make up `Games.Invariants`:

- **Well formed** (`Members.Wellformed`):
  - names and ids are unique;
  - ids are positive and below their counter;
  - game ids ascend in table order (`Members.IdsAscending`), as AUTOINCREMENT inserts and order-keeping deletes leave them;
  - the foreign keys of `game_results` hold.
- **Snapshots agree** (`Members.NamesAgree`): every row's `memberName` is the current name of the member its `memberId` points at.
- **Statistics up to date** (`Members.StatsConsistent`): every member's statistics equal the recomputation over that member's rows.

`submitGame`, `updateGameRecord`, `deleteGameRecord`, `addMember`, `renameMember`, `mergeMembers` and the import are each proved to keep this invariant. `deleteMember`, as written, does not; see Findings.

**Scores.** Scores, bonuses and points are `real`s, so averaged bonuses such as 50/3 are exact. JavaScript's `Math.round(x)` is `Floor(x + 0.5)`: halves round towards +infinity, which differs from rounding half away from zero on negative totals such as −0.25.

## Model

| member | source | states |
|---|---|---|
| Scoring.RankBonusTable | src/lib/scoring.ts:9-22 | Ranks 1..4 get 50, 10, −10, −30 and every other rank gets 0. Any four or more slots starting at rank 1 sum to 20. |
| Scoring.SortDesc | src/lib/scoring.ts:25 | The sorted players are a permutation of the input (same multiset, same length), ordered highest score first. |
| Scoring.ScanTieGroup | src/lib/scoring.ts:33-36 | The inner scan stops at the end of the maximal run of scores equal to `s[i]`. The run is non-empty. |
| Scoring.SumSlotBonuses | src/lib/scoring.ts:39-42 | The loop's sum is the total of the slot bonuses of ranks `currentRank .. currentRank+groupSize-1`. |
| Scoring.AverageBonus | src/lib/scoring.ts:38-43 | A group's bonus is its slot-bonus sum divided by the group size. |
| Scoring.AssignGroup | src/lib/scoring.ts:45-48 | Indices `i..j-1` receive the group's rank and bonus. Every other index keeps its value. |
| Scoring.GroupAssigned | src/lib/scoring.ts:45-51 | Once a maximal tie group has been assigned, every index before its end holds its final rank and bonus. |
| Scoring.ProcessTiedScores | src/lib/scoring.ts:24-55 | The loop returns exactly the reference settlement: the stable descending sort, and for each seat rank 1 + (number of strictly higher scores) and the averaged bonus of its tie group. The invariant keeps `currentRank == i + 1` and the prefix before `i` final. |
| SettlementFacts.SettleShape | src/lib/scoring.ts:25-28 | The sorted players are a permutation of the input, ordered non-increasingly. `ranks` and `rankBonuses` have the input's length. |
| SettlementFacts.RankCountsHigherPlayers | src/lib/scoring.ts:30-51 | Stated on the input players: a seat's rank is 1 + the number of players with a strictly higher score. Its bonus is the average slot bonus over as many slots as players share its score. |
| SettlementFacts.RankShape | src/lib/scoring.ts:30-51 | The first rank is 1, ranks never decrease, and rank k+1 is at most k+1. A seat level with its predecessor shares its rank. A seat below its predecessor gets rank k+1. |
| SettlementFacts.TiesShareStanding | src/lib/scoring.ts:33-48 | Two seats share a rank exactly when they share a score (both directions). Tied seats share their bonus. |
| SettlementFacts.BonusPool | src/lib/scoring.ts:38-52 | The bonuses of a game sum to the slot bonuses of ranks 1..n. With four players that is 20, whatever the ties. |
| SettlementFacts.NoTies | src/lib/scoring.ts:30-52 | Four distinct scores give ranks [1,2,3,4] and bonuses [50,10,−10,−30]. |
| SettlementFacts.AllTied | src/lib/scoring.ts:30-52 | Four equal scores give ranks [1,1,1,1] and bonus 5 each. |
| SettlementFacts.TopTwoTied | src/lib/scoring.ts:30-52 | A tie for first gives ranks [1,1,3,4] and bonuses [30,30,−10,−30]. |
| SettlementFacts.ThreeTiedBelowLeader | src/lib/scoring.ts:30-52 | Three seats tied behind the leader give ranks [1,2,2,2] and bonuses [50,−10,−10,−10]. |
| SettlementFacts.SortSorted | src/lib/scoring.ts:25 | Sorting players that are already in descending order leaves them unchanged. Ties are not reordered, because the sort is stable. |
| MemberStats.JsRound | src/app/actions/members.ts:139 | `Math.round` returns the integer n with x − 0.5 < n ≤ x + 0.5. |
| MemberStats.RoundTenth | src/app/actions/members.ts:175-176 | `Math.round(x*10)/10` is a multiple of 0.1 within (x − 0.05, x + 0.05]. |
| MemberStats.BasePoint | src/app/actions/members.ts:136-139 | A result's base point is (score − 250)/10 rounded to a multiple of 0.1. |
| MemberStats.IntegralScoreBasePoint | src/app/actions/members.ts:136-139 | For an integral score the rounding is exact: base point = (score − 250)/10. |
| MemberStats.PointsDeltaExamples | src/app/actions/members.ts:130-142 | 25,000 points with the top bonus give 0 + 50 − 5 = 45. 30,000 points give 50. Halves of 0.1 round up. |
| MemberStats.EmptyHistory | src/app/actions/members.ts:100-117 | A member without rows is reset: all counters and totals are 0 and there is no highest score. |
| MemberStats.FoldCounts | src/app/actions/members.ts:147-171 | Each counter of the loop is the number of results with its property: rank 1, 2, 3 or 4, score ≥ 500, score < 0. |
| MemberStats.RankAndThresholdCounters | src/app/actions/members.ts:147-183 | `first`..`fourth` count the rows with rank 1..4, and other ranks count nowhere. `games` is their sum. `catCount` counts scores ≥ 500 and `negativeCount` counts scores < 0. |
| MemberStats.FoldHighest | src/app/actions/members.ts:162-164 | The loop's highest score is absent exactly for no results. Otherwise it is `score*100` of some result and at least that of every result. |
| MemberStats.HighestScoreIsMaximum | src/app/actions/members.ts:162-164 | `highestScore` is null exactly without rows. Otherwise it is the maximum of `score*100` over the rows. |
| MemberStats.NonEmptyHistoryIsNotReset | src/app/actions/members.ts:162-164 | A member with at least one row never carries the reset statistics. |
| MemberStats.FoldTotals | src/app/actions/members.ts:134-145 | Before rounding, base points are the sum of the per-game base points. Points are that sum plus the bonuses minus 5 per game. |
| MemberStats.TotalsRoundedOnce | src/app/actions/members.ts:174-176 | `points` and `basePoints` are the per-game sums, each rounded once to 0.1 after the loop. |
| MemberStats.RoundingOnceDiffersFromPerGame | src/app/actions/members.ts:174-176 | Rounding once is observably different from rounding per game. Two 25,000-point games with a 50/3 bonus total 23.3; rounding per game would give 23.4. |
| MemberStats.StepCommutes | src/app/actions/members.ts:134-172 | Two iterations of the loop body commute. |
| MemberStats.FoldPermutation | src/app/actions/members.ts:134-172 | The loop's result depends only on the multiset of (score, rank, bonus) it reads, not on the row order. |
| MemberStats.StatsDependOnlyOnPlacings | src/app/actions/members.ts:96-192 | Two row lists with the same multiset of (score, rank, bonus) recompute to the same statistics. |
| Members.UpdateMemberStats | src/app/actions/members.ts:96-193 | The write-back makes the member with that id consistent with its rows. It changes no other member, no id or name, and no row. |
| Members.UpdateMemberStatsRestores | src/app/actions/members.ts:96-193 | If every member outside `ids` was consistent, then after recomputing `id` every member outside `ids − {id}` is consistent. |
| Members.UpdateEach | src/app/actions/data.ts:187-189 | Recomputing a list of ids leaves unlisted members and all tables other than `members` untouched. |
| Members.UpdateEachRestores | src/app/actions/data.ts:187-189 | Recomputing a list of ids makes every listed member consistent and disturbs no other. |
| Members.UpdateMemberStatsKeepsInvariants | src/app/actions/members.ts:178-192 | The write-back keeps the member ids, well-formedness and the name snapshots' agreement. |
| Members.AddMember | src/app/actions/members.ts:17-35 | A blank trimmed name fails with EmptyName, and an existing one with AlreadyExists (both iff). Otherwise exactly one member is appended: the next id, the trimmed name and zero statistics. |
| Members.AddMemberKeepsInvariants | src/app/actions/members.ts:17-35 | Adding a member keeps the store well formed, statistics consistent and snapshots in agreement. |
| Members.RenameMember | src/app/actions/members.ts:37-63 | Fails iff the trimmed new name is blank, equals the old name, or is taken, in that order. Otherwise the member row and the result rows named `oldName` take the trimmed name, and every other row and member is unchanged. |
| Members.RenameKeepsStatsConsistent | src/app/actions/members.ts:52-59 | A rename touches no id, score, rank or bonus, so every member stays consistent. |
| Members.RenameKeepsUniqueMembers | src/app/actions/members.ts:43-53 | A rename keeps member names and ids unique, because the new name was free. |
| Members.OldNameFreed | src/app/actions/members.ts:53 | After a rename no member carries the old name. |
| Members.RenameKeepsInvariants | src/app/actions/members.ts:37-63 | A rename keeps the store well formed, every snapshot equal to its member's name, and every member's statistics up to date. |
| Members.RenameRoundTrip | src/app/actions/members.ts:37-63 | Renaming a member and renaming it back restores the store exactly, when every snapshot names some member. |
| Members.MergeMembers | src/app/actions/members.ts:195-244 | The failure cases in order, each as an iff: production, self-merge, missing target, missing source. On success the games are untouched and the row count is kept. |
| Members.TwoPassesAreOne | src/app/actions/members.ts:218-234 | The update by source id followed by the update by source name equals one rewrite of every row matched by either. |
| Members.MergeShape | src/app/actions/members.ts:195-244 | A successful merge is the pruned member table with the combined rewrite, followed by a recomputation of the target. |
| Members.MergedTargetStats | src/app/actions/members.ts:218-240 | The merged target's statistics are the recomputation over the union of its own rows, the source id's rows and the rows carrying the source's name. |
| Members.MergeRemovesSource | src/app/actions/members.ts:218-237 | After a merge no member has the source's id or name, and no row points at the source by id or by name. |
| Members.MergeKeepsStatsConsistent | src/app/actions/members.ts:218-240 | A merge leaves every member consistent when the snapshots agree. |
| Members.MergeKeepsInvariants | src/app/actions/members.ts:195-244 | A merge keeps the store well formed, every snapshot equal to its member's name, and every member's statistics up to date. |
| Members.DeleteMember | src/app/actions/members.ts:65-94 | As written: fails iff in production, or iff the name is unknown. Otherwise it removes exactly the games with a row carrying the name, their rows, and the member: every other record, row and member survives with all its copies, in table order. |
| Members.DeleteMemberLeavesCoPlayerStale | src/app/actions/members.ts:76-90 | As written, the delete leaves a member stale when all of that member's games were shared with the deleted member. |
| Members.DeleteMemberRecomputing | src/app/actions/members.ts:65-94 | The corrected delete succeeds exactly when the original does, with the same rows and games. |
| Members.DeleteMemberRecomputingKeepsStatsConsistent | src/app/actions/members.ts:76-90 | The corrected delete keeps every surviving member consistent. |
| Games.Normalize | src/app/actions/games.ts:40-43 | Normalisation keeps the length and yields trimmed names. |
| Games.ValidateGame | src/app/actions/games.ts:30-61 | The first failing check decides the error, each as an iff over the earlier checks passing: wrong count, non-finite score, blank trimmed name, repeated trimmed name, total off by more than 0.001 (with its total). Success iff the game is valid, returning the trimmed players. |
| Games.BlankNameMeansWhitespaceOnly | src/app/actions/games.ts:40-48 | Validation of four finite scores fails with the blank-name error exactly when some raw name consists of whitespace only, the empty name included. |
| Games.GetOrCreateMember | src/app/actions/games.ts:9-28 | Returns the id of the member with the trimmed name. A new member with the next id is inserted only when there is none. Rows and games are untouched. |
| Games.GetOrCreateKeepsInvariants | src/app/actions/games.ts:9-28 | Resolving a member keeps the invariants and yields a member carrying the trimmed name. |
| Games.OpenGame | src/app/actions/games.ts:66-68 | The new game record takes the next game id, and nothing else changes. |
| Games.InsertSeat | src/app/actions/games.ts:71-81 | One row is appended for the seat, pointing at the resolved member. Earlier rows are kept. |
| Games.SubmitSeat | src/app/actions/games.ts:71-85 | One seat appends its row and recomputes its member. |
| Games.SubmitSeats | src/app/actions/games.ts:71-85 | The seat loop appends one row per remaining seat, in settlement order, after the existing rows. |
| Games.SubmitGame | src/app/actions/games.ts:30-89 | Fails with the validation error, and succeeds iff the players are valid. On success one game record is added and exactly four rows are appended. Row k carries seat k's name, score, rank and bonus. |
| Games.SubmitGameKeepsInvariants | src/app/actions/games.ts:63-85 | A valid submission succeeds and keeps the store well formed, snapshots in agreement and every member consistent. |
| Games.FourBonusesSumToTwenty | src/lib/scoring.ts:38-52 | Four settled bonuses sum to 20. |
| Games.SubmitGameBonusesSumToTwenty | src/app/actions/games.ts:64-85 | The four rows of a submitted game share exactly 20 bonus points. |
| Games.NonZero | src/app/actions/games.ts:120-125 | The `filter(Boolean)` / `if (memberId)` guard keeps exactly the non-zero ids. |
| Games.DeleteRecomputeIds | src/app/actions/games.ts:114-125 | The delete recomputes exactly the non-null, non-zero member ids of the deleted rows, each once. |
| Games.UpdateRecomputeIds | src/app/actions/games.ts:195-228 | The edit recomputes exactly the union of the old rows' ids and the new seats' ids (non-zero), each once. |
| Games.InsertSeats | src/app/actions/games.ts:206-220 | The edit's insert loop appends one row per seat and returns exactly the member ids of the rows it wrote. |
| Games.UpdateGameRecord | src/app/actions/games.ts:160-232 | The validation errors are those of `submitGame`, and an unknown game fails iff the players are valid. On success the game's old rows are gone, others are kept in order, and four new rows record the settlement of the new players. |
| Games.UpdateGameRecordKeepsInvariants | src/app/actions/games.ts:194-228 | A valid edit of an existing game succeeds and keeps all invariants. |
| Games.DeleteGameRecord | src/app/actions/games.ts:112-129 | The record and exactly its rows are removed: every other record and row survives with all its copies, in table order. Only members the deleted rows pointed at can change. |
| Games.DeleteGameRecordKeepsInvariants | src/app/actions/games.ts:112-125 | Deleting a game keeps all invariants. |
| Games.GetSeasonStats | src/app/actions/games.ts:131-140 | `memberCount` is the number of members, and four hanchans are the sum of the members' `games`. |
| Games.GamesCountRankedRows | src/app/actions/members.ts:183 | A member's `games` is the number of its rows whose rank is 1..4. |
| Games.SeasonHanchansCountRows | src/app/actions/games.ts:131-139 | In a consistent store whose rows all point at members, four times `hanchans` is the number of rows with a counted rank. |
| Text.TrimShape | src/app/actions/games.ts:41 | `trim` returns a slice of the input with no whitespace at either end, and only whitespace is cut. |
| Text.TrimIdempotent | src/app/actions/games.ts:10 | Trimming an already trimmed name changes nothing. |
| Text.TrimEmptyIff | src/app/actions/games.ts:46 | A trimmed name is empty exactly when the raw name is whitespace only. |
| Text.DistinctIffSetSize | src/app/actions/games.ts:50-53 | `new Set(names).size === names.length` exactly when the names are pairwise distinct. |
| Text.Dedup | src/app/actions/data.ts:127-132 | Iterating a `Set` built from a list yields each element of the list exactly once, and nothing else, in the order of first occurrence in the list. |
| LegacyData.ParseSeats | src/app/actions/data.ts:42-59 | The seat loop succeeds iff every seat has a non-blank name and a finite score. Otherwise it reports the first bad seat, naming a blank name before a bad score at the same seat. |
| LegacyData.ParseSeatsOfRecord | src/app/actions/data.ts:42-59 | On a record with two four-element arrays, the seat loop succeeds exactly when all four seats are good, and returns them in input order. |
| LegacyData.CheckPlayers | src/app/actions/data.ts:61-71 | Fails with DuplicatePlayers iff names repeat, else with TotalMismatch (its total) iff the sum is off by more than 0.001. Success returns the players unchanged. |
| LegacyData.ParseLegacyPlayers | src/app/actions/data.ts:31-72 | Success iff the record is importable, returning the four players in input order. Each error holds iff the earlier checks passed: missing arrays, wrong lengths, first bad seat, duplicates, total. |
| LegacyData.ParseIgnoresDerivedFields | src/app/actions/data.ts:31-72 | The ranks and bonuses an old export carries play no part in parsing. |
| LegacyData.ParseAgreesWithGameValidation | src/app/actions/data.ts:31-72 | When the seats are good, the legacy parser accepts exactly what `submitGame`'s validation accepts for the same players, and returns the same. |
| LegacyData.Positions | src/app/actions/data.ts:102-115 | Reference definition: the ascending positions of exactly the records the parser accepts, or exactly those it rejects. |
| LegacyData.Partition | src/app/actions/data.ts:99-115 | The valid games and the skipped records together number exactly the input records. |
| LegacyData.PartitionValid | src/app/actions/data.ts:102-115 | The valid games are the accepted records in input order, each with its parsed players and its timestamp (a blank one replaced by `now`). |
| LegacyData.PartitionSkipped | src/app/actions/data.ts:102-108 | The skipped entries are the rejected records in input order, each with its index, its error and the record. |
| LegacyData.PositionsSplitInput | src/app/actions/data.ts:102-115 | Each index is accepted or skipped, never both, and the two counts add up to the input length. |
| LegacyData.NothingAcceptedIff | src/app/actions/data.ts:117-119 | The import finds nothing to import exactly when no record is importable. |
| LegacyData.ImportLegacyData | src/app/actions/data.ts:81-205 | Each failure holds iff: the import is disabled; the text is unreadable or holds a null record; the records field is missing; it is not an array; no record is valid. A NothingValid failure is decided before any delete and leaves the store as it was. On success it reports the split of the records and the member count, and the new store is the rebuild of the accepted games (`LegacyData.Rebuild`), which the rows below describe. |
| LegacyData.NewMembers | src/app/actions/data.ts:134-156 | One member per name, with consecutive ids from the counter and zero statistics. |
| LegacyData.GameRecords | src/app/actions/data.ts:159-165 | One game record per valid game, in order, with consecutive ids. |
| LegacyData.ImportRows | src/app/actions/data.ts:171-183 | Row k of a game records seat k of its settlement and points at the member of that name. |
| LegacyData.SettlingFacts | src/app/actions/data.ts:171-183 | The import's rows carry their game's id and point at the member whose name they carry. |
| LegacyData.RowsForGame | src/app/actions/data.ts:159-184 | The rows the game loop writes for its k-th game are exactly the rows built for that game. |
| LegacyData.SettledGameRows | src/app/actions/data.ts:167-183 | The rows of the k-th imported game are its players settled afresh by `processTiedScores`. |
| LegacyData.ImportedPending | src/app/actions/data.ts:121-184 | After the deletes, inserts and game loop, the store is well formed and the snapshots agree. Only the new members await recomputation. |
| LegacyData.ImportKeepsInvariants | src/app/actions/data.ts:121-189 | A successful import leaves the store well formed, snapshots in agreement and every member consistent. |
| LegacyData.ImportedMembers | src/app/actions/data.ts:126-156 | One member per distinct player name, with consecutive ids. A name is a member iff it is some valid game's player. A member with a lower id has a name that first appears earlier in the accepted games. |
| LegacyData.ImportedGameRows | src/app/actions/data.ts:158-184 | The k-th game has the next id + k and its record's timestamp. Its rows are the fresh settlement of its raw players; legacy rank fields play no part. |
| LegacyData.PartitionIgnoresDerived | src/app/actions/data.ts:102-115 | Records differing only in their derived fields split into the same valid games. |
| LegacyData.ImportIgnoresDerivedFields | src/app/actions/data.ts:102-184 | Inputs differing only in derived fields (`ranks`, `rankBonuses`, ...) give the same outcome, store and valid games. |
| LegacyData.ExportRecord | src/app/actions/data.ts:210-218 | An exported record lists the game's rows by score, highest first, as a permutation of their (name, score) pairs, with the game's timestamp. |
| LegacyData.ExportData | src/app/actions/data.ts:207-221 | One exported record per game. |
| LegacyData.ExportByDescendingId | src/app/actions/games.ts:90-91 | In a well-formed store the export visits every game exactly once, in strictly descending game id order, as `getGameRecords` reads them. |
| LegacyData.ExportedGame | src/app/actions/data.ts:207-218 | Record k is the game with the k-th highest id: its timestamp, and its rows' (name, score) pairs reordered by score, highest first. |
| LegacyData.TotalScorePermutation | src/app/actions/data.ts:66 | The total of the scores does not depend on the players' order. |
| LegacyData.DistinctNamesPermutation | src/app/actions/data.ts:61-64 | Distinct names stay distinct under any reordering. |
| LegacyData.PlayersReadBack | src/app/actions/data.ts:42-59 | Four players with trimmed, non-blank names, written as a record, read back as the same four players. |
| LegacyData.ExportedSeats | src/app/actions/data.ts:210-218 | Read back, the seats of an exported record are the rows' players sorted by score. |
| LegacyData.ExportReimports | src/app/actions/data.ts:207-221 | An exported game of four rows with distinct, trimmed names and a valid total parses back to its (name, score) pairs sorted by score. Re-settling gives the same ranks and bonuses, and a non-blank timestamp is kept. |

## Left out

- Database effects are not modelled:
  - transactions and the absence of them: a failure partway through an action leaves partial writes in the source, while every modelled action is atomic;
  - the insert-race retry of `getOrCreateMemberId` (src/app/actions/games.ts:23-27);
  - exceptions raised by the database;
  - `revalidatePath`.
- Parameters stand in for I/O and the environment:
  - `process.env` switches (`PRODUCTION`, `DISABLE_IMPORT`) are the boolean parameters `production` / `importEnabled`;
  - `new Date()` timestamps are string parameters;
  - `JSON.parse` is `ImportInput`;
  - JavaScript's `String(x)` and `Number(s)` are the `Coercions` parameter.
- IEEE-754 arithmetic is left out. Scores, bonuses and points are exact reals, and a non-finite number is one `NonFinite` value.
- Message strings are reduced to error constructors. The import's count message is reduced to `memberCount` and the split.
- Orders the database leaves open are left out:
  - `getGameRecords` orders rows by rank, and the order among equal ranks is unspecified;
  - the export model keeps table order before its stable sort;
  - `getMembers` orders by points, but no modelled operation depends on that.
- `getMembers`, `getGameRecord` and `getMemberByName`'s SQL are plain reads. Only `getMemberByName` is modelled, as `Schema.MemberNamed`.
- `clearAllGameHistory` (src/app/actions/games.ts:234-248) is not part of this model. It is the import's three deletes behind the production switch.
- The React components and `next.config.ts` are outside the core.
- Games.UpdateGameRecord: a game id with no record fails with `UnknownGame` and leaves the store unchanged. In the source the foreign key rejects the first row insert. By then the first seat's member may already have been created, and the old rows (none) deleted.
- Games.SubmitGame: every member created by one submission gets the same `createdAt`; `getOrCreateMemberId` takes a fresh clock reading per member (src/app/actions/games.ts:19). `Games.UpdateGameRecord` shares this.
- LegacyData.Partition: every accepted record without a timestamp gets the same `now`; the source takes a fresh clock reading per record (src/app/actions/data.ts:113).
- LegacyData.ImportLegacyData: every member created by one import gets the same `createdAt`; the source takes a fresh clock reading per member.
- LegacyData.ImportLegacyData: a `null` element of `inputRecords` is reported as `BadFormat`. A number or string element reads as a record with every field absent.
- LegacyData.ExportReimports: it assumes the game's four rows carry distinct names. A merge of two members who sat in the same game leaves two rows with one name, and the re-import skips such a record.
- Members.DeleteMember: on a store where a row points at the member's id but carries another name, the source's final member delete violates the foreign key of `game_results.member_id` (src/lib/db.ts:44) and throws. The model succeeds and leaves that row pointing at a missing id. Such a store violates `Members.NamesAgree`, so no action proved here reaches it.
- Members.MergeKeepsStatsConsistent: it assumes the name snapshots agree with the ids. Without that assumption, a row carrying the source's name but pointing at a third member is moved away from that member without recomputing it.

## Findings

| source | as written | input that shows it | evidently intended | confidence | as-written member | corrected member |
|---|---|---|---|---|---|---|
| src/app/actions/members.ts:76-90 | `deleteMember` deletes every game in which the member played (their rows go by the cascade) and the member, but never recomputes the other players of those games. | A store with consistent statistics where member B's only game was played with member A. Delete A: B keeps non-zero `games`/`points` with no rows left. | Recompute every member the deleted rows pointed at, as `deleteGameRecord` does after the same cascade delete (src/app/actions/games.ts:112-125). | not executed | Members.DeleteMember, Members.DeleteMemberLeavesCoPlayerStale | Members.DeleteMemberRecomputing, Members.DeleteMemberRecomputingKeepsStatsConsistent |

=== FILE: games.dfy ===
/** The game actions of src/app/actions/games.ts as transitions of the store:
    the validation chain shared by `submitGame` and `updateGameRecord`, the rows they
    write from the settlement, the members whose statistics they (and
    `deleteGameRecord`) recompute, and `getSeasonStats`. */
module Games {
  import opened Wrappers
  import opened Text
  import opened Scoring
  import opened Schema
  import opened MemberStats
  import opened Members
  import opened SettlementFacts

  /** A JavaScript number as far as the checks care: finite, or NaN / an infinity. */
  datatype JsNumber = Finite(value: real) | NonFinite

  /** One entry of the `players` argument, before normalisation. */
  datatype Entry = Entry(memberName: string, score: JsNumber)

  datatype GameError =
    | WrongPlayerCount   // not exactly four players
    | NonFiniteScore     // some score is NaN or infinite
    | BlankName          // some name is blank after trimming
    | RepeatedName       // two trimmed names coincide
    | TotalOff(total: real)  // the scores do not add up to 1000 within 0.001
    | UnknownGame        // updateGameRecord: no game with that id

  // ---------------------------------------------------------------------------
  // Validation
  // ---------------------------------------------------------------------------

  /** `players.reduce((sum, p) => sum + p.score, 0)`. */
  function TotalScore(ps: seq<PlayerScore>): real {
    if |ps| == 0 then 0.0 else TotalScore(ps[..|ps| - 1]) + ps[|ps| - 1].score
  }

  function Abs(x: real): real {
    if x < 0.0 then -x else x
  }

  predicate AllFinite(players: seq<Entry>) {
    forall i :: 0 <= i < |players| ==> players[i].score.Finite?
  }

  /** `players.map(p => ({ memberName: p.memberName.trim(), score: p.score }))`. */
  function Normalize(players: seq<Entry>): (ps: seq<PlayerScore>)
    requires AllFinite(players)
    ensures |ps| == |players|
    ensures forall i :: 0 <= i < |ps| ==> IsTrimmed(ps[i].memberName)
  {
    assert forall i :: 0 <= i < |players| ==> IsTrimmed(Trim(players[i].memberName)) by {
      forall i | 0 <= i < |players| ensures IsTrimmed(Trim(players[i].memberName)) {
        TrimShape(players[i].memberName);
      }
    }
    seq(|players|, i requires 0 <= i < |players| =>
      PlayerScore(Trim(players[i].memberName), players[i].score.value))
  }

  function Names(ps: seq<PlayerScore>): (names: seq<string>)
    ensures |names| == |ps|
  {
    seq(|ps|, i requires 0 <= i < |ps| => ps[i].memberName)
  }

  /** No player name is blank. */
  predicate NoBlankName(ps: seq<PlayerScore>) {
    forall i :: 0 <= i < |ps| ==> ps[i].memberName != []
  }

  /** What an acceptable game is, independent of the order of the checks: four players,
      finite scores, non-blank pairwise distinct trimmed names, total 1000 within 0.001. */
  predicate ValidGame(players: seq<Entry>) {
    && |players| == 4
    && AllFinite(players)
    && NoBlankName(Normalize(players))
    && Distinct(Names(Normalize(players)))
    && WithinTotal(TotalScore(Normalize(players)))
  }

  /** The validation chain of `submitGame` and `updateGameRecord`: the first failing check
      decides the error; on success the trimmed players, in input order. */
  function ValidateGame(players: seq<Entry>): (r: Result<seq<PlayerScore>, GameError>)
    ensures r.Success? <==> ValidGame(players)
    ensures r == Failure(WrongPlayerCount) <==> |players| != 4
    ensures r == Failure(NonFiniteScore) <==> |players| == 4 && !AllFinite(players)
    ensures r == Failure(BlankName) <==>
      |players| == 4 && AllFinite(players) && !NoBlankName(Normalize(players))
    ensures r == Failure(RepeatedName) <==>
      && |players| == 4 && AllFinite(players) && NoBlankName(Normalize(players))
      && !Distinct(Names(Normalize(players)))
    ensures r.Failure? && r.error.TotalOff? ==>
      && |players| == 4 && AllFinite(players) && NoBlankName(Normalize(players))
      && Distinct(Names(Normalize(players)))
      && r.error.total == TotalScore(Normalize(players))
      && !WithinTotal(r.error.total)
    ensures r != Failure(UnknownGame)
    ensures r.Success? ==> r.value == Normalize(players) && |r.value| == 4
  {
    if |players| != 4 then Failure(WrongPlayerCount)
    else if !AllFinite(players) then Failure(NonFiniteScore)
    else
      var normalized := Normalize(players);
      var names := Names(normalized);
      if !NoBlankName(normalized) then Failure(BlankName)
      else
        DistinctIffSetSize(names);
        if |ToSet(names)| != 4 then Failure(RepeatedName)
        else
          var total := TotalScore(normalized);
          if Abs(total - TotalGameScore) > TotalGameScoreTolerance then Failure(TotalOff(total))
          else Success(normalized)
  }

  /** The blank-name check rejects exactly the games of four finite scores in which some
      raw name consists of whitespace only (the empty name included). */
  lemma BlankNameMeansWhitespaceOnly(players: seq<Entry>)
    ensures ValidateGame(players) == Failure(BlankName) <==>
      && |players| == 4 && AllFinite(players)
      && exists i :: 0 <= i < |players| && WhitespaceOnly(players[i].memberName)
  {
    if |players| == 4 && AllFinite(players) {
      var ps := Normalize(players);
      forall i | 0 <= i < |players|
        ensures ps[i].memberName == [] <==> WhitespaceOnly(players[i].memberName)
      {
        assert ps[i].memberName == Trim(players[i].memberName);
        TrimEmptyIff(players[i].memberName);
      }
      assert ValidateGame(players) == Failure(BlankName) <==> !NoBlankName(ps);
      if !NoBlankName(ps) {
        var i :| 0 <= i < |ps| && ps[i].memberName == [];
        assert WhitespaceOnly(players[i].memberName);
      }
    }
  }

  // ---------------------------------------------------------------------------
  // Members and rows
  // ---------------------------------------------------------------------------

  /** `getOrCreateMemberId(name)`: the id of the member with the trimmed name, inserting
      one with the next id and zero statistics when there is none. */
  function GetOrCreateMember(s: Store, name: string, createdAt: string): (r: (Store, int))
    ensures r.0.results == s.results && r.0.games == s.games && r.0.nextGameId == s.nextGameId
    ensures exists m :: m in r.0.members && m.id == r.1 && m.name == Trim(name)
    ensures MemberNamed(s.members, Trim(name)).Some? ==> r.0 == s
    ensures MemberNamed(s.members, Trim(name)).None? ==>
      r.0.members == s.members + [Member(s.nextMemberId, Trim(name), ZeroStats, createdAt)]
      && r.1 == s.nextMemberId && r.0.nextMemberId == s.nextMemberId + 1
  {
    var trimmed := Trim(name);
    match MemberNamed(s.members, trimmed)
    case Some(m) => (s, m.id)
    case None =>
      var added := Member(s.nextMemberId, trimmed, ZeroStats, createdAt);
      assert added in s.members + [added];
      (s.(members := s.members + [added], nextMemberId := s.nextMemberId + 1), added.id)
  }

  /** The row written for one seat. */
  function SeatRow(gameId: int, p: PlayerScore, rank: int, bonus: real, id: int): ResultRow {
    ResultRow(gameId, Some(id), p.memberName, p.score, rank, bonus)
  }

  /** Row `row` records seat `k` of settlement `st` in game `gameId`. */
  predicate RecordsSeat(row: ResultRow, gameId: int, st: Settlement, k: int)
    requires 0 <= k < |st.sortedPlayers| && |st.ranks| == |st.sortedPlayers| && |st.rankBonuses| == |st.sortedPlayers|
  {
    && row.gameId == gameId
    && row.memberId.Some?
    && row.memberName == st.sortedPlayers[k].memberName
    && row.score == st.sortedPlayers[k].score
    && row.rank == st.ranks[k]
    && row.rankBonus == st.rankBonuses[k]
  }

  predicate WellShaped(st: Settlement) {
    |st.ranks| == |st.sortedPlayers| && |st.rankBonuses| == |st.sortedPlayers|
  }

  /** Resolve a seat's member and insert its row; the id goes back to the caller. */
  function InsertSeat(s: Store, gameId: int, p: PlayerScore, rank: int, bonus: real, createdAt: string): (r: (Store, int))
    ensures r.0.games == s.games && r.0.nextGameId == s.nextGameId
    ensures |r.0.results| == |s.results| + 1 && r.0.results[..|s.results|] == s.results
    ensures r.0.results[|s.results|] == SeatRow(gameId, p, rank, bonus, r.1)
  {
    var (s1, id) := GetOrCreateMember(s, p.memberName, createdAt);
    (s1.(results := s1.results + [SeatRow(gameId, p, rank, bonus, id)]), id)
  }

  /** One seat of the loop of `submitGame`: resolve the member, insert its row, recompute it. */
  function SubmitSeat(s: Store, gameId: int, p: PlayerScore, rank: int, bonus: real, createdAt: string): (s': Store)
    ensures s'.games == s.games && s'.nextGameId == s.nextGameId
    ensures |s'.results| == |s.results| + 1 && s'.results[..|s.results|] == s.results
    ensures var row := s'.results[|s.results|];
      && row.gameId == gameId && row.memberId.Some? && row.memberName == p.memberName
      && row.score == p.score && row.rank == rank && row.rankBonus == bonus
  {
    var (s1, id) := InsertSeat(s, gameId, p, rank, bonus, createdAt);
    UpdateMemberStats(s1, id)
  }

  /** `rows` record seats `i`, `i + 1`, ... of `st`, one row per seat, in settlement order. */
  predicate RecordsSeats(rows: seq<ResultRow>, gameId: int, st: Settlement, i: nat)
    requires WellShaped(st) && i <= |st.sortedPlayers|
    decreases |st.sortedPlayers| - i
  {
    && |rows| == |st.sortedPlayers| - i
    && (i < |st.sortedPlayers| ==>
          RecordsSeat(rows[0], gameId, st, i) && RecordsSeats(rows[1..], gameId, st, i + 1))
  }

  lemma {:induction false} RecordsSeatsAt(rows: seq<ResultRow>, gameId: int, st: Settlement, i: nat, k: nat)
    requires WellShaped(st) && i <= k < |st.sortedPlayers|
    requires RecordsSeats(rows, gameId, st, i)
    ensures k - i < |rows| && RecordsSeat(rows[k - i], gameId, st, k)
    decreases k - i
  {
    if i < k {
      RecordsSeatsAt(rows[1..], gameId, st, i + 1, k);
    }
  }

  /** The loop of `submitGame` from seat `i` on. */
  function SubmitSeats(s: Store, gameId: int, st: Settlement, i: nat, createdAt: string): (s': Store)
    requires WellShaped(st) && i <= |st.sortedPlayers|
    ensures s'.games == s.games && s'.nextGameId == s.nextGameId
    ensures |s.results| <= |s'.results| && s'.results[..|s.results|] == s.results
    ensures RecordsSeats(s'.results[|s.results|..], gameId, st, i)
    decreases |st.sortedPlayers| - i
  {
    if i == |st.sortedPlayers| then s
    else
      var s1 := SubmitSeat(s, gameId, st.sortedPlayers[i], st.ranks[i], st.rankBonuses[i], createdAt);
      var s2 := SubmitSeats(s1, gameId, st, i + 1, createdAt);
      SeatsShift(s.results, s1.results, s2.results, gameId, st, i);
      s2
  }

  /** One seat's row followed by the rows of the later seats are the rows from this seat on. */
  lemma SeatsShift(a: seq<ResultRow>, b: seq<ResultRow>, c: seq<ResultRow>, gameId: int, st: Settlement, i: nat)
    requires WellShaped(st) && i < |st.sortedPlayers|
    requires |b| == |a| + 1 && b[..|a|] == a && RecordsSeat(b[|a|], gameId, st, i)
    requires |b| <= |c| && c[..|b|] == b && RecordsSeats(c[|b|..], gameId, st, i + 1)
    ensures c[..|a|] == a
    ensures RecordsSeats(c[|a|..], gameId, st, i)
  {
    assert c[..|a|] == c[..|b|][..|a|];
    assert c[|a|..][0] == b[|a|];
    assert c[|a|..][1..] == c[|b|..];
  }

  lemma SeatsPointwise(rows: seq<ResultRow>, gameId: int, st: Settlement)
    requires WellShaped(st) && RecordsSeats(rows, gameId, st, 0)
    ensures |rows| == |st.sortedPlayers|
    ensures forall k :: 0 <= k < |rows| ==> RecordsSeat(rows[k], gameId, st, k)
  {
    forall k | 0 <= k < |rows| ensures RecordsSeat(rows[k], gameId, st, k) {
      RecordsSeatsAt(rows, gameId, st, 0, k);
    }
  }

  /** The insert into `game_records`: the record takes the next game id. */
  function OpenGame(s: Store, timestamp: string): (s': Store)
    ensures s'.members == s.members && s'.results == s.results && s'.nextMemberId == s.nextMemberId
    ensures GameIds(s'.games) == GameIds(s.games) + {s.nextGameId}
    ensures s'.games == s.games + [GameRecord(s.nextGameId, timestamp)] && s'.nextGameId == s.nextGameId + 1
  {
    var g := GameRecord(s.nextGameId, timestamp);
    assert g in s.games + [g];
    s.(games := s.games + [g], nextGameId := s.nextGameId + 1)
  }

  /** `submitGame(players)`: validate; settle; insert the game record with the next game
      id; then, seat by seat in settlement order, resolve the member, write the row and
      recompute the member. */
  function SubmitGame(s: Store, players: seq<Entry>, timestamp: string, createdAt: string): (r: Result<Store, GameError>)
    ensures ValidateGame(players).Failure? ==> r == Failure(ValidateGame(players).error)
    ensures r.Success? <==> ValidGame(players)
    ensures r.Success? ==>
      var st := Settle(Normalize(players));
      && r.value.games == s.games + [GameRecord(s.nextGameId, timestamp)]
      && r.value.nextGameId == s.nextGameId + 1
      && |s.results| <= |r.value.results|
      && r.value.results[..|s.results|] == s.results
      && var rows := r.value.results[|s.results|..];
         |rows| == 4 && forall k :: 0 <= k < 4 ==> RecordsSeat(rows[k], s.nextGameId, st, k)
  {
    match ValidateGame(players)
    case Failure(e) => Failure(e)
    case Success(ps) =>
      var st := Settle(ps);
      SettleShape(ps);
      var s' := SubmitSeats(OpenGame(s, timestamp), s.nextGameId, st, 0, createdAt);
      SeatsPointwise(s'.results[|s.results|..], s.nextGameId, st);
      Success(s')
  }

  // ---------------------------------------------------------------------------
  // submitGame keeps the store's invariants
  // ---------------------------------------------------------------------------

  /** The store invariants every action keeps: well formed, snapshots in agreement,
      statistics up to date. */
  predicate Invariants(s: Store) {
    Wellformed(s) && NamesAgree(s) && StatsConsistent(s)
  }

  /** The invariants, with the members in `ids` still to be recomputed. */
  predicate Pending(s: Store, ids: set<int>) {
    Wellformed(s) && NamesAgree(s) && ConsistentExcept(s, ids)
  }

  /** Statistics consistency can only get weaker as more members are exempted. */
  lemma ConsistentExceptGrows(s: Store, a: set<int>, b: set<int>)
    requires ConsistentExcept(s, a) && a <= b
    ensures ConsistentExcept(s, b)
  {
  }

  /** `getOrCreateMemberId` keeps the invariants and yields a member with the trimmed name. */
  lemma GetOrCreateKeepsInvariants(s: Store, name: string, createdAt: string, ids: set<int>)
    requires Wellformed(s) && NamesAgree(s) && ConsistentExcept(s, ids)
    ensures var (s1, id) := GetOrCreateMember(s, name, createdAt);
      && Wellformed(s1) && NamesAgree(s1) && ConsistentExcept(s1, ids)
      && MemberIds(s.members) <= MemberIds(s1.members)
      && exists m :: m in s1.members && m.id == id && m.name == Trim(name)
  {
    var trimmed := Trim(name);
    if MemberNamed(s.members, trimmed).None? {
      var added := Member(s.nextMemberId, trimmed, ZeroStats, createdAt);
      var s1 := s.(members := s.members + [added], nextMemberId := s.nextMemberId + 1);
      NextMemberIdHasNoRows(s);
      AppendMemberWellformed(s, added);
      forall m | m in s1.members && m.id !in ids ensures MemberConsistent(s1.results, m) {
        if m != added {
          assert m in s.members;
        }
      }
      forall x, m | x in s1.results && m in s1.members && x.memberId == Some(m.id)
        ensures x.memberName == m.name
      {
        assert m in s.members;
      }
      assert MemberIds(s1.members) == MemberIds(s.members) + {added.id};
    }
  }

  /** Writing a row whose references resolve keeps the store well formed. */
  lemma AppendRowWellformed(s: Store, row: ResultRow)
    requires Wellformed(s)
    requires row.memberId.Some? && row.memberId.value in MemberIds(s.members)
    requires row.gameId in GameIds(s.games)
    ensures Wellformed(s.(results := s.results + [row]))
  {
  }

  /** Writing a row that carries the name of the member it points at keeps the snapshots in agreement. */
  lemma AppendRowNames(s: Store, row: ResultRow, m: Member)
    requires UniqueMembers(s.members) && NamesAgree(s)
    requires m in s.members && row.memberId == Some(m.id) && row.memberName == m.name
    ensures NamesAgree(s.(results := s.results + [row]))
  {
    var s2 := s.(results := s.results + [row]);
    forall x, n | x in s2.results && n in s2.members && x.memberId == Some(n.id)
      ensures x.memberName == n.name
    {
      if x == row {
        UniqueMember(s.members, m, n);
      }
    }
  }

  lemma AppendOtherRow(rows: seq<ResultRow>, row: ResultRow, id: int)
    requires row.memberId != Some(id)
    ensures RowsOf(rows + [row], id) == RowsOf(rows, id)
  {
    RowsOfAppend(rows, [row], id);
    assert RowsOf([row], id) == [] by {
      assert [row][1..] == [];
    }
    assert RowsOf(rows, id) + [] == RowsOf(rows, id);
  }

  /** Writing a row for member `id` leaves only `id` to be recomputed. */
  lemma AppendRowStats(s: Store, row: ResultRow, id: int, ids: set<int>)
    requires ConsistentExcept(s, ids)
    requires row.memberId == Some(id)
    ensures ConsistentExcept(s.(results := s.results + [row]), ids + {id})
  {
    var s2 := s.(results := s.results + [row]);
    forall n | n in s2.members && n.id !in ids + {id} ensures MemberConsistent(s2.results, n) {
      assert MemberConsistent(s.results, n);
      AppendOtherRow(s.results, row, n.id);
    }
  }

  /** Inserting a seat keeps the store well formed and in agreement; only the seat's
      member is left to recompute. */
  lemma InsertSeatKeepsInvariants(s: Store, gameId: int, p: PlayerScore, rank: int, bonus: real, createdAt: string, ids: set<int>)
    requires Pending(s, ids)
    requires gameId in GameIds(s.games) && IsTrimmed(p.memberName)
    ensures var (s2, id) := InsertSeat(s, gameId, p, rank, bonus, createdAt);
      Pending(s2, ids + {id}) && id in MemberIds(s2.members)
  {
    var (s1, id) := GetOrCreateMember(s, p.memberName, createdAt);
    GetOrCreateKeepsInvariants(s, p.memberName, createdAt, ids);
    var m :| m in s1.members && m.id == id && m.name == Trim(p.memberName);
    TrimOfTrimmed(p.memberName);
    var row := SeatRow(gameId, p, rank, bonus, id);
    assert m.id in MemberIds(s1.members);
    AppendRowWellformed(s1, row);
    AppendRowNames(s1, row, m);
    AppendRowStats(s1, row, id, ids);
  }

  /** One seat of `submitGame` keeps every invariant. */
  lemma SubmitSeatKeepsInvariants(s: Store, gameId: int, p: PlayerScore, rank: int, bonus: real, createdAt: string)
    requires Invariants(s)
    requires gameId in GameIds(s.games) && IsTrimmed(p.memberName)
    ensures Invariants(SubmitSeat(s, gameId, p, rank, bonus, createdAt))
  {
    InsertSeatKeepsInvariants(s, gameId, p, rank, bonus, createdAt, {});
    var (s2, id) := InsertSeat(s, gameId, p, rank, bonus, createdAt);
    UpdateMemberStatsRestores(s2, {id}, id);
    UpdateMemberStatsKeepsInvariants(s2, id);
    assert {id} - {id} == {};
  }

  lemma {:induction false} SubmitSeatsKeepInvariants(s: Store, gameId: int, st: Settlement, i: nat, createdAt: string)
    requires WellShaped(st) && i <= |st.sortedPlayers|
    requires Invariants(s) && gameId in GameIds(s.games)
    requires forall k :: i <= k < |st.sortedPlayers| ==> IsTrimmed(st.sortedPlayers[k].memberName)
    ensures Invariants(SubmitSeats(s, gameId, st, i, createdAt))
    decreases |st.sortedPlayers| - i
  {
    if i < |st.sortedPlayers| {
      SubmitSeatKeepsInvariants(s, gameId, st.sortedPlayers[i], st.ranks[i], st.rankBonuses[i], createdAt);
      var s1 := SubmitSeat(s, gameId, st.sortedPlayers[i], st.ranks[i], st.rankBonuses[i], createdAt);
      SubmitSeatsKeepInvariants(s1, gameId, st, i + 1, createdAt);
      assert SubmitSeats(s, gameId, st, i, createdAt) == SubmitSeats(s1, gameId, st, i + 1, createdAt);
    }
  }

  /** The settlement of validated players carries trimmed names only. */
  lemma SettledNamesTrimmed(players: seq<Entry>)
    requires ValidGame(players)
    ensures var st := Settle(Normalize(players));
      WellShaped(st) && forall k :: 0 <= k < |st.sortedPlayers| ==> IsTrimmed(st.sortedPlayers[k].memberName)
  {
    var ps := Normalize(players);
    var st := Settle(ps);
    SettleShape(ps);
    forall k | 0 <= k < |st.sortedPlayers| ensures IsTrimmed(st.sortedPlayers[k].memberName) {
      assert st.sortedPlayers[k] in multiset(ps);
    }
  }

  lemma OpenGameKeepsInvariants(s: Store, timestamp: string)
    requires Invariants(s)
    ensures Invariants(OpenGame(s, timestamp)) && s.nextGameId in GameIds(OpenGame(s, timestamp).games)
  {
  }

  /** `submitGame` keeps the store well formed, every member's statistics up to date and
      every snapshot equal to its member's name. */
  lemma SubmitGameKeepsInvariants(s: Store, players: seq<Entry>, timestamp: string, createdAt: string)
    requires Invariants(s) && ValidGame(players)
    ensures SubmitGame(s, players, timestamp, createdAt).Success?
    ensures Invariants(SubmitGame(s, players, timestamp, createdAt).value)
  {
    var st := Settle(Normalize(players));
    var s1 := OpenGame(s, timestamp);
    assert SubmitGame(s, players, timestamp, createdAt) == Success(SubmitSeats(s1, s.nextGameId, st, 0, createdAt));
    OpenGameKeepsInvariants(s, timestamp);
    SettledNamesTrimmed(players);
    SubmitSeatsKeepInvariants(s1, s.nextGameId, st, 0, createdAt);
  }

  /** Four settled bonuses add up to 20, whatever the ties. */
  lemma FourBonusesSumToTwenty(ps: seq<PlayerScore>)
    requires |ps| == 4
    ensures var b := Settle(ps).rankBonuses;
      |b| == 4 && b[0] + b[1] + b[2] + b[3] == 20.0
  {
    BonusPool(ps);
    var b := Settle(ps).rankBonuses;
    assert Sum(b[3..]) == b[3] by {
      assert b[3..][1..] == [];
    }
    assert Sum(b[2..]) == b[2] + Sum(b[3..]) by {
      assert b[2..][1..] == b[3..];
    }
    assert Sum(b[1..]) == b[1] + Sum(b[2..]) by {
      assert b[1..][1..] == b[2..];
    }
  }

  /** The four rows of a submitted game share out exactly 20 bonus points, whatever the ties. */
  lemma SubmitGameBonusesSumToTwenty(s: Store, players: seq<Entry>, timestamp: string, createdAt: string)
    requires SubmitGame(s, players, timestamp, createdAt).Success?
    ensures var rows := SubmitGame(s, players, timestamp, createdAt).value.results[|s.results|..];
      |rows| == 4 && rows[0].rankBonus + rows[1].rankBonus + rows[2].rankBonus + rows[3].rankBonus == 20.0
  {
    FourBonusesSumToTwenty(Normalize(players));
  }

  // ---------------------------------------------------------------------------
  // Recompute sets
  // ---------------------------------------------------------------------------

  /** The `if (memberId)` guard: drops the falsy id 0. */
  function NonZero(ids: seq<int>): (r: seq<int>)
    ensures forall i :: i in r <==> i in ids && i != 0
  {
    if |ids| == 0 then []
    else (if ids[0] != 0 then [ids[0]] else []) + NonZero(ids[1..])
  }

  /** The ids of the members the rows point at. */
  function RowIds(rows: seq<ResultRow>): set<int> {
    set x | x in rows && x.memberId.Some? :: x.memberId.value
  }

  /** `deleteGameRecord`'s recompute list: `new Set(results.map(r => r.memberId).filter(Boolean))`,
      the loop's `if (memberId)` being redundant after the filter. */
  function DeleteRecomputeIds(rows: seq<ResultRow>): (ids: seq<int>)
    ensures Distinct(ids)
    ensures forall i :: i in ids <==> i in RowIds(rows) && i != 0
  {
    var r := Dedup(NonZero(PointedIds(rows)));
    assert forall i :: i in PointedIds(rows) <==> i in RowIds(rows);
    r
  }

  /** `updateGameRecord`'s recompute list: the old rows' truthy ids, then the new seats'
      ids, each once, without 0. */
  function UpdateRecomputeIds(oldRows: seq<ResultRow>, newIds: seq<int>): (ids: seq<int>)
    ensures Distinct(ids)
    ensures forall i :: i in ids <==> (i in RowIds(oldRows) || i in newIds) && i != 0
  {
    var oldIds := Dedup(NonZero(PointedIds(oldRows)));
    assert forall i :: i in PointedIds(oldRows) <==> i in RowIds(oldRows);
    NonZeroKeepsDistinct(Dedup(oldIds + Dedup(newIds)));
    NonZero(Dedup(oldIds + Dedup(newIds)))
  }

  lemma {:induction false} NonZeroKeepsDistinct(xs: seq<int>)
    requires Distinct(xs)
    ensures Distinct(NonZero(xs))
  {
    if |xs| > 0 {
      NonZeroKeepsDistinct(xs[1..]);
      assert xs[0] !in xs[1..] by {
        forall k | 0 <= k < |xs| - 1 ensures xs[1..][k] != xs[0] {
          assert xs[1..][k] == xs[k + 1];
        }
      }
    }
  }

  // ---------------------------------------------------------------------------
  // updateGameRecord and deleteGameRecord
  // ---------------------------------------------------------------------------

  /** The insert loop of `updateGameRecord` from seat `i` on: rows are written, ids
      collected, nobody is recomputed yet. */
  function InsertSeats(s: Store, gameId: int, st: Settlement, i: nat, createdAt: string): (r: (Store, seq<int>))
    requires WellShaped(st) && i <= |st.sortedPlayers|
    ensures r.0.games == s.games && r.0.nextGameId == s.nextGameId
    ensures |s.results| <= |r.0.results| && r.0.results[..|s.results|] == s.results
    ensures RecordsSeats(r.0.results[|s.results|..], gameId, st, i)
    ensures forall id :: id in r.1 <==> id in RowIds(r.0.results[|s.results|..])
    decreases |st.sortedPlayers| - i
  {
    if i == |st.sortedPlayers| then (s, [])
    else
      var (s1, id) := InsertSeat(s, gameId, st.sortedPlayers[i], st.ranks[i], st.rankBonuses[i], createdAt);
      var (s2, ids) := InsertSeats(s1, gameId, st, i + 1, createdAt);
      SeatsShift(s.results, s1.results, s2.results, gameId, st, i);
      RowIdsCons(s.results, s1.results, s2.results);
      (s2, [id] + ids)
  }

  lemma RowIdsCons(a: seq<ResultRow>, b: seq<ResultRow>, c: seq<ResultRow>)
    requires |b| == |a| + 1 && |b| <= |c| && c[..|b|] == b
    requires b[|a|].memberId.Some?
    ensures RowIds(c[|a|..]) == {b[|a|].memberId.value} + RowIds(c[|b|..])
  {
    assert c[|a|..] == [b[|a|]] + c[|b|..] by {
      assert c[|a|] == c[..|b|][|a|];
    }
  }

  /** `updateGameRecord(gameId, players)`: the same validation as `submitGame`; then the
      game's rows are replaced by four rows built from the settlement, and every member
      of the old or the new rows is recomputed. */
  function UpdateGameRecord(s: Store, gameId: int, players: seq<Entry>, createdAt: string): (r: Result<Store, GameError>)
    ensures ValidateGame(players).Failure? ==> r == Failure(ValidateGame(players).error)
    ensures r == Failure(UnknownGame) <==> ValidGame(players) && gameId !in GameIds(s.games)
    ensures r.Success? ==>
      var kept := Filter(s.results, GameNotIn({gameId}));
      && r.value.games == s.games && r.value.nextGameId == s.nextGameId
      && |kept| <= |r.value.results| && r.value.results[..|kept|] == kept
      && var rows := r.value.results[|kept|..];
         |rows| == 4 && forall k :: 0 <= k < 4 ==> RecordsSeat(rows[k], gameId, Settle(Normalize(players)), k)
  {
    match ValidateGame(players)
    case Failure(e) => Failure(e)
    case Success(ps) =>
      if gameId !in GameIds(s.games) then Failure(UnknownGame)
      else
        var st := Settle(ps);
        var s1 := s.(results := Filter(s.results, GameNotIn({gameId})));
        var (s2, newIds) := InsertSeats(s1, gameId, st, 0, createdAt);
        SeatsPointwise(s2.results[|s1.results|..], gameId, st);
        Success(UpdateEach(s2, UpdateRecomputeIds(Filter(s.results, GameIn({gameId})), newIds)))
  }

  /** `deleteGameRecord(gameId)`: delete the record and, by the cascade, its rows; then
      recompute every member those rows pointed at. */
  function DeleteGameRecord(s: Store, gameId: int): (s': Store)
    ensures forall g :: g in s'.games <==> g in s.games && g.id != gameId
    ensures forall x :: x in s'.results <==> x in s.results && x.gameId != gameId
    ensures s'.games == RecordNotIn(s.games, {gameId}) && s'.results == Filter(s.results, GameNotIn({gameId}))
    ensures forall g :: multiset(s'.games)[g] == if g.id == gameId then 0 else multiset(s.games)[g]
    ensures forall x :: multiset(s'.results)[x] == if x.gameId == gameId then 0 else multiset(s.results)[x]
    ensures |s'.members| == |s.members|
    ensures forall k :: 0 <= k < |s.members| ==>
      && s'.members[k].id == s.members[k].id && s'.members[k].name == s.members[k].name
      && (s.members[k].id !in RowIds(Filter(s.results, GameIn({gameId}))) ==> s'.members[k] == s.members[k])
  {
    var doomed := Filter(s.results, GameIn({gameId}));
    var s1 := s.(games := RecordNotIn(s.games, {gameId}), results := Filter(s.results, GameNotIn({gameId})));
    FilterCounts(s.results, GameNotIn({gameId}));
    UpdateEach(s1, DeleteRecomputeIds(doomed))
  }

  // ---------------------------------------------------------------------------
  // updateGameRecord and deleteGameRecord keep the store's invariants
  // ---------------------------------------------------------------------------

  /** Member ids are positive, so leaving at most the id 0 out exempts nobody. */
  lemma ConsistentExceptZero(s: Store, ids: set<int>)
    requires Wellformed(s) && ConsistentExcept(s, ids) && ids <= {0}
    ensures StatsConsistent(s)
  {
  }

  /** Recomputing every pending member but possibly 0 restores all invariants. */
  lemma RecomputeRestores(s: Store, ids: set<int>, todo: seq<int>)
    requires Pending(s, ids) && forall i :: i in ids && i != 0 ==> i in todo
    ensures Invariants(UpdateEach(s, todo))
  {
    UpdateEachRestores(s, ids, todo);
    UpdateEachKeepsInvariants(s, todo);
    var left := ids - (set i | i in todo);
    assert left <= {0} by {
      forall i | i in left ensures i == 0 {
      }
    }
    ConsistentExceptZero(UpdateEach(s, todo), left);
  }

  /** Dropping one game's rows keeps the store well formed and in agreement; only the
      members those rows pointed at are left to recompute. */
  lemma DropGameRows(s: Store, gameId: int)
    requires Invariants(s)
    ensures Pending(s.(results := Filter(s.results, GameNotIn({gameId}))), RowIds(Filter(s.results, GameIn({gameId}))))
  {
    var s1 := s.(results := Filter(s.results, GameNotIn({gameId})));
    var ids := RowIds(Filter(s.results, GameIn({gameId})));
    forall m | m in s1.members && m.id !in ids ensures MemberConsistent(s1.results, m) {
      forall x | x in s.results && !GameNotIn({gameId})(x) ensures x.memberId != Some(m.id) {
        assert x in Filter(s.results, GameIn({gameId}));
      }
      RowsOfFilter(s.results, GameNotIn({gameId}), m.id);
    }
  }

  lemma {:induction false} InsertSeatsKeepInvariants(s: Store, gameId: int, st: Settlement, i: nat, createdAt: string, ids: set<int>)
    requires WellShaped(st) && i <= |st.sortedPlayers|
    requires Pending(s, ids) && gameId in GameIds(s.games)
    requires forall k :: i <= k < |st.sortedPlayers| ==> IsTrimmed(st.sortedPlayers[k].memberName)
    ensures var (s2, newIds) := InsertSeats(s, gameId, st, i, createdAt);
      Pending(s2, ids + ToSet(newIds))
    decreases |st.sortedPlayers| - i
  {
    if i < |st.sortedPlayers| {
      var p := st.sortedPlayers[i];
      InsertSeatKeepsInvariants(s, gameId, p, st.ranks[i], st.rankBonuses[i], createdAt, ids);
      var (s1, id) := InsertSeat(s, gameId, p, st.ranks[i], st.rankBonuses[i], createdAt);
      InsertSeatsKeepInvariants(s1, gameId, st, i + 1, createdAt, ids + {id});
      var (s2, rest) := InsertSeats(s1, gameId, st, i + 1, createdAt);
      assert InsertSeats(s, gameId, st, i, createdAt) == (s2, [id] + rest);
      ToSetCons(id, rest);
    }
  }

  lemma ToSetCons(x: int, xs: seq<int>)
    ensures ToSet([x] + xs) == {x} + ToSet(xs)
  {
  }

  /** `updateGameRecord` on a known game keeps the store well formed, every member's
      statistics up to date and every snapshot equal to its member's name. */
  lemma UpdateGameRecordKeepsInvariants(s: Store, gameId: int, players: seq<Entry>, createdAt: string)
    requires Invariants(s) && ValidGame(players) && gameId in GameIds(s.games)
    ensures UpdateGameRecord(s, gameId, players, createdAt).Success?
    ensures Invariants(UpdateGameRecord(s, gameId, players, createdAt).value)
  {
    var st := Settle(Normalize(players));
    var oldRows := Filter(s.results, GameIn({gameId}));
    var s1 := s.(results := Filter(s.results, GameNotIn({gameId})));
    DropGameRows(s, gameId);
    SettledNamesTrimmed(players);
    InsertSeatsKeepInvariants(s1, gameId, st, 0, createdAt, RowIds(oldRows));
    var (s2, newIds) := InsertSeats(s1, gameId, st, 0, createdAt);
    var todo := UpdateRecomputeIds(oldRows, newIds);
    assert UpdateGameRecord(s, gameId, players, createdAt) == Success(UpdateEach(s2, todo));
    RecomputeRestores(s2, RowIds(oldRows) + ToSet(newIds), todo);
  }

  /** Removing a game record no remaining row refers to keeps the store well formed. */
  lemma DropGameRecordWellformed(s: Store, gameId: int)
    requires Wellformed(s)
    requires forall x :: x in s.results ==> x.gameId != gameId
    ensures Wellformed(s.(games := RecordNotIn(s.games, {gameId})))
  {
    var games := RecordNotIn(s.games, {gameId});
    forall x | x in s.results ensures x.gameId in GameIds(games) {
      var g :| g in s.games && g.id == x.gameId;
      assert g in games;
    }
  }

  /** `deleteGameRecord` keeps the store well formed, every member's statistics up to
      date and every snapshot equal to its member's name. */
  lemma DeleteGameRecordKeepsInvariants(s: Store, gameId: int)
    requires Invariants(s)
    ensures Invariants(DeleteGameRecord(s, gameId))
  {
    var oldRows := Filter(s.results, GameIn({gameId}));
    var s1 := s.(results := Filter(s.results, GameNotIn({gameId})));
    DropGameRows(s, gameId);
    DropGameRecordWellformed(s1, gameId);
    var s2 := s1.(games := RecordNotIn(s.games, {gameId}));
    var todo := DeleteRecomputeIds(oldRows);
    assert DeleteGameRecord(s, gameId) == UpdateEach(s2, todo);
    RecomputeRestores(s2, RowIds(oldRows), todo);
  }

  // ---------------------------------------------------------------------------
  // getSeasonStats
  // ---------------------------------------------------------------------------

  datatype SeasonStats = SeasonStats(hanchans: real, memberCount: nat)

  /** `members.reduce((sum, m) => sum + m.games, 0)`. */
  function TotalGames(members: seq<Member>): nat {
    if |members| == 0 then 0 else members[0].stats.games + TotalGames(members[1..])
  }

  /** `getSeasonStats`: the number of hanchans (a hanchan has four seats) and of members. */
  function GetSeasonStats(members: seq<Member>): (r: SeasonStats)
    ensures r.memberCount == |members|
    ensures r.hanchans >= 0.0 && 4.0 * r.hanchans == TotalGames(members) as real
  {
    SeasonStats(TotalGames(members) as real / 4.0, |members|)
  }

  predicate IsRanked(x: ResultRow) {
    1 <= x.rank <= 4
  }

  /** The number of rows whose rank is one of the four counted places. */
  function Ranked(rows: seq<ResultRow>): nat {
    if |rows| == 0 then 0 else (if IsRanked(rows[0]) then 1 else 0) + Ranked(rows[1..])
  }

  lemma {:induction false} RankedAppend(a: seq<ResultRow>, b: seq<ResultRow>)
    ensures Ranked(a + b) == Ranked(a) + Ranked(b)
  {
    if |a| == 0 {
      assert a + b == b;
    } else {
      assert (a + b)[1..] == a[1..] + b;
      RankedAppend(a[1..], b);
    }
  }

  /** The four place counters of the fold add up to the rows with a counted place. */
  lemma {:induction false} FoldGames(rows: seq<ResultRow>)
    ensures var t := Fold(Placings(rows)); t.first + t.second + t.third + t.fourth == Ranked(rows)
    decreases |rows|
  {
    if |rows| > 0 {
      var init := rows[..|rows| - 1];
      var last := rows[|rows| - 1];
      FoldGames(init);
      assert Placings(rows)[..|rows| - 1] == Placings(init);
      assert rows == init + [last];
      RankedAppend(init, [last]);
      assert [last][1..] == [];
    }
  }

  /** A member's `games` is the number of its rows with a counted place. */
  lemma GamesCountRankedRows(rows: seq<ResultRow>)
    ensures Recompute(rows).games == Ranked(rows)
  {
    if |rows| > 0 {
      FoldGames(rows);
    }
  }

  /** The counted rows of the members, member by member. */
  function RankedPerMember(ms: seq<Member>, rows: seq<ResultRow>): nat {
    if |ms| == 0 then 0 else Ranked(RowsOf(rows, ms[0].id)) + RankedPerMember(ms[1..], rows)
  }

  predicate PointsInto(x: ResultRow, ms: seq<Member>) {
    exists m :: m in ms && x.memberId == Some(m.id)
  }

  lemma UniqueTail(ms: seq<Member>)
    requires |ms| > 0 && UniqueMembers(ms)
    ensures UniqueMembers(ms[1..])
    ensures forall m :: m in ms[1..] ==> m.id != ms[0].id
  {
    forall m | m in ms[1..] ensures m.id != ms[0].id {
      var k :| 0 <= k < |ms[1..]| && ms[1..][k] == m;
      assert ms[k + 1] == m;
    }
  }

  /** One more row adds one to exactly the member it points at, when its place counts. */
  lemma {:induction false} RankedPerMemberCons(ms: seq<Member>, x: ResultRow, rest: seq<ResultRow>)
    requires UniqueMembers(ms)
    ensures RankedPerMember(ms, [x] + rest) ==
      RankedPerMember(ms, rest) + (if IsRanked(x) && PointsInto(x, ms) then 1 else 0)
  {
    if |ms| > 0 {
      UniqueTail(ms);
      RankedPerMemberCons(ms[1..], x, rest);
      assert ([x] + rest)[1..] == rest;
      assert RowsOf([x] + rest, ms[0].id) ==
        (if x.memberId == Some(ms[0].id) then [x] else []) + RowsOf(rest, ms[0].id);
      RankedAppend(if x.memberId == Some(ms[0].id) then [x] else [], RowsOf(rest, ms[0].id));
      assert [x][1..] == [];
      if x.memberId == Some(ms[0].id) {
        assert ms[0] in ms;
        assert !PointsInto(x, ms[1..]);
      } else if PointsInto(x, ms) {
        var m :| m in ms && x.memberId == Some(m.id);
        assert m in ms[1..];
      } else {
        assert !PointsInto(x, ms[1..]);
      }
    }
  }

  /** Counting member by member counts every row that points at a member exactly once. */
  lemma {:induction false} RankedPerMemberCountsRows(ms: seq<Member>, rows: seq<ResultRow>)
    requires UniqueMembers(ms)
    requires forall x :: x in rows ==> PointsInto(x, ms)
    ensures RankedPerMember(ms, rows) == Ranked(rows)
  {
    if |rows| == 0 {
      RankedPerMemberEmpty(ms);
    } else {
      assert rows == [rows[0]] + rows[1..];
      assert rows[0] in rows;
      RankedPerMemberCons(ms, rows[0], rows[1..]);
      RankedPerMemberCountsRows(ms, rows[1..]);
    }
  }

  lemma {:induction false} RankedPerMemberEmpty(ms: seq<Member>)
    ensures RankedPerMember(ms, []) == 0
  {
    if |ms| > 0 {
      RankedPerMemberEmpty(ms[1..]);
    }
  }

  /** With up-to-date statistics, the members' `games` add up member by member. */
  lemma {:induction false} TotalGamesPerMember(ms: seq<Member>, rows: seq<ResultRow>)
    requires forall m :: m in ms ==> MemberConsistent(rows, m)
    ensures TotalGames(ms) == RankedPerMember(ms, rows)
  {
    if |ms| > 0 {
      assert ms[0] in ms;
      GamesCountRankedRows(RowsOf(rows, ms[0].id));
      TotalGamesPerMember(ms[1..], rows);
    }
  }

  /** In a consistent store whose rows all point at members, four hanchans are exactly the
      rows with a counted place: each finished game contributes four. */
  lemma SeasonHanchansCountRows(s: Store)
    requires Invariants(s)
    requires forall x :: x in s.results ==> x.memberId.Some?
    ensures 4.0 * GetSeasonStats(s.members).hanchans == Ranked(s.results) as real
  {
    forall x | x in s.results ensures PointsInto(x, s.members) {
      var m :| m in s.members && m.id == x.memberId.value;
    }
    TotalGamesPerMember(s.members, s.results);
    RankedPerMemberCountsRows(s.members, s.results);
  }
}

=== FILE: legacy_data.dfy ===
/** The legacy import and the export of src/app/actions/data.ts: the record validator
    `parseLegacyPlayers`, the split of the input into importable games and skipped
    records, the store the import rebuilds, and the exported record shape together with
    its re-import. */
module LegacyData {
  import opened Wrappers
  import opened Text
  import opened Scoring
  import opened SettlementFacts
  import opened Schema
  import opened MemberStats
  import opened Members
  import opened Games

  /** A JSON value after `JSON.parse`, as far as the import tells values apart. A number
      may be non-finite (`1e999` parses to Infinity). */
  datatype JsValue =
    | JsNull
    | JsBool(b: bool)
    | JsNum(n: JsNumber)
    | JsStr(s: string)
    | JsArray(items: seq<JsValue>)
    | JsObject

  /** One element of `inputRecords`; `None` is an absent field. `derived` holds the fields
      an old export also carried (`id`, `sortedMembers`, `ranks`, `rankBonuses`, ...). */
  datatype LegacyRecord = LegacyRecord(
    members: Option<JsValue>,
    scores: Option<JsValue>,
    timestamp: Option<JsValue>,
    derived: seq<JsValue>)

  datatype LegacyError =
    | MissingFields            // `members` or `scores` is not an array
    | WrongLength              // either array does not have four elements
    | BlankSeatName(seat: nat) // the first bad seat has a blank name
    | BadSeatScore(seat: nat)  // the first bad seat has a name but no finite score
    | DuplicatePlayers
    | TotalMismatch(total: real)

  /** The engine's conversions the parser relies on: `String(x)` for a value that is
      neither a string nor null, and `Number(s)` for a string. */
  datatype Coercions = Coercions(show: JsValue -> string, toNumber: string -> JsNumber)

  // ---------------------------------------------------------------------------
  // parseLegacyPlayers
  // ---------------------------------------------------------------------------

  /** `typeof raw === 'string' ? raw : String(raw ?? '')`. */
  function NameText(raw: JsValue, c: Coercions): string {
    match raw
    case JsStr(s) => s
    case JsNull => []
    case _ => c.show(raw)
  }

  /** `typeof raw === 'number' ? raw : typeof raw === 'string' ? Number(raw) : NaN`. */
  function ScoreValue(raw: JsValue, c: Coercions): JsNumber {
    match raw
    case JsNum(n) => n
    case JsStr(s) => c.toNumber(s)
    case _ => NonFinite
  }

  function SeatName(members: seq<JsValue>, k: nat, c: Coercions): string
    requires k < |members|
  {
    Trim(NameText(members[k], c))
  }

  /** Seat `k` has a non-blank name and a finite score. */
  predicate SeatOk(members: seq<JsValue>, scores: seq<JsValue>, k: nat, c: Coercions)
    requires k < |members| && k < |scores|
  {
    SeatName(members, k, c) != [] && ScoreValue(scores[k], c).Finite?
  }

  function SeatPlayer(members: seq<JsValue>, scores: seq<JsValue>, k: nat, c: Coercions): PlayerScore
    requires k < |members| && k < |scores| && SeatOk(members, scores, k, c)
  {
    PlayerScore(SeatName(members, k, c), ScoreValue(scores[k], c).value)
  }

  /** `e` reports the first bad seat at or after `i`, naming the name when that is blank. */
  predicate FirstBadSeat(members: seq<JsValue>, scores: seq<JsValue>, i: nat, e: LegacyError, c: Coercions)
    requires |members| == |scores|
  {
    && (e.BlankSeatName? || e.BadSeatScore?)
    && i <= e.seat < |members|
    && (forall j :: i <= j < e.seat ==> SeatOk(members, scores, j, c))
    && !SeatOk(members, scores, e.seat, c)
    && (e.BlankSeatName? <==> SeatName(members, e.seat, c) == [])
  }

  /** The players of seats `i` onwards, when every one of them is good. */
  function SeatsFrom(members: seq<JsValue>, scores: seq<JsValue>, i: nat, c: Coercions): (ps: seq<PlayerScore>)
    requires |members| == |scores| && i <= |members|
    requires forall k :: i <= k < |members| ==> SeatOk(members, scores, k, c)
    ensures |ps| == |members| - i
    ensures forall k :: i <= k < |members| ==> ps[k - i] == SeatPlayer(members, scores, k, c)
    decreases |members| - i
  {
    if i == |members| then [] else [SeatPlayer(members, scores, i, c)] + SeatsFrom(members, scores, i + 1, c)
  }

  /** The seat loop of `parseLegacyPlayers` from seat `i` on: the name of a seat is
      checked before its score, and the first bad seat ends the parse. */
  function ParseSeats(members: seq<JsValue>, scores: seq<JsValue>, i: nat, c: Coercions): (r: Result<seq<PlayerScore>, LegacyError>)
    requires |members| == |scores| && i <= |members|
    ensures r.Success? <==> forall k :: i <= k < |members| ==> SeatOk(members, scores, k, c)
    ensures r.Success? ==> r.value == SeatsFrom(members, scores, i, c)
    ensures r.Failure? ==> FirstBadSeat(members, scores, i, r.error, c)
    decreases |members| - i
  {
    if i == |members| then Success([])
    else
      var name := SeatName(members, i, c);
      if name == [] then
        assert !SeatOk(members, scores, i, c);
        Failure(BlankSeatName(i))
      else match ScoreValue(scores[i], c)
        case NonFinite =>
          assert !SeatOk(members, scores, i, c);
          Failure(BadSeatScore(i))
        case Finite(v) =>
          assert SeatOk(members, scores, i, c);
          match ParseSeats(members, scores, i + 1, c)
          case Failure(e) => Failure(e)
          case Success(rest) => Success([PlayerScore(name, v)] + rest)
  }

  /** Both fields are arrays. */
  predicate HasArrays(rec: LegacyRecord) {
    rec.members.Some? && rec.members.value.JsArray? && rec.scores.Some? && rec.scores.value.JsArray?
  }

  /** Both fields are arrays of four. */
  predicate WellSized(rec: LegacyRecord) {
    HasArrays(rec) && |rec.members.value.items| == 4 && |rec.scores.value.items| == 4
  }

  predicate AllSeatsOk(rec: LegacyRecord, c: Coercions)
    requires WellSized(rec)
  {
    forall k :: 0 <= k < 4 ==> SeatOk(rec.members.value.items, rec.scores.value.items, k, c)
  }

  /** The four players of a record whose seats are all good, in input order. */
  function Seats(rec: LegacyRecord, c: Coercions): (ps: seq<PlayerScore>)
    requires WellSized(rec) && AllSeatsOk(rec, c)
    ensures |ps| == 4
  {
    SeatsFrom(rec.members.value.items, rec.scores.value.items, 0, c)
  }

  /** Player `k` of a record is the player of seat `k`. */
  lemma SeatsAt(rec: LegacyRecord, c: Coercions)
    requires WellSized(rec) && AllSeatsOk(rec, c)
    ensures forall k :: 0 <= k < 4 ==> Seats(rec, c)[k] == SeatPlayer(rec.members.value.items, rec.scores.value.items, k, c)
  {
  }

  /** What an importable record is, independent of the order of the checks. */
  predicate Importable(rec: LegacyRecord, c: Coercions) {
    && WellSized(rec)
    && AllSeatsOk(rec, c)
    && Distinct(Names(Seats(rec, c)))
    && WithinTotal(TotalScore(Seats(rec, c)))
  }

  /** The last two checks of `parseLegacyPlayers`, on the four parsed players: repeated
      names first, then the total. */
  function CheckPlayers(players: seq<PlayerScore>): (r: Result<seq<PlayerScore>, LegacyError>)
    requires |players| == 4
    ensures r.Success? <==> Distinct(Names(players)) && WithinTotal(TotalScore(players))
    ensures r.Success? ==> r.value == players
    ensures r.Failure? ==> r.error.DuplicatePlayers? || r.error.TotalMismatch?
    ensures r == Failure(DuplicatePlayers) <==> !Distinct(Names(players))
    ensures r.Failure? && r.error.TotalMismatch? ==>
      Distinct(Names(players)) && r.error.total == TotalScore(players) && !WithinTotal(r.error.total)
  {
    DistinctIffSetSize(Names(players));
    if |ToSet(Names(players))| != 4 then Failure(DuplicatePlayers)
    else
      var total := TotalScore(players);
      if Abs(total - TotalGameScore) > TotalGameScoreTolerance then Failure(TotalMismatch(total))
      else Success(players)
  }

  /** On a well-sized record, the seat loop succeeds exactly when every seat is good, and
      then yields the seats in input order. */
  lemma ParseSeatsOfRecord(rec: LegacyRecord, c: Coercions)
    requires WellSized(rec)
    ensures ParseSeats(rec.members.value.items, rec.scores.value.items, 0, c).Success? <==> AllSeatsOk(rec, c)
    ensures ParseSeats(rec.members.value.items, rec.scores.value.items, 0, c).Success? ==>
      ParseSeats(rec.members.value.items, rec.scores.value.items, 0, c).value == Seats(rec, c)
  {
  }

  /** `parseLegacyPlayers(record)`: the first failing check decides the error; on success
      the four players in input order, names trimmed. */
  function ParseLegacyPlayers(rec: LegacyRecord, c: Coercions): (r: Result<seq<PlayerScore>, LegacyError>)
    ensures r.Success? <==> Importable(rec, c)
    ensures r.Success? ==> r.value == Seats(rec, c)
    ensures r == Failure(MissingFields) <==> !HasArrays(rec)
    ensures r == Failure(WrongLength) <==> HasArrays(rec) && !WellSized(rec)
    ensures r.Failure? && (r.error.BlankSeatName? || r.error.BadSeatScore?) ==>
      WellSized(rec) && FirstBadSeat(rec.members.value.items, rec.scores.value.items, 0, r.error, c)
    ensures r == Failure(DuplicatePlayers) <==>
      WellSized(rec) && AllSeatsOk(rec, c) && !Distinct(Names(Seats(rec, c)))
    ensures r.Failure? && r.error.TotalMismatch? ==>
      && WellSized(rec) && AllSeatsOk(rec, c) && Distinct(Names(Seats(rec, c)))
      && r.error.total == TotalScore(Seats(rec, c)) && !WithinTotal(r.error.total)
  {
    if !HasArrays(rec) then Failure(MissingFields)
    else if !WellSized(rec) then Failure(WrongLength)
    else
      ParseSeatsOfRecord(rec, c);
      match ParseSeats(rec.members.value.items, rec.scores.value.items, 0, c)
      case Failure(e) => Failure(e)
      case Success(players) => CheckPlayers(players)
  }

  /** The derived fields of an old export play no part in parsing. */
  lemma ParseIgnoresDerivedFields(rec: LegacyRecord, other: seq<JsValue>, c: Coercions)
    ensures ParseLegacyPlayers(rec.(derived := other), c) == ParseLegacyPlayers(rec, c)
  {
  }

  /** With well-sized arrays and good seats, the legacy parser accepts exactly what the
      `submitGame` validation accepts for the same coerced players, and returns the same. */
  lemma ParseAgreesWithGameValidation(rec: LegacyRecord, c: Coercions)
    requires WellSized(rec) && AllSeatsOk(rec, c)
    ensures var entries := seq(4, k requires 0 <= k < 4 =>
        Entry(NameText(rec.members.value.items[k], c), ScoreValue(rec.scores.value.items[k], c)));
      ParseLegacyPlayers(rec, c).Success? <==> ValidateGame(entries).Success?
    ensures var entries := seq(4, k requires 0 <= k < 4 =>
        Entry(NameText(rec.members.value.items[k], c), ScoreValue(rec.scores.value.items[k], c)));
      ParseLegacyPlayers(rec, c).Success? ==> ParseLegacyPlayers(rec, c).value == ValidateGame(entries).value
  {
    var entries := seq(4, k requires 0 <= k < 4 =>
        Entry(NameText(rec.members.value.items[k], c), ScoreValue(rec.scores.value.items[k], c)));
    forall k | 0 <= k < 4
      ensures entries[k].score.Finite?
    {
      assert SeatOk(rec.members.value.items, rec.scores.value.items, k, c);
    }
    SeatsAt(rec, c);
    var ps := Normalize(entries);
    assert ps == Seats(rec, c);
    forall k | 0 <= k < 4
      ensures ps[k].memberName != []
    {
      assert SeatOk(rec.members.value.items, rec.scores.value.items, k, c);
    }
  }

  // ---------------------------------------------------------------------------
  // importLegacyData: which records become games
  // ---------------------------------------------------------------------------

  /** An accepted record: its timestamp and its four players in input order. */
  datatype ImportedGame = ImportedGame(timestamp: string, players: seq<PlayerScore>)

  /** A skipped record: its position in the input, why it was skipped, and the record. */
  datatype SkippedRecord = SkippedRecord(index: nat, error: LegacyError, raw: LegacyRecord)

  datatype Split = Split(valid: seq<ImportedGame>, skipped: seq<SkippedRecord>)

  /** The record's own timestamp when it is a string that is not blank, otherwise `now`
      (the local time at the import). */
  function TimestampOf(rec: LegacyRecord, now: string): string {
    if rec.timestamp.Some? && rec.timestamp.value.JsStr? && Trim(rec.timestamp.value.s) != []
    then rec.timestamp.value.s
    else now
  }

  /** A record validator; the split below does not depend on which one. */
  type Parser = LegacyRecord -> Result<seq<PlayerScore>, LegacyError>

  /** `parseLegacyPlayers` as the validator of the import. */
  function Legacy(c: Coercions): Parser {
    rec => ParseLegacyPlayers(rec, c)
  }

  /** Reference definition: the positions, ascending, of the records `parse` accepts
      (`accepted`) or rejects (`!accepted`). */
  function Positions(records: seq<LegacyRecord>, parse: Parser, accepted: bool): (ps: seq<nat>)
    ensures forall k :: 0 <= k < |ps| ==> ps[k] < |records| && parse(records[ps[k]]).Success? == accepted
    ensures forall j :: 0 <= j < |records| && parse(records[j]).Success? == accepted ==> j in ps
    ensures forall a, b :: 0 <= a < b < |ps| ==> ps[a] < ps[b]
  {
    if |records| == 0 then []
    else
      var n := |records| - 1;
      Positions(records[..n], parse, accepted) + (if parse(records[n]).Success? == accepted then [n] else [])
  }

  /** The record loop of `importLegacyData`: an accepted record becomes a game, a rejected
      one is logged with its position and error; both lists keep the input order. */
  function Partition(records: seq<LegacyRecord>, parse: Parser, now: string): (r: Split)
    ensures |r.valid| + |r.skipped| == |records|
  {
    if |records| == 0 then Split([], [])
    else
      var n := |records| - 1;
      var r := Partition(records[..n], parse, now);
      match parse(records[n])
      case Success(players) => Split(r.valid + [ImportedGame(TimestampOf(records[n], now), players)], r.skipped)
      case Failure(e) => Split(r.valid, r.skipped + [SkippedRecord(n, e, records[n])])
  }

  /** The games of the split are the accepted records, in input order, with their parsed
      players and their timestamps. */
  lemma {:induction false} PartitionValid(records: seq<LegacyRecord>, parse: Parser, now: string)
    ensures var r := Partition(records, parse, now);
      && |r.valid| == |Positions(records, parse, true)|
      && forall k :: 0 <= k < |r.valid| ==>
        var j := Positions(records, parse, true)[k];
        r.valid[k] == ImportedGame(TimestampOf(records[j], now), parse(records[j]).value)
  {
    if |records| > 0 {
      var n := |records| - 1;
      var init := records[..n];
      PartitionValid(init, parse, now);
      var r, ri := Partition(records, parse, now), Partition(init, parse, now);
      var ps, pi := Positions(records, parse, true), Positions(init, parse, true);
      forall k | 0 <= k < |r.valid|
        ensures r.valid[k] == ImportedGame(TimestampOf(records[ps[k]], now), parse(records[ps[k]]).value)
      {
        if k < |ri.valid| {
          assert r.valid[k] == ri.valid[k] && ps[k] == pi[k] && init[pi[k]] == records[pi[k]];
        }
      }
    }
  }

  /** The skipped entries are the rejected records, in input order, each with its position,
      its error and the record itself. */
  lemma {:induction false} PartitionSkipped(records: seq<LegacyRecord>, parse: Parser, now: string)
    ensures var r := Partition(records, parse, now);
      && |r.skipped| == |Positions(records, parse, false)|
      && forall k :: 0 <= k < |r.skipped| ==>
        var j := Positions(records, parse, false)[k];
        r.skipped[k] == SkippedRecord(j, parse(records[j]).error, records[j])
  {
    if |records| > 0 {
      var n := |records| - 1;
      var init := records[..n];
      PartitionSkipped(init, parse, now);
      var r, ri := Partition(records, parse, now), Partition(init, parse, now);
      var ps, pi := Positions(records, parse, false), Positions(init, parse, false);
      forall k | 0 <= k < |r.skipped|
        ensures r.skipped[k] == SkippedRecord(ps[k], parse(records[ps[k]]).error, records[ps[k]])
      {
        if k < |ri.skipped| {
          assert r.skipped[k] == ri.skipped[k] && ps[k] == pi[k] && init[pi[k]] == records[pi[k]];
        }
      }
    }
  }

  /** Every record is accepted or skipped, never both: the two position lists split the
      input between them. */
  lemma {:induction false} PositionsSplitInput(records: seq<LegacyRecord>, parse: Parser)
    ensures |Positions(records, parse, true)| + |Positions(records, parse, false)| == |records|
    ensures forall j :: 0 <= j < |records| ==> (j in Positions(records, parse, true) <==> j !in Positions(records, parse, false))
  {
    if |records| > 0 {
      PositionsSplitInput(records[..|records| - 1], parse);
    }
  }

  /** The import finds nothing to import exactly when no record is importable. */
  lemma NothingAcceptedIff(records: seq<LegacyRecord>, c: Coercions)
    ensures |Positions(records, Legacy(c), true)| == 0 <==> forall j :: 0 <= j < |records| ==> !Importable(records[j], c)
  {
    if |Positions(records, Legacy(c), true)| > 0 {
      assert Positions(records, Legacy(c), true)[0] < |records|;
    }
  }

  // ---------------------------------------------------------------------------
  // importLegacyData: the rebuilt store
  // ---------------------------------------------------------------------------

  /** The `inputRecords` field: missing or falsy, present but not an array, or an array
      whose elements are records or `null`. An element that is neither (a number, a
      string) reads as a record with every field missing. */
  datatype RecordsField = Absent | NotArray | Records(items: seq<Option<LegacyRecord>>)

  /** The import text: not JSON at all (or JSON `null`), or a parsed value. */
  datatype ImportInput = Unreadable | Parsed(inputRecords: RecordsField)

  datatype ImportError =
    | ImportDisabled   // DISABLE_IMPORT is set
    | BadFormat        // the text is not JSON, or reading a field of a `null` record throws
    | MissingRecords
    | RecordsNotArray
    | NothingValid     // every record was skipped; nothing has been deleted

  /** What a successful import reports: the new store, the split, and the member count. */
  datatype ImportReport = ImportReport(store: Store, split: Split, memberCount: nat)

  predicate NoNullRecord(items: seq<Option<LegacyRecord>>) {
    forall i :: 0 <= i < |items| ==> items[i].Some?
  }

  function Present(items: seq<Option<LegacyRecord>>): (rs: seq<LegacyRecord>)
    requires NoNullRecord(items)
    ensures |rs| == |items| && forall i :: 0 <= i < |items| ==> rs[i] == items[i].value
  {
    seq(|items|, i requires 0 <= i < |items| => items[i].value)
  }

  /** Every player name of the accepted games, game by game and seat by seat. */
  function PlayerNames(games: seq<ImportedGame>): seq<string> {
    if |games| == 0 then [] else Names(games[0].players) + PlayerNames(games[1..])
  }

  /** Fresh members, one per name, with consecutive ids from `first` and default statistics. */
  function NewMembers(names: seq<string>, first: int, createdAt: string): (ms: seq<Member>)
    ensures |ms| == |names|
    ensures forall k :: 0 <= k < |ms| ==> ms[k] == Member(first + k, names[k], ZeroStats, createdAt)
  {
    seq(|names|, k requires 0 <= k < |names| => Member(first + k, names[k], ZeroStats, createdAt))
  }

  function Consecutive(first: int, n: nat): (ids: seq<int>)
    ensures |ids| == n && forall k :: 0 <= k < n ==> ids[k] == first + k
  {
    seq(n, k requires 0 <= k < n => first + k)
  }

  /** `memberMap.get(name) || null`. */
  function ImportedId(members: seq<Member>, name: string): Option<int> {
    match MemberNamed(members, name)
    case Some(m) => if m.id != 0 then Some(m.id) else None
    case None => None
  }

  /** The rows of one imported game: seat `k` of the settlement, pointing at the member of
      that name. */
  function ImportRows(st: Settlement, gameId: int, members: seq<Member>): (rows: seq<ResultRow>)
    requires WellShaped(st)
    ensures |rows| == |st.sortedPlayers|
    ensures forall k :: 0 <= k < |rows| ==>
      rows[k] == ResultRow(gameId, ImportedId(members, st.sortedPlayers[k].memberName), st.sortedPlayers[k].memberName,
                           st.sortedPlayers[k].score, st.ranks[k], st.rankBonuses[k])
  {
    seq(|st.sortedPlayers|, k requires 0 <= k < |st.sortedPlayers| =>
      ResultRow(gameId, ImportedId(members, st.sortedPlayers[k].memberName), st.sortedPlayers[k].memberName,
                st.sortedPlayers[k].score, st.ranks[k], st.rankBonuses[k]))
  }

  /** The rows of one imported game, its raw players settled afresh by `processTiedScores`. */
  function SettledRows(players: seq<PlayerScore>, gameId: int, members: seq<Member>): (rows: seq<ResultRow>)
    ensures forall r :: r in rows ==> r.gameId == gameId
  {
    SettleShape(players);
    ImportRows(Settle(players), gameId, members)
  }

  /** Builds the rows of one game given its id; the loop below does not depend on how. */
  type RowMaker = (ImportedGame, int) -> seq<ResultRow>

  /** Every row `make` builds carries the game id it was given. */
  ghost predicate TagsGame(make: RowMaker) {
    forall g, id, r :: r in make(g, id) ==> r.gameId == id
  }

  /** Every row `make` builds that points at a member points at the member of its name. */
  ghost predicate PointsByName(make: RowMaker, members: seq<Member>) {
    forall g, id, r :: r in make(g, id) && r.memberId.Some? ==>
      MemberNamed(members, r.memberName).Some? && MemberNamed(members, r.memberName).value.id == r.memberId.value
  }

  /** The rows the loop writes for `games`, the first game getting id `firstId`. */
  function RowsFor(make: RowMaker, games: seq<ImportedGame>, firstId: int): seq<ResultRow>
    decreases |games|
  {
    if |games| == 0 then [] else make(games[0], firstId) + RowsFor(make, games[1..], firstId + 1)
  }

  /** The import's row builder: the settlement of the game's players, pointing by name. */
  function Settling(members: seq<Member>): RowMaker {
    (g: ImportedGame, id: int) => SettledRows(g.players, id, members)
  }

  function GameRows(members: seq<Member>, games: seq<ImportedGame>, firstId: int): seq<ResultRow> {
    RowsFor(Settling(members), games, firstId)
  }

  lemma SettlingApplies(members: seq<Member>, g: ImportedGame, id: int)
    ensures Settling(members)(g, id) == SettledRows(g.players, id, members)
  {
  }

  /** The import's row builder tags rows with their game and points them by name. */
  lemma SettlingFacts(members: seq<Member>)
    ensures TagsGame(Settling(members)) && PointsByName(Settling(members), members)
  {
    forall g, id, r | r in Settling(members)(g, id) && r.memberId.Some?
      ensures MemberNamed(members, r.memberName).Some? && MemberNamed(members, r.memberName).value.id == r.memberId.value
    {
      var rows := SettledRows(g.players, id, members);
      var k :| 0 <= k < |rows| && rows[k] == r;
    }
  }

  function GameRecords(games: seq<ImportedGame>, firstId: int): (rs: seq<GameRecord>)
    ensures |rs| == |games|
    ensures forall k :: 0 <= k < |games| ==> rs[k] == GameRecord(firstId + k, games[k].timestamp)
  {
    seq(|games|, k requires 0 <= k < |games| => GameRecord(firstId + k, games[k].timestamp))
  }

  /** `importLegacyData(jsonData)`. A failure leaves the store as it was: in particular
      `NothingValid` is decided before anything is deleted. On success all three tables
      are emptied (the id counters carry on), one member is created per distinct player
      name in order of first appearance, the games are written in input order with ranks
      and bonuses settled afresh, and every new member's statistics are recomputed. */
  function ImportLegacyData(s: Store, importEnabled: bool, input: ImportInput, c: Coercions, now: string, createdAt: string)
    : (r: Result<ImportReport, ImportError>)
    ensures r == Failure(ImportDisabled) <==> !importEnabled
    ensures r == Failure(BadFormat) <==>
      importEnabled && (input.Unreadable? || (input.inputRecords.Records? && !NoNullRecord(input.inputRecords.items)))
    ensures r == Failure(MissingRecords) <==> importEnabled && input.Parsed? && input.inputRecords.Absent?
    ensures r == Failure(RecordsNotArray) <==> importEnabled && input.Parsed? && input.inputRecords.NotArray?
    ensures r == Failure(NothingValid) <==>
      && importEnabled && input.Parsed? && input.inputRecords.Records? && NoNullRecord(input.inputRecords.items)
      && forall i :: 0 <= i < |input.inputRecords.items| ==> !Importable(input.inputRecords.items[i].value, c)
    ensures r.Success? ==>
      && input.Parsed? && input.inputRecords.Records? && NoNullRecord(input.inputRecords.items)
      && r.value.split == Partition(Present(input.inputRecords.items), Legacy(c), now)
      && |r.value.split.valid| > 0
      && r.value.memberCount == |r.value.store.members|
      && r.value.store == Rebuild(s, r.value.split.valid, createdAt)
  {
    if !importEnabled then Failure(ImportDisabled)
    else match input
      case Unreadable => Failure(BadFormat)
      case Parsed(Absent) => Failure(MissingRecords)
      case Parsed(NotArray) => Failure(RecordsNotArray)
      case Parsed(Records(items)) =>
        if !NoNullRecord(items) then Failure(BadFormat)
        else
          var split := Partition(Present(items), Legacy(c), now);
          NoValidGameIff(items, c, now);
          if |split.valid| == 0 then Failure(NothingValid)
          else
            var store := Rebuild(s, split.valid, createdAt);
            Success(ImportReport(store, split, |store.members|))
  }

  /** The split accepts no game exactly when no present record is importable. */
  lemma NoValidGameIff(items: seq<Option<LegacyRecord>>, c: Coercions, now: string)
    requires NoNullRecord(items)
    ensures |Partition(Present(items), Legacy(c), now).valid| == 0 <==>
      forall i :: 0 <= i < |items| ==> !Importable(items[i].value, c)
  {
    NothingAcceptedIff(Present(items), c);
    PartitionValid(Present(items), Legacy(c), now);
  }

  /** The distinct player names, in order of first appearance (`memberNames`). */
  function NewNames(valid: seq<ImportedGame>): seq<string> {
    Dedup(PlayerNames(valid))
  }

  /** The store after the deletes, the member inserts and the game loop, before the
      recomputation: one `game_records` row per accepted game, ids taken from the counter
      in input order, each followed by the game's rows. */
  function Imported(s: Store, valid: seq<ImportedGame>, createdAt: string): Store {
    var names := NewNames(valid);
    var ms := NewMembers(names, s.nextMemberId, createdAt);
    Store(ms, GameRecords(valid, s.nextGameId), GameRows(ms, valid, s.nextGameId),
          s.nextMemberId + |names|, s.nextGameId + |valid|)
  }

  /** The store after the import, statistics recomputed for every new member in turn
      (which rewrites the member table only). */
  function Rebuild(s: Store, valid: seq<ImportedGame>, createdAt: string): Store {
    var u := Imported(s, valid, createdAt);
    u.(members := UpdateEach(u, Consecutive(s.nextMemberId, |NewNames(valid)|)).members)
  }

  // ---------------------------------------------------------------------------
  // importLegacyData: what the rebuilt store satisfies
  // ---------------------------------------------------------------------------

  lemma {:induction false} FilterAppend(a: seq<ResultRow>, b: seq<ResultRow>, keep: ResultRow -> bool)
    ensures Filter(a + b, keep) == Filter(a, keep) + Filter(b, keep)
  {
    if |a| == 0 {
      assert a + b == b;
    } else {
      assert (a + b)[1..] == a[1..] + b;
      FilterAppend(a[1..], b, keep);
    }
  }

  lemma {:induction false} FilterKeepsAll(rows: seq<ResultRow>, keep: ResultRow -> bool)
    requires forall r :: r in rows ==> keep(r)
    ensures Filter(rows, keep) == rows
  {
    if |rows| > 0 {
      assert rows[0] in rows;
      FilterKeepsAll(rows[1..], keep);
    }
  }

  lemma {:induction false} FilterDropsAll(rows: seq<ResultRow>, keep: ResultRow -> bool)
    requires forall r :: r in rows ==> !keep(r)
    ensures Filter(rows, keep) == []
  {
    if |rows| > 0 {
      assert rows[0] in rows;
      FilterDropsAll(rows[1..], keep);
    }
  }

  /** Every row of the loop belongs to one of the new games. */
  lemma {:induction false} RowsForTagged(make: RowMaker, games: seq<ImportedGame>, firstId: int)
    requires TagsGame(make)
    ensures forall r :: r in RowsFor(make, games, firstId) ==> firstId <= r.gameId < firstId + |games|
    decreases |games|
  {
    if |games| > 0 {
      RowsForTagged(make, games[1..], firstId + 1);
    }
  }

  /** A row of the loop that points at a member points at the member whose name it carries. */
  lemma {:induction false} RowsForPointByName(make: RowMaker, members: seq<Member>, games: seq<ImportedGame>, firstId: int)
    requires PointsByName(make, members)
    ensures forall r :: r in RowsFor(make, games, firstId) && r.memberId.Some? ==>
      MemberNamed(members, r.memberName).Some? && MemberNamed(members, r.memberName).value.id == r.memberId.value
    decreases |games|
  {
    if |games| > 0 {
      RowsForPointByName(make, members, games[1..], firstId + 1);
    }
  }

  /** The rows of the loop's `k`-th game are exactly what `make` built for it. */
  lemma {:induction false} RowsForGame(make: RowMaker, games: seq<ImportedGame>, firstId: int, k: nat)
    requires TagsGame(make) && k < |games|
    ensures Filter(RowsFor(make, games, firstId), GameIn({firstId + k})) == make(games[k], firstId + k)
    decreases k
  {
    var keep := GameIn({firstId + k});
    var head := make(games[0], firstId);
    var rest := RowsFor(make, games[1..], firstId + 1);
    assert RowsFor(make, games, firstId) == head + rest;
    FilterAppend(head, rest, keep);
    if k == 0 {
      assert Filter(head, keep) == head by {
        FilterKeepsAll(head, keep);
      }
      assert Filter(rest, keep) == [] by {
        RowsForTagged(make, games[1..], firstId + 1);
        FilterDropsAll(rest, keep);
      }
      assert head + [] == head;
    } else {
      assert Filter(head, keep) == [] by {
        FilterDropsAll(head, keep);
      }
      assert Filter(rest, keep) == make(games[k], firstId + k) by {
        RowsForGame(make, games[1..], firstId + 1, k - 1);
        assert games[1..][k - 1] == games[k] && (firstId + 1) + (k - 1) == firstId + k;
      }
      assert [] + Filter(rest, keep) == Filter(rest, keep);
    }
  }

  /** The rows the import writes for its `k`-th game are that game's fresh settlement. */
  lemma {:induction false} SettledGameRows(members: seq<Member>, games: seq<ImportedGame>, firstId: int, k: nat)
    requires k < |games|
    ensures Filter(GameRows(members, games, firstId), GameIn({firstId + k}))
         == SettledRows(games[k].players, firstId + k, members)
  {
    var make := Settling(members);
    assert GameRows(members, games, firstId) == RowsFor(make, games, firstId);
    assert TagsGame(make) by {
      SettlingFacts(members);
    }
    RowsForGame(make, games, firstId, k);
    SettlingApplies(members, games[k], firstId + k);
  }

  /** Distinct names and consecutive ids give unique members. */
  lemma NewMembersUnique(names: seq<string>, first: int, createdAt: string)
    requires Distinct(names)
    ensures UniqueMembers(NewMembers(names, first, createdAt))
  {
  }

  /** A store whose members are fresh, whose rows belong to its games and point at members
      by name satisfies everything but the statistics of its members. */
  lemma FreshStorePending(t: Store)
    requires UniqueMembers(t.members) && IdsAscending(t.games) && 1 <= t.nextMemberId && 1 <= t.nextGameId
    requires forall m :: m in t.members ==> 1 <= m.id < t.nextMemberId
    requires forall g :: g in t.games ==> 1 <= g.id < t.nextGameId
    requires forall r :: r in t.results ==> r.gameId in GameIds(t.games)
    requires forall r :: r in t.results && r.memberId.Some? ==>
      MemberNamed(t.members, r.memberName).Some? && MemberNamed(t.members, r.memberName).value.id == r.memberId.value
    ensures Pending(t, MemberIds(t.members))
  {
    forall r, m | r in t.results && m in t.members && r.memberId == Some(m.id)
      ensures r.memberName == m.name
    {
      UniqueMember(t.members, m, MemberNamed(t.members, r.memberName).value);
    }
  }

  /** Before the recomputation: well formed, snapshots agree, statistics pending for the
      new members only. */
  lemma ImportedPending(s: Store, valid: seq<ImportedGame>, createdAt: string)
    requires 1 <= s.nextMemberId && 1 <= s.nextGameId
    ensures Pending(Imported(s, valid, createdAt), MemberIds(Imported(s, valid, createdAt).members))
  {
    var t := Imported(s, valid, createdAt);
    var ms := t.members;
    NewMembersUnique(NewNames(valid), s.nextMemberId, createdAt);
    SettlingFacts(ms);
    RowsForTagged(Settling(ms), valid, s.nextGameId);
    RowsForPointByName(Settling(ms), ms, valid, s.nextGameId);
    forall r | r in t.results ensures r.gameId in GameIds(t.games) {
      assert t.games[r.gameId - s.nextGameId].id == r.gameId;
    }
    FreshStorePending(t);
  }

  /** The recomputation rewrites statistics only. */
  lemma RebuildLayout(s: Store, valid: seq<ImportedGame>, createdAt: string)
    ensures var t, u := Rebuild(s, valid, createdAt), Imported(s, valid, createdAt);
      && t.games == u.games && t.results == u.results
      && |t.members| == |u.members|
      && forall k :: 0 <= k < |u.members| ==> t.members[k].id == u.members[k].id && t.members[k].name == u.members[k].name
  {
  }

  /** A successful import leaves the store well formed, with every member's statistics
      recomputed from the imported rows and every snapshot equal to its member's name. */
  lemma ImportKeepsInvariants(s: Store, valid: seq<ImportedGame>, createdAt: string)
    requires 1 <= s.nextMemberId && 1 <= s.nextGameId
    ensures Invariants(Rebuild(s, valid, createdAt))
  {
    var ms := Imported(s, valid, createdAt).members;
    var todo := Consecutive(s.nextMemberId, |NewNames(valid)|);
    ImportedPending(s, valid, createdAt);
    forall i | i in MemberIds(ms) && i != 0 ensures i in todo {
      var m :| m in ms && m.id == i;
      var k :| 0 <= k < |ms| && ms[k] == m;
      assert todo[k] == i;
    }
    RecomputeRestores(Imported(s, valid, createdAt), MemberIds(ms), todo);
    assert Rebuild(s, valid, createdAt) == UpdateEach(Imported(s, valid, createdAt), todo);
  }

  /** The members after an import: one per distinct player name of the accepted games, in
      order of first appearance, with consecutive ids from the counter. */
  lemma ImportedMembers(s: Store, valid: seq<ImportedGame>, createdAt: string)
    ensures var names, t := NewNames(valid), Rebuild(s, valid, createdAt);
      && |t.members| == |names|
      && (forall k :: 0 <= k < |names| ==> t.members[k].id == s.nextMemberId + k && t.members[k].name == names[k])
      && (forall n :: n in PlayerNames(valid) <==> exists m :: m in t.members && m.name == n)
      && (forall i, j :: 0 <= i < j < |t.members| ==>
            t.members[i].name in PlayerNames(valid) && t.members[j].name in PlayerNames(valid) &&
            FirstIndex(PlayerNames(valid), t.members[i].name) < FirstIndex(PlayerNames(valid), t.members[j].name))
  {
    var names, t := NewNames(valid), Rebuild(s, valid, createdAt);
    RebuildLayout(s, valid, createdAt);
    forall n | n in PlayerNames(valid) ensures exists m :: m in t.members && m.name == n {
      var k :| 0 <= k < |names| && names[k] == n;
      assert t.members[k] in t.members;
    }
    forall m | m in t.members ensures m.name in PlayerNames(valid) {
      var k :| 0 <= k < |t.members| && t.members[k] == m;
      assert names[k] in names;
    }
  }

  /** The games after an import: the accepted records in input order with consecutive ids
      from the counter, and the rows of each are the fresh settlement of its players. */
  lemma {:induction false} ImportedGameRows(s: Store, valid: seq<ImportedGame>, createdAt: string, k: nat)
    requires k < |valid|
    ensures |Rebuild(s, valid, createdAt).games| == |valid|
    ensures Rebuild(s, valid, createdAt).games[k] == GameRecord(s.nextGameId + k, valid[k].timestamp)
    ensures Filter(Rebuild(s, valid, createdAt).results, GameIn({s.nextGameId + k}))
         == SettledRows(valid[k].players, s.nextGameId + k, NewMembers(NewNames(valid), s.nextMemberId, createdAt))
  {
    SettledGameRows(NewMembers(NewNames(valid), s.nextMemberId, createdAt), valid, s.nextGameId, k);
  }

  /** Two record lists that agree on everything the import reads. */
  predicate SameButDerived(items: seq<Option<LegacyRecord>>, other: seq<Option<LegacyRecord>>) {
    && |items| == |other|
    && forall i :: 0 <= i < |items| ==>
      (items[i].None? <==> other[i].None?) &&
      (items[i].Some? ==> other[i].value == items[i].value.(derived := other[i].value.derived))
  }

  /** Records that parse alike and carry the same timestamps give the same games. */
  lemma {:induction false} PartitionAlike(records: seq<LegacyRecord>, other: seq<LegacyRecord>, parse: Parser, now: string)
    requires |records| == |other|
    requires forall i :: 0 <= i < |records| ==> parse(other[i]) == parse(records[i]) && other[i].timestamp == records[i].timestamp
    ensures Partition(other, parse, now).valid == Partition(records, parse, now).valid
  {
    if |records| > 0 {
      var n := |records| - 1;
      PartitionAlike(records[..n], other[..n], parse, now);
      assert parse(other[n]) == parse(records[n]);
      assert TimestampOf(other[n], now) == TimestampOf(records[n], now);
    }
  }

  lemma PartitionIgnoresDerived(records: seq<LegacyRecord>, other: seq<LegacyRecord>, c: Coercions, now: string)
    requires |records| == |other|
    requires forall i :: 0 <= i < |records| ==> other[i] == records[i].(derived := other[i].derived)
    ensures Partition(other, Legacy(c), now).valid == Partition(records, Legacy(c), now).valid
  {
    forall i | 0 <= i < |records| ensures Legacy(c)(other[i]) == Legacy(c)(records[i]) {
      ParseIgnoresDerivedFields(records[i], other[i].derived, c);
    }
    PartitionAlike(records, other, Legacy(c), now);
  }

  /** The derived fields of old exports (`ranks`, `rankBonuses`, ...) have no influence on
      what the import does to the store. */
  lemma ImportIgnoresDerivedFields(s: Store, enabled: bool, items: seq<Option<LegacyRecord>>,
                                   other: seq<Option<LegacyRecord>>, c: Coercions, now: string, createdAt: string)
    requires SameButDerived(items, other)
    ensures var a := ImportLegacyData(s, enabled, Parsed(Records(items)), c, now, createdAt);
      var b := ImportLegacyData(s, enabled, Parsed(Records(other)), c, now, createdAt);
      && a.Success? == b.Success?
      && (a.Failure? ==> a.error == b.error)
      && (a.Success? ==> a.value.store == b.value.store && a.value.split.valid == b.value.split.valid)
  {
    if NoNullRecord(items) {
      PartitionIgnoresDerived(Present(items), Present(other), c, now);
    }
  }

  // ---------------------------------------------------------------------------
  // exportData and its re-import
  // ---------------------------------------------------------------------------

  /** One exported record: names and scores by score, highest first, and the timestamp. */
  datatype ExportedRecord = ExportedRecord(members: seq<string>, scores: seq<real>, timestamp: string)

  /** The name and score of each row. */
  function Projection(rows: seq<ResultRow>): (ps: seq<PlayerScore>)
    ensures |ps| == |rows|
  {
    seq(|rows|, k requires 0 <= k < |rows| => PlayerScore(rows[k].memberName, rows[k].score))
  }

  function ScoresOf(ps: seq<PlayerScore>): (scores: seq<real>)
    ensures |scores| == |ps|
  {
    seq(|ps|, k requires 0 <= k < |ps| => ps[k].score)
  }

  /** One record of `exportData`: the game's rows sorted by score, highest first (a stable
      sort), reduced to names and scores. */
  function ExportRecord(g: GameRecord, rows: seq<ResultRow>): (e: ExportedRecord)
    ensures |e.members| == |rows| && |e.scores| == |rows| && e.timestamp == g.timestamp
    ensures forall k :: 0 <= k < |rows| - 1 ==> e.scores[k] >= e.scores[k + 1]
    ensures multiset(seq(|rows|, k requires 0 <= k < |rows| => PlayerScore(e.members[k], e.scores[k])))
      == multiset(Projection(rows))
  {
    var sorted := SortDesc(Projection(rows));
    var e := ExportedRecord(Names(sorted), ScoresOf(sorted), g.timestamp);
    assert seq(|rows|, k requires 0 <= k < |rows| => PlayerScore(e.members[k], e.scores[k])) == sorted;
    e
  }

  /** The game behind record `k` of the export: the table read backwards. In a well-formed
      store game ids ascend in table order (`IdsAscending`), so this is `orderBy(desc(id))`. */
  function ExportedSource(s: Store, k: nat): GameRecord
    requires k < |s.games|
  {
    s.games[|s.games| - 1 - k]
  }

  /** `exportData`: one record per game, highest id first, each over its own rows. */
  function ExportData(s: Store): (out: seq<ExportedRecord>)
    ensures |out| == |s.games|
  {
    seq(|s.games|, k requires 0 <= k < |s.games| =>
      var g := ExportedSource(s, k);
      ExportRecord(g, Filter(s.results, GameIn({g.id}))))
  }

  /** The export visits every game exactly once, in strictly descending id order, which
      is the order `getGameRecords` reads them in. */
  lemma ExportByDescendingId(s: Store)
    requires Wellformed(s)
    ensures forall i, j :: 0 <= i < j < |s.games| ==> ExportedSource(s, i).id > ExportedSource(s, j).id
    ensures forall g :: g in s.games <==> exists k :: 0 <= k < |s.games| && ExportedSource(s, k) == g
  {
    forall g | g in s.games ensures exists k :: 0 <= k < |s.games| && ExportedSource(s, k) == g {
      var p :| 0 <= p < |s.games| && s.games[p] == g;
      assert ExportedSource(s, |s.games| - 1 - p) == g;
    }
  }

  /** Record `k` of the export is the game with the `k`-th highest id (see
      `ExportByDescendingId`): its timestamp, and its rows' names
      and scores reordered by score, highest first. */
  lemma ExportedGame(s: Store, k: nat)
    requires k < |s.games|
    ensures var g := ExportedSource(s, k);
      var rows := Filter(s.results, GameIn({g.id}));
      var e := ExportData(s)[k];
      && e.timestamp == g.timestamp
      && |e.members| == |rows| && |e.scores| == |rows|
      && (forall i :: 0 <= i < |rows| - 1 ==> e.scores[i] >= e.scores[i + 1])
      && multiset(seq(|rows|, i requires 0 <= i < |rows| => PlayerScore(e.members[i], e.scores[i])))
           == multiset(Projection(rows))
  {
    var g := ExportedSource(s, k);
    var rows := Filter(s.results, GameIn({g.id}));
    assert ExportData(s)[k] == ExportRecord(g, rows);
    var e := ExportRecord(g, rows);
    assert e.timestamp == g.timestamp && |e.members| == |rows| && |e.scores| == |rows|;
  }

  /** An exported record as the import reads it back. */
  function AsLegacy(e: ExportedRecord): LegacyRecord {
    LegacyRecord(
      Some(JsArray(seq(|e.members|, k requires 0 <= k < |e.members| => JsStr(e.members[k])))),
      Some(JsArray(seq(|e.scores|, k requires 0 <= k < |e.scores| => JsNum(Finite(e.scores[k]))))),
      Some(JsStr(e.timestamp)),
      [])
  }

  lemma {:induction false} TotalScoreAppend(a: seq<PlayerScore>, b: seq<PlayerScore>)
    ensures TotalScore(a + b) == TotalScore(a) + TotalScore(b)
    decreases |b|
  {
    if |b| == 0 {
      assert a + b == a;
    } else {
      var bi := b[..|b| - 1];
      assert (a + b)[..|a + b| - 1] == a + bi;
      TotalScoreAppend(a, bi);
    }
  }

  lemma TotalScoreRemove(b: seq<PlayerScore>, j: nat)
    requires j < |b|
    ensures TotalScore(b) == TotalScore(b[..j] + b[j + 1..]) + b[j].score
  {
    var pre, x, post := b[..j], b[j], b[j + 1..];
    assert b == pre + ([x] + post);
    TotalScoreAppend(pre, [x] + post);
    TotalScoreAppend([x], post);
    TotalScoreAppend(pre, post);
    assert TotalScore([x]) == x.score by {
      assert [x][..0] == [];
    }
  }

  /** Dropping the last element of `a` and a copy of it from `b` keeps them permutations. */
  lemma DropMatching(a: seq<PlayerScore>, b: seq<PlayerScore>, j: nat)
    requires multiset(a) == multiset(b) && 0 < |a| && j < |b| && b[j] == a[|a| - 1]
    ensures multiset(a[..|a| - 1]) == multiset(b[..j] + b[j + 1..])
  {
    var n, x := |a| - 1, b[j];
    assert b == b[..j] + [x] + b[j + 1..];
    assert multiset(b) == multiset(b[..j] + b[j + 1..]) + multiset{x};
    assert a == a[..n] + [x];
    assert multiset(a) == multiset(a[..n]) + multiset{x};
    assert multiset(a[..n]) == multiset(a) - multiset{x};
    assert multiset(b[..j] + b[j + 1..]) == multiset(b) - multiset{x};
  }

  /** The total does not depend on the order of the players. */
  lemma {:induction false} TotalScorePermutation(a: seq<PlayerScore>, b: seq<PlayerScore>)
    requires multiset(a) == multiset(b)
    ensures TotalScore(a) == TotalScore(b)
    decreases |a|
  {
    if |a| > 0 {
      var n := |a| - 1;
      assert a[n] in multiset(b);
      var j :| 0 <= j < |b| && b[j] == a[n];
      DropMatching(a, b, j);
      TotalScorePermutation(a[..n], b[..j] + b[j + 1..]);
      TotalScoreRemove(b, j);
    } else {
      assert |b| == |multiset(b)| == 0;
    }
  }

  /** The names of a permutation are the same set. */
  lemma NamesOfPermutation(a: seq<PlayerScore>, b: seq<PlayerScore>)
    requires multiset(a) == multiset(b)
    ensures ToSet(Names(a)) <= ToSet(Names(b))
  {
    forall n | n in ToSet(Names(a)) ensures n in ToSet(Names(b)) {
      var i :| 0 <= i < |a| && Names(a)[i] == n;
      assert a[i] in multiset(b);
      var j :| 0 <= j < |b| && b[j] == a[i];
      assert Names(b)[j] == n;
    }
  }

  /** Distinct names stay distinct under any reordering. */
  lemma DistinctNamesPermutation(a: seq<PlayerScore>, b: seq<PlayerScore>)
    requires multiset(a) == multiset(b) && Distinct(Names(a))
    ensures Distinct(Names(b))
  {
    NamesOfPermutation(a, b);
    NamesOfPermutation(b, a);
    assert ToSet(Names(a)) == ToSet(Names(b));
    assert |a| == |multiset(a)| == |multiset(b)| == |b|;
    DistinctIffSetSize(Names(a));
    DistinctIffSetSize(Names(b));
  }

  /** Players with non-blank, trimmed names keep that property under sorting. */
  lemma SortedNamesTrimmed(ps: seq<PlayerScore>)
    requires forall k :: 0 <= k < |ps| ==> ps[k].memberName != [] && IsTrimmed(ps[k].memberName)
    ensures forall k :: 0 <= k < |SortDesc(ps)| ==>
      SortDesc(ps)[k].memberName != [] && Trim(SortDesc(ps)[k].memberName) == SortDesc(ps)[k].memberName
  {
    var sorted := SortDesc(ps);
    SettleShape(ps);
    forall k | 0 <= k < |sorted|
      ensures sorted[k].memberName != [] && Trim(sorted[k].memberName) == sorted[k].memberName
    {
      assert sorted[k] in multiset(ps);
      var j :| 0 <= j < |ps| && ps[j] == sorted[k];
      TrimOfTrimmed(ps[j].memberName);
    }
  }

  /** Four players with non-blank, trimmed names, written out as a record and read back. */
  lemma PlayersReadBack(ps: seq<PlayerScore>, timestamp: string, c: Coercions)
    requires |ps| == 4
    requires forall k :: 0 <= k < 4 ==> ps[k].memberName != [] && Trim(ps[k].memberName) == ps[k].memberName
    ensures var rec := AsLegacy(ExportedRecord(Names(ps), ScoresOf(ps), timestamp));
      WellSized(rec) && AllSeatsOk(rec, c) && Seats(rec, c) == ps
  {
    var rec := AsLegacy(ExportedRecord(Names(ps), ScoresOf(ps), timestamp));
    var ms, ss := rec.members.value.items, rec.scores.value.items;
    forall k | 0 <= k < 4
      ensures SeatOk(ms, ss, k, c) && SeatPlayer(ms, ss, k, c) == ps[k]
    {
      assert ms[k] == JsStr(ps[k].memberName) && ss[k] == JsNum(Finite(ps[k].score));
    }
    SeatsAt(rec, c);
  }

  /** Read back, the four seats of an exported record are the rows' players sorted by score. */
  lemma ExportedSeats(g: GameRecord, rows: seq<ResultRow>, c: Coercions)
    requires |rows| == 4
    requires forall k :: 0 <= k < 4 ==> rows[k].memberName != [] && IsTrimmed(rows[k].memberName)
    ensures var rec := AsLegacy(ExportRecord(g, rows));
      WellSized(rec) && AllSeatsOk(rec, c) && Seats(rec, c) == SortDesc(Projection(rows))
  {
    var ps := Projection(rows);
    var sorted := SortDesc(ps);
    assert forall k :: 0 <= k < 4 ==> ps[k].memberName == rows[k].memberName;
    SortedNamesTrimmed(ps);
    SettleShape(ps);
    assert ExportRecord(g, rows) == ExportedRecord(Names(sorted), ScoresOf(sorted), g.timestamp);
    PlayersReadBack(sorted, g.timestamp, c);
  }

  /** The round trip of `exportData` and `importLegacyData` for one game of four rows with
      non-blank, trimmed, distinct names and a total of 1000: the exported record is
      importable, it yields the rows' players sorted by score, and settling them again
      gives exactly the ranks and bonuses of the original players. */
  lemma ExportReimports(g: GameRecord, rows: seq<ResultRow>, c: Coercions, now: string)
    requires |rows| == 4
    requires forall k :: 0 <= k < 4 ==> rows[k].memberName != [] && IsTrimmed(rows[k].memberName)
    requires Distinct(Names(Projection(rows)))
    requires WithinTotal(TotalScore(Projection(rows)))
    ensures ParseLegacyPlayers(AsLegacy(ExportRecord(g, rows)), c) == Success(SortDesc(Projection(rows)))
    ensures Settle(SortDesc(Projection(rows))) == Settle(Projection(rows))
    ensures Trim(g.timestamp) != [] ==> TimestampOf(AsLegacy(ExportRecord(g, rows)), now) == g.timestamp
  {
    var ps := Projection(rows);
    var sorted := SortDesc(ps);
    ExportedSeats(g, rows, c);
    SettleShape(ps);
    DistinctNamesPermutation(ps, sorted);
    TotalScorePermutation(sorted, ps);
    SortSorted(sorted);
  }
}

=== FILE: member_stats.dfy ===
/** The statistics recomputation of `updateMemberStats` (src/app/actions/members.ts):
    a full-history fold from a member's result rows to the cached columns of
    `members`. The fold reads only a row's score, rank and rank bonus. */
module MemberStats {
  import opened Wrappers
  import opened Schema

  /** Points every player starts a game with. */
  const StartPoints: real := 25000.0
  /** Points a player must give back ("return"). */
  const ReturnPoints: real := 30000.0
  /** `(returnPoints - startPoints) / 1000`: 5.0 league points deducted per game. */
  const ReturnPenalty: real := (ReturnPoints - StartPoints) / 1000.0
  /** A score at or above this (50,000 raw points) counts towards `catCount`. */
  const CatThreshold: real := 500.0

  /** JavaScript `Math.round`: the nearest integer, halves rounded towards +infinity. */
  function JsRound(x: real): (n: int)
    ensures x - 0.5 < n as real <= x + 0.5
  {
    (x + 0.5).Floor
  }

  /** `Math.round(x * 10) / 10`: the nearest multiple of 0.1, halves rounded up. */
  function RoundTenth(x: real): (r: real)
    ensures x - 0.05 < r <= x + 0.05
    ensures (r * 10.0).Floor as real == r * 10.0
  {
    JsRound(x * 10.0) as real / 10.0
  }

  /** The base point of one result: `Math.round((score * 100 - 25000) / 100) / 10`, i.e.
      (raw points - 25000) / 1000 rounded to the nearest 0.1. */
  function BasePoint(score: real): (b: real)
    ensures (score - 250.0) / 10.0 - 0.05 < b <= (score - 250.0) / 10.0 + 0.05
    ensures (b * 10.0).Floor as real == b * 10.0
  {
    var originalPoints := score * 100.0;
    JsRound((originalPoints - StartPoints) / 100.0) as real / 10.0
  }

  /** League points of one result: base point plus rank bonus minus the return penalty. */
  function PointsDelta(score: real, rankBonus: real): real {
    BasePoint(score) + rankBonus - ReturnPenalty
  }

  /** With an integral score the rounding is exact: base point = (score - 250) / 10. */
  lemma IntegralScoreBasePoint(k: int)
    ensures BasePoint(k as real) == (k as real - 250.0) / 10.0
  {
    var n := JsRound(k as real - 250.0);
    assert n == k - 250;
  }

  /** The league's per-game examples: 25,000 points with the top bonus scores 0 + 50 - 5 = 45;
      30,000 points scores 5 + 50 - 5 = 50. Halves of the base point round up, also below zero. */
  lemma PointsDeltaExamples()
    ensures BasePoint(250.0) == 0.0 && PointsDelta(250.0, 50.0) == 45.0
    ensures BasePoint(300.0) == 5.0 && PointsDelta(300.0, 50.0) == 50.0
    ensures BasePoint(249.5) == 0.0 && BasePoint(250.5) == 0.1
  {
  }

  // ---------------------------------------------------------------------------
  // The fold
  // ---------------------------------------------------------------------------

  /** What the fold reads of a result row. */
  datatype Placing = Placing(score: real, rank: int, rankBonus: real)

  function PlacingOf(r: ResultRow): Placing {
    Placing(r.score, r.rank, r.rankBonus)
  }

  function Placings(rows: seq<ResultRow>): (ps: seq<Placing>)
    ensures |ps| == |rows|
    ensures forall i :: 0 <= i < |rows| ==> ps[i] == PlacingOf(rows[i])
  {
    seq(|rows|, i requires 0 <= i < |rows| => PlacingOf(rows[i]))
  }

  /** The loop variables of `updateMemberStats`. */
  datatype Tally = Tally(
    points: real,
    basePoints: real,
    first: nat,
    second: nat,
    third: nat,
    fourth: nat,
    highestScore: Option<real>,
    catCount: nat,
    negativeCount: nat)

  const EmptyTally := Tally(0.0, 0.0, 0, 0, 0, 0, None, 0, 0)

  /** One iteration of the loop over the member's results. */
  function Step(t: Tally, p: Placing): Tally {
    var originalPoints := p.score * 100.0;
    var basePoint := BasePoint(p.score);
    Tally(
      t.points + PointsDelta(p.score, p.rankBonus),
      t.basePoints + basePoint,
      t.first + (if p.rank == 1 then 1 else 0),
      t.second + (if p.rank == 2 then 1 else 0),
      t.third + (if p.rank == 3 then 1 else 0),
      t.fourth + (if p.rank == 4 then 1 else 0),
      if t.highestScore.None? || originalPoints > t.highestScore.value then Some(originalPoints) else t.highestScore,
      t.catCount + (if p.score >= CatThreshold then 1 else 0),
      t.negativeCount + (if p.score < 0.0 then 1 else 0))
  }

  /** The loop, in row order. */
  function Fold(ps: seq<Placing>): Tally {
    if |ps| == 0 then EmptyTally else Step(Fold(ps[..|ps| - 1]), ps[|ps| - 1])
  }

  /** After the loop: round the two totals once to 0.1 and derive `games`. */
  function Finish(t: Tally): Stats {
    Stats(
      RoundTenth(t.points),
      RoundTenth(t.basePoints),
      t.first + t.second + t.third + t.fourth,
      t.first, t.second, t.third, t.fourth,
      t.highestScore,
      t.catCount,
      t.negativeCount)
  }

  /** `updateMemberStats` after the read of the member's rows and before the write:
      reset to zero with no results, otherwise the fold. */
  function Recompute(rows: seq<ResultRow>): Stats {
    if |rows| == 0 then ZeroStats else Finish(Fold(Placings(rows)))
  }

  // ---------------------------------------------------------------------------
  // What the statistics mean
  // ---------------------------------------------------------------------------

  /** No results: every counter and total is 0 and there is no highest score;
      the fold itself would give the same, so the explicit reset agrees with it. */
  lemma EmptyHistory()
    ensures Recompute([]) == ZeroStats
    ensures Recompute([]).highestScore == None && Recompute([]).games == 0 && Recompute([]).points == 0.0
    ensures Finish(Fold([])) == ZeroStats
  {
  }

  /** The indices of the placings satisfying `f`. */
  function Where(ps: seq<Placing>, f: Placing -> bool): set<int> {
    set i | 0 <= i < |ps| && f(ps[i])
  }

  lemma WhereSnoc(ps: seq<Placing>, p: Placing, f: Placing -> bool)
    ensures |Where(ps + [p], f)| == |Where(ps, f)| + (if f(p) then 1 else 0)
  {
    var n := |ps|;
    assert n !in Where(ps, f);
    if f(p) {
      assert Where(ps + [p], f) == Where(ps, f) + {n};
    } else {
      assert Where(ps + [p], f) == Where(ps, f);
    }
  }

  predicate IsFirst(p: Placing) { p.rank == 1 }
  predicate IsSecond(p: Placing) { p.rank == 2 }
  predicate IsThird(p: Placing) { p.rank == 3 }
  predicate IsFourth(p: Placing) { p.rank == 4 }
  predicate IsCat(p: Placing) { p.score >= CatThreshold }
  predicate IsNegative(p: Placing) { p.score < 0.0 }

  /** Each counter of the fold is the number of placings with that property. */
  lemma {:induction false} FoldCounts(ps: seq<Placing>)
    ensures Fold(ps).first == |Where(ps, IsFirst)|
    ensures Fold(ps).second == |Where(ps, IsSecond)|
    ensures Fold(ps).third == |Where(ps, IsThird)|
    ensures Fold(ps).fourth == |Where(ps, IsFourth)|
    ensures Fold(ps).catCount == |Where(ps, IsCat)|
    ensures Fold(ps).negativeCount == |Where(ps, IsNegative)|
  {
    if |ps| > 0 {
      var init := ps[..|ps| - 1];
      var last := ps[|ps| - 1];
      FoldCounts(init);
      assert ps == init + [last];
      WhereSnoc(init, last, IsFirst);
      WhereSnoc(init, last, IsSecond);
      WhereSnoc(init, last, IsThird);
      WhereSnoc(init, last, IsFourth);
      WhereSnoc(init, last, IsCat);
      WhereSnoc(init, last, IsNegative);
    }
  }

  /** Counters of the recomputed statistics: `first`..`fourth` count the results with
      rank 1..4 (other ranks count nowhere), `games` is their sum, `catCount` counts
      scores of at least 500 and `negativeCount` scores below 0. */
  lemma RankAndThresholdCounters(rows: seq<ResultRow>)
    ensures var st := Recompute(rows);
      && st.first == |set i | 0 <= i < |rows| && rows[i].rank == 1|
      && st.second == |set i | 0 <= i < |rows| && rows[i].rank == 2|
      && st.third == |set i | 0 <= i < |rows| && rows[i].rank == 3|
      && st.fourth == |set i | 0 <= i < |rows| && rows[i].rank == 4|
      && st.games == st.first + st.second + st.third + st.fourth
      && st.catCount == |set i | 0 <= i < |rows| && rows[i].score >= 500.0|
      && st.negativeCount == |set i | 0 <= i < |rows| && rows[i].score < 0.0|
  {
    var ps := Placings(rows);
    FoldCounts(ps);
    assert Where(ps, IsFirst) == set i | 0 <= i < |rows| && rows[i].rank == 1;
    assert Where(ps, IsSecond) == set i | 0 <= i < |rows| && rows[i].rank == 2;
    assert Where(ps, IsThird) == set i | 0 <= i < |rows| && rows[i].rank == 3;
    assert Where(ps, IsFourth) == set i | 0 <= i < |rows| && rows[i].rank == 4;
    assert Where(ps, IsCat) == set i | 0 <= i < |rows| && rows[i].score >= 500.0;
    assert Where(ps, IsNegative) == set i | 0 <= i < |rows| && rows[i].score < 0.0;
  }

  /** The fold's highest score is the maximum of `score * 100` over the placings. */
  lemma {:induction false} FoldHighest(ps: seq<Placing>)
    ensures |ps| == 0 <==> Fold(ps).highestScore.None?
    ensures Fold(ps).highestScore.Some? ==>
      && (forall i :: 0 <= i < |ps| ==> ps[i].score * 100.0 <= Fold(ps).highestScore.value)
      && (exists i :: 0 <= i < |ps| && ps[i].score * 100.0 == Fold(ps).highestScore.value)
  {
    if |ps| > 0 {
      var init := ps[..|ps| - 1];
      FoldHighest(init);
      var h := Fold(ps).highestScore.value;
      forall i | 0 <= i < |ps|
        ensures ps[i].score * 100.0 <= h
      {
        if i < |init| {
          assert ps[i] == init[i];
        }
      }
      if h != ps[|ps| - 1].score * 100.0 {
        var i :| 0 <= i < |init| && init[i].score * 100.0 == h;
        assert ps[i] == init[i];
      }
    }
  }

  /** `highestScore` is null without results and otherwise the largest `score * 100`
      of the member's results (raw points), attained by one of them. */
  lemma HighestScoreIsMaximum(rows: seq<ResultRow>)
    ensures |rows| == 0 <==> Recompute(rows).highestScore.None?
    ensures Recompute(rows).highestScore.Some? ==>
      && (forall i :: 0 <= i < |rows| ==> rows[i].score * 100.0 <= Recompute(rows).highestScore.value)
      && (exists i :: 0 <= i < |rows| && rows[i].score * 100.0 == Recompute(rows).highestScore.value)
  {
    var ps := Placings(rows);
    FoldHighest(ps);
    if |rows| > 0 {
      var i :| 0 <= i < |ps| && ps[i].score * 100.0 == Fold(ps).highestScore.value;
      assert rows[i].score * 100.0 == Recompute(rows).highestScore.value;
    }
  }

  /** A member with at least one result never has the reset statistics (its highest
      score is set). */
  lemma NonEmptyHistoryIsNotReset(rows: seq<ResultRow>)
    requires |rows| > 0
    ensures Recompute(rows) != ZeroStats
  {
    HighestScoreIsMaximum(rows);
  }

  /** Sum of the per-game base points. */
  function SumBase(ps: seq<Placing>): real {
    if |ps| == 0 then 0.0 else SumBase(ps[..|ps| - 1]) + BasePoint(ps[|ps| - 1].score)
  }

  /** Sum of the rank bonuses. */
  function SumBonus(ps: seq<Placing>): real {
    if |ps| == 0 then 0.0 else SumBonus(ps[..|ps| - 1]) + ps[|ps| - 1].rankBonus
  }

  /** The unrounded totals: base points sum the per-game base points, and league
      points are the base points plus the bonuses minus 5 per game. */
  lemma {:induction false} FoldTotals(ps: seq<Placing>)
    ensures Fold(ps).basePoints == SumBase(ps)
    ensures Fold(ps).points == SumBase(ps) + SumBonus(ps) - 5.0 * |ps| as real
  {
    if |ps| > 0 {
      FoldTotals(ps[..|ps| - 1]);
    }
  }

  /** `points` and `basePoints` are the per-game sums rounded ONCE to 0.1 at the end
      (so `points` is within 0.05 of base points + bonuses - 5 per game). */
  lemma TotalsRoundedOnce(rows: seq<ResultRow>)
    requires |rows| > 0
    ensures var ps := Placings(rows);
      && Recompute(rows).basePoints == RoundTenth(SumBase(ps))
      && Recompute(rows).points == RoundTenth(SumBase(ps) + SumBonus(ps) - 5.0 * |rows| as real)
  {
    FoldTotals(Placings(rows));
  }

  /** Rounding once is not rounding per game: two games at 25,000 points with a
      three-way-tie bonus of 50/3 total 23.3 points, where per-game rounding gives 23.4. */
  lemma RoundingOnceDiffersFromPerGame()
    ensures var p := Placing(250.0, 1, 50.0 / 3.0);
      && Recompute([ResultRow(1, None, "A", 250.0, 1, 50.0 / 3.0), ResultRow(2, None, "A", 250.0, 1, 50.0 / 3.0)]).points
           == 23.3
      && RoundTenth(PointsDelta(p.score, p.rankBonus)) + RoundTenth(PointsDelta(p.score, p.rankBonus)) == 23.4
  {
    var rows := [ResultRow(1, None, "A", 250.0, 1, 50.0 / 3.0), ResultRow(2, None, "A", 250.0, 1, 50.0 / 3.0)];
    var p := Placing(250.0, 1, 50.0 / 3.0);
    assert Placings(rows) == [p, p];
    FoldPair(p, p);
    assert BasePoint(250.0) == 0.0;
    assert Fold([p, p]).points == 100.0 / 3.0 - 10.0;
    assert JsRound(10.0 * (100.0 / 3.0 - 10.0)) == 233;
    assert JsRound(10.0 * (50.0 / 3.0 - 5.0)) == 117;
  }

  lemma FoldPair(p: Placing, q: Placing)
    ensures Fold([p, q]) == Step(Step(EmptyTally, p), q)
  {
    assert [p, q][..1] == [p];
    assert [p][..0] == [];
    assert Fold([p]) == Step(Fold([]), p);
    assert Fold([p, q]) == Step(Fold([p]), q);
  }

  // ---------------------------------------------------------------------------
  // Only the multiset of placings matters
  // ---------------------------------------------------------------------------

  /** Two loop iterations commute. */
  lemma StepCommutes(t: Tally, x: Placing, y: Placing)
    ensures Step(Step(t, x), y) == Step(Step(t, y), x)
  {
  }

  lemma {:induction false} FoldMoveToEnd(a: seq<Placing>, x: Placing, b: seq<Placing>)
    ensures Fold(a + [x] + b) == Fold(a + b + [x])
    decreases |b|
  {
    if |b| == 0 {
      assert a + [x] + b == a + b + [x];
    } else {
      var b' := b[..|b| - 1];
      var y := b[|b| - 1];
      assert b == b' + [y];
      assert a + [x] + b == (a + [x] + b') + [y];
      assert a + b + [x] == (a + b' + [y]) + [x];
      assert (a + b' + [y])[..|a + b' + [y]| - 1] == a + b';
      assert (a + b' + [x])[..|a + b' + [x]| - 1] == a + b';
      FoldMoveToEnd(a, x, b');
      StepCommutes(Fold(a + b'), x, y);
    }
  }

  /** Taking one placing out of the middle and folding it last changes nothing. */
  lemma FoldRemoveAt(s: seq<Placing>, i: int) returns (rest: seq<Placing>)
    requires 0 <= i < |s|
    ensures multiset(s) == multiset(rest) + multiset{s[i]}
    ensures |rest| == |s| - 1
    ensures Fold(s) == Fold(rest + [s[i]])
  {
    rest := s[..i] + s[i + 1..];
    assert s == s[..i] + [s[i]] + s[i + 1..];
    FoldMoveToEnd(s[..i], s[i], s[i + 1..]);
  }

  /** The fold is a function of the multiset of placings: the order of the rows does not matter. */
  lemma {:induction false} FoldPermutation(s1: seq<Placing>, s2: seq<Placing>)
    requires multiset(s1) == multiset(s2)
    ensures Fold(s1) == Fold(s2)
    decreases |s1|
  {
    if |s1| > 0 {
      var init := s1[..|s1| - 1];
      var x := s1[|s1| - 1];
      assert s1 == init + [x];
      assert x in multiset(s2);
      var i :| 0 <= i < |s2| && s2[i] == x;
      var rest := FoldRemoveAt(s2, i);
      assert multiset(s1) == multiset(init) + multiset{x};
      assert multiset(s2) == multiset(rest) + multiset{x};
      assert multiset(init) == multiset(s1) - multiset{x} == multiset(rest);
      FoldPermutation(init, rest);
      assert (rest + [x])[..|rest + [x]| - 1] == rest;
    }
  }

  /** The recomputed statistics depend only on the multiset of (score, rank, rank bonus)
      of the rows: not on their order, their game, their member id or their name snapshot. */
  lemma StatsDependOnlyOnPlacings(a: seq<ResultRow>, b: seq<ResultRow>)
    requires multiset(Placings(a)) == multiset(Placings(b))
    ensures Recompute(a) == Recompute(b)
  {
    assert |a| == |multiset(Placings(a))| == |multiset(Placings(b))| == |b|;
    FoldPermutation(Placings(a), Placings(b));
  }
}

=== FILE: members.dfy ===
/** The member actions of src/app/actions/members.ts as transitions of the store:
    `addMember`, `renameMember`, `mergeMembers`, `deleteMember` and the write-back of
    `updateMemberStats`. The cached statistics of a member are meant to equal the
    recomputation over the member's current result rows (`StatsConsistent`). */
module Members {
  import opened Wrappers
  import opened Text
  import opened Schema
  import opened MemberStats

  datatype MemberError =
    | EmptyName        // the (trimmed) name is blank
    | AlreadyExists    // addMember: a member with that name exists
    | SameName         // renameMember: the new name equals the old one
    | NameTaken        // renameMember: another member has the new name
    | Disabled         // production deployment: merge and delete are switched off
    | SelfMerge        // mergeMembers: target and source are the same name
    | TargetMissing
    | SourceMissing
    | MemberMissing    // deleteMember: no member with that name

  // ---------------------------------------------------------------------------
  // Store invariants
  // ---------------------------------------------------------------------------

  function MemberIds(members: seq<Member>): set<int> {
    set m | m in members :: m.id
  }

  function GameIds(games: seq<GameRecord>): set<int> {
    set g | g in games :: g.id
  }

  /** Game records in table order carry strictly increasing ids: AUTOINCREMENT hands out
      a larger id to every insert, and deletes keep the order of the rest. */
  predicate IdsAscending(games: seq<GameRecord>) {
    forall i, j :: 0 <= i < j < |games| ==> games[i].id < games[j].id
  }

  /** What the schema and the database guarantee: unique names and ids, AUTOINCREMENT ids
      (positive, below the counter, and ascending in table order), and the two foreign
      keys of `game_results` (enforced, as the game delete relies on its cascade). */
  predicate Wellformed(s: Store) {
    && UniqueMembers(s.members)
    && IdsAscending(s.games)
    && 1 <= s.nextMemberId
    && 1 <= s.nextGameId
    && (forall m :: m in s.members ==> 1 <= m.id < s.nextMemberId)
    && (forall g :: g in s.games ==> 1 <= g.id < s.nextGameId)
    && (forall r :: r in s.results && r.memberId.Some? ==> r.memberId.value in MemberIds(s.members))
    && (forall r :: r in s.results ==> r.gameId in GameIds(s.games))
  }

  /** Every row's name snapshot is the current name of the member it points at. */
  predicate NamesAgree(s: Store) {
    forall r, m :: r in s.results && m in s.members && r.memberId == Some(m.id) ==> r.memberName == m.name
  }

  /** The cached statistics of `m` are the recomputation over its rows. */
  predicate MemberConsistent(results: seq<ResultRow>, m: Member) {
    m.stats == Recompute(RowsOf(results, m.id))
  }

  /** Every member whose id is not in `ids` has up-to-date statistics. */
  predicate ConsistentExcept(s: Store, ids: set<int>) {
    forall m :: m in s.members && m.id !in ids ==> MemberConsistent(s.results, m)
  }

  /** Every member has up-to-date statistics. */
  predicate StatsConsistent(s: Store) {
    forall m :: m in s.members ==> MemberConsistent(s.results, m)
  }

  // ---------------------------------------------------------------------------
  // updateMemberStats: the write-back
  // ---------------------------------------------------------------------------

  /** `updateMemberStats(id)`: overwrite the statistics of the member with that id
      (if any) by the recomputation over its rows. */
  function UpdateMemberStats(s: Store, id: int): (s': Store)
    ensures s'.results == s.results && s'.games == s.games
    ensures s'.nextMemberId == s.nextMemberId && s'.nextGameId == s.nextGameId
    ensures |s'.members| == |s.members|
    ensures forall k :: 0 <= k < |s.members| ==>
      && s'.members[k].id == s.members[k].id
      && s'.members[k].name == s.members[k].name
      && (s.members[k].id == id ==> MemberConsistent(s'.results, s'.members[k]))
      && (s.members[k].id != id ==> s'.members[k] == s.members[k])
  {
    var stats := Recompute(RowsOf(s.results, id));
    s.(members := seq(|s.members|, k requires 0 <= k < |s.members| =>
      if s.members[k].id == id then s.members[k].(stats := stats) else s.members[k]))
  }

  /** Recomputing one member makes that member consistent and disturbs no other. */
  lemma UpdateMemberStatsRestores(s: Store, ids: set<int>, id: int)
    requires ConsistentExcept(s, ids)
    ensures ConsistentExcept(UpdateMemberStats(s, id), ids - {id})
  {
    var s' := UpdateMemberStats(s, id);
    forall m | m in s'.members && m.id !in ids - {id}
      ensures MemberConsistent(s'.results, m)
    {
      var k :| 0 <= k < |s'.members| && s'.members[k] == m;
      if s.members[k].id != id {
        assert s.members[k] in s.members;
      }
    }
  }

  /** `for (const memberId of ids) await updateMemberStats(memberId)`. */
  function UpdateEach(s: Store, ids: seq<int>): (s': Store)
    ensures s'.results == s.results && s'.games == s.games
    ensures s'.nextMemberId == s.nextMemberId && s'.nextGameId == s.nextGameId
    ensures |s'.members| == |s.members|
    ensures forall k :: 0 <= k < |s.members| ==>
      s'.members[k].id == s.members[k].id && s'.members[k].name == s.members[k].name
    ensures forall k :: 0 <= k < |s.members| && s.members[k].id !in ids ==> s'.members[k] == s.members[k]
    decreases |ids|
  {
    if |ids| == 0 then s else UpdateEach(UpdateMemberStats(s, ids[0]), ids[1..])
  }

  /** Recomputing a list of ids makes every listed member consistent. */
  lemma {:induction false} UpdateEachRestores(s: Store, ids: set<int>, todo: seq<int>)
    requires ConsistentExcept(s, ids)
    ensures ConsistentExcept(UpdateEach(s, todo), ids - (set i | i in todo))
    decreases |todo|
  {
    if |todo| > 0 {
      UpdateMemberStatsRestores(s, ids, todo[0]);
      UpdateEachRestores(UpdateMemberStats(s, todo[0]), ids - {todo[0]}, todo[1..]);
      assert ids - {todo[0]} - (set i | i in todo[1..]) == ids - (set i | i in todo);
    }
  }

  /** Two member tables that agree on ids and names position by position. */
  predicate SameRoster(a: seq<Member>, b: seq<Member>) {
    |a| == |b| && forall k :: 0 <= k < |a| ==> a[k].id == b[k].id && a[k].name == b[k].name
  }

  /** Every member of `b` has a counterpart with its id and name in `a`. */
  lemma RosterCovered(a: seq<Member>, b: seq<Member>)
    requires SameRoster(a, b)
    ensures forall m' :: m' in b ==> exists m :: m in a && m.id == m'.id && m.name == m'.name
  {
    forall m' | m' in b ensures exists m :: m in a && m.id == m'.id && m.name == m'.name {
      var k :| 0 <= k < |b| && b[k] == m';
      assert a[k] in a;
    }
  }

  lemma RosterIds(a: seq<Member>, b: seq<Member>)
    requires SameRoster(a, b)
    ensures MemberIds(a) == MemberIds(b)
  {
    RosterCovered(a, b);
    RosterCovered(b, a);
  }

  /** A store whose member table only changed in statistics keeps the structural invariants. */
  lemma SameRosterKeepsInvariants(s: Store, t: Store)
    requires SameRoster(s.members, t.members)
    requires t.results == s.results && t.games == s.games
    requires t.nextMemberId == s.nextMemberId && t.nextGameId == s.nextGameId
    ensures MemberIds(t.members) == MemberIds(s.members)
    ensures Wellformed(s) ==> Wellformed(t)
    ensures NamesAgree(s) ==> NamesAgree(t)
  {
    RosterIds(s.members, t.members);
    RosterCovered(s.members, t.members);
  }

  /** The write-back changes statistics only, so the structural invariants survive it. */
  lemma UpdateMemberStatsKeepsInvariants(s: Store, id: int)
    ensures MemberIds(UpdateMemberStats(s, id).members) == MemberIds(s.members)
    ensures Wellformed(s) ==> Wellformed(UpdateMemberStats(s, id))
    ensures NamesAgree(s) ==> NamesAgree(UpdateMemberStats(s, id))
  {
    SameRosterKeepsInvariants(s, UpdateMemberStats(s, id));
  }

  /** The same for a list of recomputations. */
  lemma {:induction false} UpdateEachKeepsInvariants(s: Store, todo: seq<int>)
    ensures MemberIds(UpdateEach(s, todo).members) == MemberIds(s.members)
    ensures Wellformed(s) ==> Wellformed(UpdateEach(s, todo))
    ensures NamesAgree(s) ==> NamesAgree(UpdateEach(s, todo))
    decreases |todo|
  {
    if |todo| > 0 {
      UpdateMemberStatsKeepsInvariants(s, todo[0]);
      UpdateEachKeepsInvariants(UpdateMemberStats(s, todo[0]), todo[1..]);
    }
  }

  // ---------------------------------------------------------------------------
  // Recomputation is blind to rewrites that keep ids and placings
  // ---------------------------------------------------------------------------

  lemma PlacingsAppend(a: seq<ResultRow>, b: seq<ResultRow>)
    ensures Placings(a + b) == Placings(a) + Placings(b)
  {
  }

  /** A rewrite that neither moves rows to or from `id` nor changes their score, rank or
      bonus leaves the placings of `id` as they were. */
  lemma {:induction false} PlacingsAfterRewrite(rows: seq<ResultRow>, f: ResultRow -> ResultRow, id: int)
    requires forall x :: x in rows ==> (f(x).memberId == Some(id) <==> x.memberId == Some(id))
    requires forall x :: x in rows && x.memberId == Some(id) ==> PlacingOf(f(x)) == PlacingOf(x)
    ensures Placings(RowsOf(MapRows(rows, f), id)) == Placings(RowsOf(rows, id))
  {
    if |rows| > 0 {
      var rest, mapped := rows[1..], MapRows(rows, f);
      PlacingsAfterRewrite(rest, f, id);
      assert rows[0] in rows;
      assert mapped[1..] == MapRows(rest, f);
      var head := if rows[0].memberId == Some(id) then [rows[0]] else [];
      var head' := if f(rows[0]).memberId == Some(id) then [f(rows[0])] else [];
      assert RowsOf(rows, id) == head + RowsOf(rest, id);
      assert RowsOf(mapped, id) == head' + RowsOf(MapRows(rest, f), id);
      assert Placings(head') == Placings(head);
      PlacingsAppend(head', RowsOf(MapRows(rest, f), id));
      PlacingsAppend(head, RowsOf(rest, id));
    }
  }

  lemma RecomputeAfterRewrite(rows: seq<ResultRow>, f: ResultRow -> ResultRow, id: int)
    requires forall x :: x in rows ==> (f(x).memberId == Some(id) <==> x.memberId == Some(id))
    requires forall x :: x in rows && x.memberId == Some(id) ==> PlacingOf(f(x)) == PlacingOf(x)
    ensures Recompute(RowsOf(MapRows(rows, f), id)) == Recompute(RowsOf(rows, id))
  {
    PlacingsAfterRewrite(rows, f, id);
    StatsDependOnlyOnPlacings(RowsOf(MapRows(rows, f), id), RowsOf(rows, id));
  }

  /** Rewriting every row with `f` keeps the placings of the rewritten rows. */
  lemma {:induction false} PlacingsOfMap(rows: seq<ResultRow>, f: ResultRow -> ResultRow)
    requires forall x :: x in rows ==> PlacingOf(f(x)) == PlacingOf(x)
    ensures Placings(MapRows(rows, f)) == Placings(rows)
  {
    var a := Placings(MapRows(rows, f));
    forall i | 0 <= i < |rows| ensures a[i] == Placings(rows)[i] {
      assert rows[i] in rows;
    }
  }

  // ---------------------------------------------------------------------------
  // addMember
  // ---------------------------------------------------------------------------

  /** `addMember(name)`: trim, refuse a blank or existing name, then insert a member with
      the next AUTOINCREMENT id and default (zero) statistics. */
  function AddMember(s: Store, name: string, createdAt: string): (r: Result<Store, MemberError>)
    ensures r == Failure(EmptyName) <==> Trim(name) == []
    ensures r == Failure(AlreadyExists) <==> Trim(name) != [] && exists m :: m in s.members && m.name == Trim(name)
    ensures r.Success? ==>
      && r.value.members == s.members + [Member(s.nextMemberId, Trim(name), ZeroStats, createdAt)]
      && r.value.results == s.results && r.value.games == s.games
      && r.value.nextMemberId == s.nextMemberId + 1 && r.value.nextGameId == s.nextGameId
  {
    var trimmed := Trim(name);
    if trimmed == [] then Failure(EmptyName)
    else if MemberNamed(s.members, trimmed).Some? then Failure(AlreadyExists)
    else Success(s.(members := s.members + [Member(s.nextMemberId, trimmed, ZeroStats, createdAt)],
                    nextMemberId := s.nextMemberId + 1))
  }

  /** In a well-formed store no row points at the next member id. */
  lemma NextMemberIdHasNoRows(s: Store)
    requires Wellformed(s)
    ensures forall x :: x in s.results ==> x.memberId != Some(s.nextMemberId)
    ensures RowsOf(s.results, s.nextMemberId) == []
  {
    forall x | x in s.results ensures x.memberId != Some(s.nextMemberId) {
      if x.memberId.Some? {
        var m :| m in s.members && m.id == x.memberId.value;
      }
    }
    RowsOfNone(s.results, s.nextMemberId);
  }

  /** Appending a member with a fresh id and a free name keeps the store well formed. */
  lemma AppendMemberWellformed(s: Store, added: Member)
    requires Wellformed(s)
    requires added.id == s.nextMemberId
    requires forall m :: m in s.members ==> m.name != added.name
    ensures Wellformed(s.(members := s.members + [added], nextMemberId := s.nextMemberId + 1))
  {
    var ms := s.members + [added];
    assert MemberIds(ms) == MemberIds(s.members) + {added.id};
    forall a, b | 0 <= a < b < |ms| ensures ms[a].name != ms[b].name && ms[a].id != ms[b].id {
      assert ms[a] in ms;
      if b == |s.members| {
        assert s.members[a] in s.members;
      }
    }
  }

  /** A member without rows and with zero statistics is consistent, and adding it
      disturbs no other member. */
  lemma AppendMemberStats(s: Store, added: Member)
    requires StatsConsistent(s)
    requires RowsOf(s.results, added.id) == [] && added.stats == ZeroStats
    ensures StatsConsistent(s.(members := s.members + [added]))
  {
    var ms := s.members + [added];
    forall m | m in ms ensures MemberConsistent(s.results, m) {
      if m != added {
        assert m in s.members;
      }
    }
  }

  /** A member no row points at cannot disagree with any snapshot. */
  lemma AppendMemberNames(s: Store, added: Member)
    requires NamesAgree(s)
    requires forall x :: x in s.results ==> x.memberId != Some(added.id)
    ensures NamesAgree(s.(members := s.members + [added]))
  {
    var ms := s.members + [added];
    forall x, m | x in s.results && m in ms && x.memberId == Some(m.id)
      ensures x.memberName == m.name
    {
      assert m in s.members;
    }
  }

  /** `addMember` keeps the store well formed, consistent and in agreement: the fresh id
      has no rows (the member-id foreign key), so zero statistics are already right. */
  lemma AddMemberKeepsInvariants(s: Store, name: string, createdAt: string)
    requires Wellformed(s) && StatsConsistent(s) && NamesAgree(s)
    requires AddMember(s, name, createdAt).Success?
    ensures var s' := AddMember(s, name, createdAt).value;
      Wellformed(s') && StatsConsistent(s') && NamesAgree(s')
  {
    var added := Member(s.nextMemberId, Trim(name), ZeroStats, createdAt);
    AppendMemberWellformed(s, added);
    NextMemberIdHasNoRows(s);
    AppendMemberStats(s, added);
    AppendMemberNames(s, added);
  }

  // ---------------------------------------------------------------------------
  // renameMember
  // ---------------------------------------------------------------------------

  function RenameRow(oldName: string, newName: string): ResultRow -> ResultRow {
    (r: ResultRow) => if r.memberName == oldName then r.(memberName := newName) else r
  }

  function RenameMembers(members: seq<Member>, oldName: string, newName: string): seq<Member> {
    seq(|members|, k requires 0 <= k < |members| =>
      if members[k].name == oldName then members[k].(name := newName) else members[k])
  }

  /** `renameMember(oldName, newName)`: trim the new name; refuse it when blank, equal to
      the old name, or already a member's name; otherwise rename the member row and every
      result row whose name snapshot is `oldName`. The old name is not looked up: with no
      such member the call still succeeds and rewrites only matching snapshots. */
  function RenameMember(s: Store, oldName: string, newName: string): (r: Result<Store, MemberError>)
    ensures r == Failure(EmptyName) <==> Trim(newName) == []
    ensures r == Failure(SameName) <==> Trim(newName) != [] && oldName == Trim(newName)
    ensures r == Failure(NameTaken) <==>
      Trim(newName) != [] && oldName != Trim(newName) && exists m :: m in s.members && m.name == Trim(newName)
    ensures r.Success? ==>
      && r.value.games == s.games
      && r.value.nextMemberId == s.nextMemberId && r.value.nextGameId == s.nextGameId
      && |r.value.members| == |s.members|
      && (forall k :: 0 <= k < |s.members| ==>
            r.value.members[k] == if s.members[k].name == oldName then s.members[k].(name := Trim(newName)) else s.members[k])
      && |r.value.results| == |s.results|
      && (forall i :: 0 <= i < |s.results| ==>
            r.value.results[i] == if s.results[i].memberName == oldName then s.results[i].(memberName := Trim(newName)) else s.results[i])
  {
    var trimmed := Trim(newName);
    if trimmed == [] then Failure(EmptyName)
    else if oldName == trimmed then Failure(SameName)
    else if MemberNamed(s.members, trimmed).Some? then Failure(NameTaken)
    else Success(s.(members := RenameMembers(s.members, oldName, trimmed),
                    results := MapRows(s.results, RenameRow(oldName, trimmed))))
  }

  /** Renaming touches no id, score, rank or bonus, so every member's statistics stay
      consistent without a recomputation (the source does not recompute). */
  lemma RenameKeepsStatsConsistent(s: Store, oldName: string, newName: string)
    requires StatsConsistent(s)
    requires RenameMember(s, oldName, newName).Success?
    ensures StatsConsistent(RenameMember(s, oldName, newName).value)
  {
    var s' := RenameMember(s, oldName, newName).value;
    var f := RenameRow(oldName, Trim(newName));
    assert s'.results == MapRows(s.results, f);
    forall m' | m' in s'.members ensures MemberConsistent(s'.results, m') {
      var k :| 0 <= k < |s'.members| && s'.members[k] == m';
      assert s.members[k] in s.members;
      RecomputeAfterRewrite(s.results, f, m'.id);
    }
  }

  /** Renaming keeps names and ids unique: the new name was free. */
  lemma RenameKeepsUniqueMembers(s: Store, oldName: string, newName: string)
    requires UniqueMembers(s.members)
    requires RenameMember(s, oldName, newName).Success?
    ensures UniqueMembers(RenameMember(s, oldName, newName).value.members)
  {
    var ms := RenameMember(s, oldName, newName).value.members;
    forall a, b | 0 <= a < b < |ms| ensures ms[a].name != ms[b].name && ms[a].id != ms[b].id {
      assert s.members[a] in s.members && s.members[b] in s.members;
    }
  }

  /** A store whose members and rows kept their ids and games, position by position, and
      whose names stayed unique, stays well formed. */
  lemma RelabelledWellformed(s: Store, s': Store)
    requires Wellformed(s) && UniqueMembers(s'.members)
    requires s'.games == s.games && s'.nextMemberId == s.nextMemberId && s'.nextGameId == s.nextGameId
    requires |s'.members| == |s.members| && forall k :: 0 <= k < |s.members| ==> s'.members[k].id == s.members[k].id
    requires |s'.results| == |s.results|
    requires forall i :: 0 <= i < |s.results| ==>
      s'.results[i].memberId == s.results[i].memberId && s'.results[i].gameId == s.results[i].gameId
    ensures Wellformed(s')
  {
    forall i | i in MemberIds(s.members) ensures i in MemberIds(s'.members) {
      var m :| m in s.members && m.id == i;
      var k :| 0 <= k < |s.members| && s.members[k] == m;
      assert s'.members[k] in s'.members;
    }
    forall m | m in s'.members ensures 1 <= m.id < s'.nextMemberId {
      var k :| 0 <= k < |s'.members| && s'.members[k] == m;
      assert s.members[k] in s.members;
    }
    forall x | x in s'.results
      ensures (x.memberId.Some? ==> x.memberId.value in MemberIds(s'.members)) && x.gameId in GameIds(s'.games)
    {
      var i :| 0 <= i < |s'.results| && s'.results[i] == x;
      assert s.results[i] in s.results;
    }
  }

  /** Renaming members and the rows named after them together keeps snapshots agreeing. */
  lemma RenamedNamesAgree(s: Store, s': Store, oldName: string, newName: string)
    requires NamesAgree(s)
    requires |s'.members| == |s.members|
    requires forall k :: 0 <= k < |s.members| ==>
      s'.members[k] == if s.members[k].name == oldName then s.members[k].(name := newName) else s.members[k]
    requires |s'.results| == |s.results|
    requires forall i :: 0 <= i < |s.results| ==>
      s'.results[i] == if s.results[i].memberName == oldName then s.results[i].(memberName := newName) else s.results[i]
    ensures NamesAgree(s')
  {
    forall x, m | x in s'.results && m in s'.members && x.memberId == Some(m.id)
      ensures x.memberName == m.name
    {
      var i :| 0 <= i < |s'.results| && s'.results[i] == x;
      var k :| 0 <= k < |s'.members| && s'.members[k] == m;
      assert s.results[i] in s.results && s.members[k] in s.members;
    }
  }

  /** A rename keeps the store well formed, every snapshot in agreement with its member's
      name and every member's statistics up to date: members and the rows that named them
      take the new name together, and no id moves. */
  lemma RenameKeepsInvariants(s: Store, oldName: string, newName: string)
    requires Wellformed(s) && NamesAgree(s) && StatsConsistent(s)
    requires RenameMember(s, oldName, newName).Success?
    ensures var s' := RenameMember(s, oldName, newName).value;
      Wellformed(s') && NamesAgree(s') && StatsConsistent(s')
  {
    var s' := RenameMember(s, oldName, newName).value;
    RenameKeepsUniqueMembers(s, oldName, newName);
    RenameKeepsStatsConsistent(s, oldName, newName);
    RelabelledWellformed(s, s');
    RenamedNamesAgree(s, s', oldName, Trim(newName));
  }

  /** Every row's name snapshot is some member's name. */
  predicate NamesKnown(s: Store) {
    forall r :: r in s.results ==> exists m :: m in s.members && m.name == r.memberName
  }

  /** Renaming member rows back: no member had the new name, and the renamed ones had the old. */
  lemma RenameMembersBack(members: seq<Member>, oldName: string, newName: string)
    requires forall m :: m in members ==> m.name != newName
    ensures RenameMembers(RenameMembers(members, oldName, newName), newName, oldName) == members
  {
    var back := RenameMembers(RenameMembers(members, oldName, newName), newName, oldName);
    forall k | 0 <= k < |members| ensures back[k] == members[k] {
      assert members[k] in members;
    }
  }

  /** Renaming result rows back: no snapshot carried the new name. */
  lemma RenameRowsBack(rows: seq<ResultRow>, oldName: string, newName: string)
    requires forall x :: x in rows ==> x.memberName != newName
    ensures MapRows(MapRows(rows, RenameRow(oldName, newName)), RenameRow(newName, oldName)) == rows
  {
    var back := MapRows(MapRows(rows, RenameRow(oldName, newName)), RenameRow(newName, oldName));
    forall i | 0 <= i < |rows| ensures back[i] == rows[i] {
      assert rows[i] in rows;
    }
  }

  /** After a rename no member row carries the old name (it differs from the new one). */
  lemma OldNameFreed(members: seq<Member>, oldName: string, newName: string)
    requires oldName != newName
    ensures MemberNamed(RenameMembers(members, oldName, newName), oldName).None?
  {
    var ms := RenameMembers(members, oldName, newName);
    forall k | 0 <= k < |ms| ensures ms[k].name != oldName {
    }
  }

  /** Renaming a member and renaming it back restores the store exactly, provided every
      snapshot names a member (so no stray snapshot already carries the new name). */
  lemma RenameRoundTrip(s: Store, oldName: string, newName: string)
    requires NamesKnown(s)
    requires oldName != [] && IsTrimmed(oldName)
    requires RenameMember(s, oldName, newName).Success?
    ensures RenameMember(RenameMember(s, oldName, newName).value, Trim(newName), oldName) == Success(s)
  {
    var t := Trim(newName);
    var ms := RenameMembers(s.members, oldName, t);
    var rows := MapRows(s.results, RenameRow(oldName, t));
    assert RenameMember(s, oldName, newName) == Success(s.(members := ms, results := rows));
    TrimOfTrimmed(oldName);
    TrimShape(newName);
    TrimOfTrimmed(t);
    OldNameFreed(s.members, oldName, t);
    assert RenameMember(s.(members := ms, results := rows), t, oldName)
        == Success(s.(members := RenameMembers(ms, t, oldName), results := MapRows(rows, RenameRow(t, oldName))));
    UnknownNameHasNoRows(s, t);
    RenameMembersBack(s.members, oldName, t);
    RenameRowsBack(s.results, oldName, t);
  }

  /** When snapshots name members, a name no member has is on no row. */
  lemma UnknownNameHasNoRows(s: Store, name: string)
    requires NamesKnown(s)
    requires MemberNamed(s.members, name).None?
    ensures forall x :: x in s.results ==> x.memberName != name
  {
    forall x | x in s.results ensures x.memberName != name {
      var m :| m in s.members && m.name == x.memberName;
    }
  }

  // ---------------------------------------------------------------------------
  // mergeMembers
  // ---------------------------------------------------------------------------

  /** Point a row at member `t`: both columns of the `set`. */
  function PointAt(r: ResultRow, t: Member): ResultRow {
    r.(memberId := Some(t.id), memberName := t.name)
  }

  /** The first update: rows whose member id is the source's. */
  function RepointById(t: Member, sourceId: int): ResultRow -> ResultRow {
    (r: ResultRow) => if r.memberId == Some(sourceId) then PointAt(r, t) else r
  }

  /** The second update: rows whose name snapshot is the source's name. */
  function RepointByName(t: Member, sourceName: string): ResultRow -> ResultRow {
    (r: ResultRow) => if r.memberName == sourceName then PointAt(r, t) else r
  }

  /** The rows the target owns after a merge: its own, the source id's, and any row
      carrying the source's name. */
  function AbsorbedBy(targetId: int, sourceId: int, sourceName: string): ResultRow -> bool {
    (r: ResultRow) => r.memberId == Some(targetId) || r.memberId == Some(sourceId) || r.memberName == sourceName
  }

  /** The two updates in one: a row is re-pointed when either `where` matched it. */
  function Repoint(t: Member, sourceId: int, sourceName: string): ResultRow -> ResultRow {
    (r: ResultRow) => if r.memberId == Some(sourceId) || r.memberName == sourceName then PointAt(r, t) else r
  }

  function KeepMembers(members: seq<Member>, keep: Member -> bool): (r: seq<Member>)
    ensures forall m :: m in r <==> m in members && keep(m)
  {
    if |members| == 0 then []
    else (if keep(members[0]) then [members[0]] else []) + KeepMembers(members[1..], keep)
  }

  /** `KeepMembers` keeps every copy of a kept member and no copy of the others. */
  lemma {:induction false} KeepMembersCounts(members: seq<Member>, keep: Member -> bool)
    ensures forall m :: multiset(KeepMembers(members, keep))[m] == if keep(m) then multiset(members)[m] else 0
  {
    if |members| > 0 {
      assert members == [members[0]] + members[1..];
      KeepMembersCounts(members[1..], keep);
    }
  }

  /** Dropping members keeps names and ids unique. */
  lemma {:induction false} KeepMembersUnique(members: seq<Member>, keep: Member -> bool)
    requires UniqueMembers(members)
    ensures UniqueMembers(KeepMembers(members, keep))
  {
    if |members| > 0 {
      var rest := KeepMembers(members[1..], keep);
      assert UniqueMembers(members[1..]) by {
        forall a, b | 0 <= a < b < |members[1..]|
          ensures members[1..][a].name != members[1..][b].name && members[1..][a].id != members[1..][b].id
        {
          assert members[1..][a] == members[a + 1] && members[1..][b] == members[b + 1];
        }
      }
      KeepMembersUnique(members[1..], keep);
      if keep(members[0]) {
        var r := [members[0]] + rest;
        forall a, b | 0 <= a < b < |r| ensures r[a].name != r[b].name && r[a].id != r[b].id {
          assert r[b] == rest[b - 1] && rest[b - 1] in rest;
          if a == 0 {
            var j :| 0 <= j < |members[1..]| && members[1..][j] == r[b];
            assert members[j + 1] == r[b];
          } else {
            assert r[a] == rest[a - 1];
          }
        }
      }
    }
  }

  function IdIsNot(id: int): Member -> bool {
    (m: Member) => m.id != id
  }

  /** `mergeMembers(targetName, sourceName)`: refuse in production, refuse a self-merge,
      a missing target, then a missing source; otherwise re-point the source's rows (by
      id, then by name snapshot) to the target, delete the source and recompute the target. */
  function MergeMembers(s: Store, production: bool, targetName: string, sourceName: string): (r: Result<Store, MemberError>)
    ensures r == Failure(Disabled) <==> production
    ensures r == Failure(SelfMerge) <==> !production && targetName == sourceName
    ensures r == Failure(TargetMissing) <==>
      !production && targetName != sourceName && MemberNamed(s.members, targetName).None?
    ensures r == Failure(SourceMissing) <==>
      !production && targetName != sourceName && MemberNamed(s.members, targetName).Some?
      && MemberNamed(s.members, sourceName).None?
    ensures r.Success? ==> r.value.games == s.games && |r.value.results| == |s.results|
  {
    if production then Failure(Disabled)
    else if targetName == sourceName then Failure(SelfMerge)
    else match (MemberNamed(s.members, targetName), MemberNamed(s.members, sourceName))
      case (None, _) => Failure(TargetMissing)
      case (Some(_), None) => Failure(SourceMissing)
      case (Some(t), Some(src)) =>
        var byId := MapRows(s.results, RepointById(t, src.id));
        var byName := MapRows(byId, RepointByName(t, sourceName));
        var pruned := s.(members := KeepMembers(s.members, IdIsNot(src.id)), results := byName);
        Success(UpdateMemberStats(pruned, t.id))
  }

  /** The two sequential updates equal the single combined rewrite (the first update
      writes the target's name, which is not the source's name). */
  lemma TwoPassesAreOne(rows: seq<ResultRow>, t: Member, sourceId: int, sourceName: string)
    requires t.name != sourceName
    ensures MapRows(MapRows(rows, RepointById(t, sourceId)), RepointByName(t, sourceName))
         == MapRows(rows, Repoint(t, sourceId, sourceName))
  {
  }

  /** What a successful merge does, with the two updates folded into one rewrite. */
  lemma MergeShape(s: Store, targetName: string, sourceName: string) returns (t: Member, src: Member)
    requires UniqueMembers(s.members)
    requires MergeMembers(s, false, targetName, sourceName).Success?
    ensures t == MemberNamed(s.members, targetName).value && src == MemberNamed(s.members, sourceName).value
    ensures t in s.members && src in s.members && t.id != src.id
    ensures t.name == targetName && src.name == sourceName && t.name != sourceName
    ensures MergeMembers(s, false, targetName, sourceName).value ==
      UpdateMemberStats(s.(members := KeepMembers(s.members, IdIsNot(src.id)),
                           results := MapRows(s.results, Repoint(t, src.id, sourceName))), t.id)
  {
    t := MemberNamed(s.members, targetName).value;
    src := MemberNamed(s.members, sourceName).value;
    if t.id == src.id {
      UniqueMember(s.members, t, src);
    }
    TwoPassesAreOne(s.results, t, src.id, sourceName);
  }

  /** After the write-back, the member with that id is there and carries the recomputation
      over its rows. */
  lemma UpdatedMember(p: Store, m0: Member)
    requires m0 in p.members
    ensures var s' := UpdateMemberStats(p, m0.id);
      && (exists m :: m in s'.members && m.id == m0.id)
      && (forall m :: m in s'.members && m.id == m0.id ==> m.stats == Recompute(RowsOf(p.results, m0.id)))
  {
    var s' := UpdateMemberStats(p, m0.id);
    var kt :| 0 <= kt < |p.members| && p.members[kt] == m0;
    assert s'.members[kt] in s'.members;
    forall m | m in s'.members && m.id == m0.id
      ensures m.stats == Recompute(RowsOf(p.results, m0.id))
    {
      var k :| 0 <= k < |s'.members| && s'.members[k] == m;
      assert MemberConsistent(s'.results, s'.members[k]);
    }
  }

  /** The rows the merge points at the target recompute to the statistics of the rows it
      absorbed. */
  lemma AbsorbedStats(results: seq<ResultRow>, t: Member, sourceId: int, sourceName: string)
    requires t.id != sourceId
    ensures Recompute(RowsOf(MapRows(results, Repoint(t, sourceId, sourceName)), t.id))
         == Recompute(Filter(results, AbsorbedBy(t.id, sourceId, sourceName)))
  {
    var g := Repoint(t, sourceId, sourceName);
    var absorbed := Filter(results, AbsorbedBy(t.id, sourceId, sourceName));
    RowsOfMap(results, g, AbsorbedBy(t.id, sourceId, sourceName), t.id);
    PlacingsOfMap(absorbed, g);
    StatsDependOnlyOnPlacings(RowsOf(MapRows(results, g), t.id), absorbed);
  }

  /** The merged target's statistics are the recomputation over every row it absorbed:
      its own rows, the source id's rows and the rows with the source's name, in table
      order. */
  lemma MergedTargetStats(s: Store, targetName: string, sourceName: string)
    requires UniqueMembers(s.members)
    requires MergeMembers(s, false, targetName, sourceName).Success?
    ensures var t := MemberNamed(s.members, targetName).value;
      var src := MemberNamed(s.members, sourceName).value;
      var s' := MergeMembers(s, false, targetName, sourceName).value;
      && (exists m :: m in s'.members && m.id == t.id)
      && (forall m :: m in s'.members && m.id == t.id ==>
            m.stats == Recompute(Filter(s.results, AbsorbedBy(t.id, src.id, sourceName))))
  {
    var t, src := MergeShape(s, targetName, sourceName);
    var pruned := s.(members := KeepMembers(s.members, IdIsNot(src.id)),
                     results := MapRows(s.results, Repoint(t, src.id, sourceName)));
    AbsorbedStats(s.results, t, src.id, sourceName);
    assert t in pruned.members;
    UpdatedMember(pruned, t);
  }

  /** After a merge the source is gone: no member has its id or name, and no row points
      at it by id or by name. */
  lemma MergeRemovesSource(s: Store, targetName: string, sourceName: string)
    requires UniqueMembers(s.members)
    requires MergeMembers(s, false, targetName, sourceName).Success?
    ensures var src := MemberNamed(s.members, sourceName).value;
      var s' := MergeMembers(s, false, targetName, sourceName).value;
      && (forall m :: m in s'.members ==> m.id != src.id && m.name != sourceName)
      && (forall r :: r in s'.results ==> r.memberId != Some(src.id) && r.memberName != sourceName)
  {
    var t, src := MergeShape(s, targetName, sourceName);
    var rows := MapRows(s.results, Repoint(t, src.id, sourceName));
    var pruned := KeepMembers(s.members, IdIsNot(src.id));
    var s' := MergeMembers(s, false, targetName, sourceName).value;
    forall m | m in s'.members ensures m.id != src.id && m.name != sourceName {
      var k :| 0 <= k < |s'.members| && s'.members[k] == m;
      assert pruned[k] in pruned;
      if pruned[k].name == sourceName {
        UniqueMember(s.members, pruned[k], src);
      }
    }
    forall r | r in s'.results ensures r.memberId != Some(src.id) && r.memberName != sourceName {
      var i :| 0 <= i < |rows| && rows[i] == r;
    }
  }

  /** A merge keeps every member consistent: the target is recomputed, and no other
      member's rows move, because a row carrying the source's name can only point at
      the source (names agree with ids, and names are unique). */
  lemma MergeKeepsStatsConsistent(s: Store, targetName: string, sourceName: string)
    requires UniqueMembers(s.members) && NamesAgree(s) && StatsConsistent(s)
    requires MergeMembers(s, false, targetName, sourceName).Success?
    ensures StatsConsistent(MergeMembers(s, false, targetName, sourceName).value)
  {
    var t, src := MergeShape(s, targetName, sourceName);
    var g := Repoint(t, src.id, sourceName);
    var pruned := s.(members := KeepMembers(s.members, IdIsNot(src.id)), results := MapRows(s.results, g));
    forall m | m in pruned.members && m.id !in {t.id}
      ensures MemberConsistent(pruned.results, m)
    {
      assert m in s.members && m.id != src.id;
      if m.name == sourceName {
        UniqueMember(s.members, m, src);
      }
      RecomputeAfterRewrite(s.results, g, m.id);
    }
    assert ConsistentExcept(pruned, {t.id});
    UpdateMemberStatsRestores(pruned, {t.id}, t.id);
  }

  /** The merge's store before the recomputation: the source dropped, its rows re-pointed. */
  function Repointed(s: Store, t: Member, sourceId: int, sourceName: string): Store {
    s.(members := KeepMembers(s.members, IdIsNot(sourceId)), results := MapRows(s.results, Repoint(t, sourceId, sourceName)))
  }

  /** Re-pointing the source's rows at a surviving target keeps the store well formed: no
      row is left pointing at the dropped source. */
  lemma RepointedWellformed(s: Store, t: Member, sourceId: int, sourceName: string)
    requires Wellformed(s) && t in s.members && t.id != sourceId
    ensures Wellformed(Repointed(s, t, sourceId, sourceName))
  {
    var p := Repointed(s, t, sourceId, sourceName);
    KeepMembersUnique(s.members, IdIsNot(sourceId));
    assert t in p.members;
    forall x | x in p.results
      ensures (x.memberId.Some? ==> x.memberId.value in MemberIds(p.members)) && x.gameId in GameIds(p.games)
    {
      var i :| 0 <= i < |p.results| && p.results[i] == x;
      var x0 := s.results[i];
      assert x0 in s.results;
      if x != x0 {
        assert x.memberId == Some(t.id);
      } else if x.memberId.Some? {
        var m :| m in s.members && m.id == x.memberId.value;
        assert m in p.members;
      }
    }
  }

  /** Re-pointed rows take the target's id and name together, and the others kept theirs. */
  lemma RepointedNamesAgree(s: Store, t: Member, sourceId: int, sourceName: string)
    requires UniqueMembers(s.members) && NamesAgree(s) && t in s.members
    ensures NamesAgree(Repointed(s, t, sourceId, sourceName))
  {
    var p := Repointed(s, t, sourceId, sourceName);
    forall x, m | x in p.results && m in p.members && x.memberId == Some(m.id)
      ensures x.memberName == m.name
    {
      var i :| 0 <= i < |p.results| && p.results[i] == x;
      var x0 := s.results[i];
      assert x0 in s.results;
      if x != x0 {
        UniqueMember(s.members, m, t);
      }
    }
  }

  /** A merge keeps the store well formed, every snapshot in agreement with its member's
      name and every member's statistics up to date. */
  lemma MergeKeepsInvariants(s: Store, targetName: string, sourceName: string)
    requires Wellformed(s) && NamesAgree(s) && StatsConsistent(s)
    requires MergeMembers(s, false, targetName, sourceName).Success?
    ensures var s' := MergeMembers(s, false, targetName, sourceName).value;
      Wellformed(s') && NamesAgree(s') && StatsConsistent(s')
  {
    var t, src := MergeShape(s, targetName, sourceName);
    RepointedWellformed(s, t, src.id, sourceName);
    RepointedNamesAgree(s, t, src.id, sourceName);
    UpdateMemberStatsKeepsInvariants(Repointed(s, t, src.id, sourceName), t.id);
    MergeKeepsStatsConsistent(s, targetName, sourceName);
  }

  // ---------------------------------------------------------------------------
  // deleteMember
  // ---------------------------------------------------------------------------

  /** The games in which some row carries `name`. */
  function GamesWithName(results: seq<ResultRow>, name: string): set<int> {
    set r | r in results && r.memberName == name :: r.gameId
  }

  function GameNotIn(ids: set<int>): ResultRow -> bool {
    (r: ResultRow) => r.gameId !in ids
  }

  function RecordNotIn(games: seq<GameRecord>, ids: set<int>): (r: seq<GameRecord>)
    ensures forall g :: g in r <==> g in games && g.id !in ids
    ensures IdsAscending(games) ==> IdsAscending(r)
    ensures forall g :: multiset(r)[g] == if g.id in ids then 0 else multiset(games)[g]
  {
    if |games| == 0 then []
    else
      assert games == [games[0]] + games[1..];
      var rest := RecordNotIn(games[1..], ids);
      if games[0].id in ids then rest
      else
        ConsAscending(games, rest);
        [games[0]] + rest
  }

  /** Putting the first record in front of an ascending selection of the others keeps the
      ids ascending. */
  lemma ConsAscending(games: seq<GameRecord>, rest: seq<GameRecord>)
    requires |games| > 0 && (IdsAscending(games[1..]) ==> IdsAscending(rest))
    requires forall g :: g in rest ==> g in games[1..]
    ensures IdsAscending(games) ==> IdsAscending([games[0]] + rest)
  {
    if IdsAscending(games) {
      assert IdsAscending(games[1..]) by {
        forall i, j | 0 <= i < j < |games[1..]| ensures games[1..][i].id < games[1..][j].id {
          assert games[1..][i] == games[i + 1] && games[1..][j] == games[j + 1];
        }
      }
      var r := [games[0]] + rest;
      forall i, j | 0 <= i < j < |r| ensures r[i].id < r[j].id {
        assert r[j] == rest[j - 1] && rest[j - 1] in rest;
        var k :| 0 <= k < |games[1..]| && games[1..][k] == rest[j - 1];
        if i == 0 {
          assert games[k + 1] == r[j];
        } else {
          assert r[i] == rest[i - 1];
        }
      }
    }
  }

  function NameIsNot(name: string): Member -> bool {
    (m: Member) => m.name != name
  }

  /** `deleteMember(name)` as written: refuse in production or for an unknown name;
      otherwise delete every game in which a row carries the name (their rows go by the
      cascade) and the member. No statistics are recomputed. */
  function DeleteMember(s: Store, production: bool, name: string): (r: Result<Store, MemberError>)
    ensures r == Failure(Disabled) <==> production
    ensures r == Failure(MemberMissing) <==> !production && MemberNamed(s.members, name).None?
    ensures r.Success? ==>
      && (forall x :: x in r.value.results <==> x in s.results && x.gameId !in GamesWithName(s.results, name))
      && (forall g :: g in r.value.games <==> g in s.games && g.id !in GamesWithName(s.results, name))
      && (forall m :: m in r.value.members <==> m in s.members && m.name != name)
    ensures r.Success? ==>
      var doomed := GamesWithName(s.results, name);
      && r.value.members == KeepMembers(s.members, NameIsNot(name))
      && r.value.games == RecordNotIn(s.games, doomed)
      && r.value.results == Filter(s.results, GameNotIn(doomed))
      && (forall m :: multiset(r.value.members)[m] == if m.name == name then 0 else multiset(s.members)[m])
      && (forall g :: multiset(r.value.games)[g] == if g.id in doomed then 0 else multiset(s.games)[g])
      && (forall x :: multiset(r.value.results)[x] == if x.gameId in doomed then 0 else multiset(s.results)[x])
  {
    if production then Failure(Disabled)
    else if MemberNamed(s.members, name).None? then Failure(MemberMissing)
    else
      var doomed := GamesWithName(s.results, name);
      FilterCounts(s.results, GameNotIn(doomed));
      KeepMembersCounts(s.members, NameIsNot(name));
      Success(s.(members := KeepMembers(s.members, NameIsNot(name)),
                 games := RecordNotIn(s.games, doomed),
                 results := Filter(s.results, GameNotIn(doomed))))
  }

  /** The as-written delete leaves a co-player stale: a member whose every game was
      shared with the deleted member keeps its old, non-empty statistics although it no
      longer has any row. */
  lemma DeleteMemberLeavesCoPlayerStale(s: Store, name: string, b: Member)
    requires StatsConsistent(s)
    requires MemberNamed(s.members, name).Some?
    requires b in s.members && b.name != name
    requires RowsOf(s.results, b.id) != []
    requires forall x :: x in s.results && x.memberId == Some(b.id) ==> x.gameId in GamesWithName(s.results, name)
    ensures DeleteMember(s, false, name).Success?
    ensures b in DeleteMember(s, false, name).value.members
    ensures !StatsConsistent(DeleteMember(s, false, name).value)
  {
    var s' := DeleteMember(s, false, name).value;
    NonEmptyHistoryIsNotReset(RowsOf(s.results, b.id));
    assert MemberConsistent(s.results, b);
    RowsOfNone(s'.results, b.id);
    assert !MemberConsistent(s'.results, b);
  }

  /** The ids of the members the deleted rows pointed at. */
  function PointedIds(rows: seq<ResultRow>): (ids: seq<int>)
    ensures forall x :: x in rows && x.memberId.Some? ==> x.memberId.value in ids
    ensures forall i :: i in ids ==> exists x :: x in rows && x.memberId == Some(i)
  {
    if |rows| == 0 then []
    else (if rows[0].memberId.Some? then [rows[0].memberId.value] else []) + PointedIds(rows[1..])
  }

  function GameIn(ids: set<int>): ResultRow -> bool {
    (r: ResultRow) => r.gameId in ids
  }

  /** `deleteMember` corrected: the same deletes, then every member the deleted rows
      pointed at is recomputed, as `deleteGameRecord` does after its cascade delete. */
  function DeleteMemberRecomputing(s: Store, production: bool, name: string): (r: Result<Store, MemberError>)
    ensures r.Success? <==> DeleteMember(s, production, name).Success?
    ensures r.Success? ==>
      && r.value.results == DeleteMember(s, production, name).value.results
      && r.value.games == DeleteMember(s, production, name).value.games
  {
    match DeleteMember(s, production, name)
    case Failure(e) => Failure(e)
    case Success(s1) =>
      var doomed := GamesWithName(s.results, name);
      Success(UpdateEach(s1, PointedIds(Filter(s.results, GameIn(doomed)))))
  }

  /** The corrected delete keeps every surviving member's statistics consistent. */
  lemma DeleteMemberRecomputingKeepsStatsConsistent(s: Store, name: string)
    requires StatsConsistent(s)
    requires DeleteMemberRecomputing(s, false, name).Success?
    ensures StatsConsistent(DeleteMemberRecomputing(s, false, name).value)
  {
    var s1 := DeleteMember(s, false, name).value;
    var doomed := GamesWithName(s.results, name);
    var gone := Filter(s.results, GameIn(doomed));
    var ids := set i | i in PointedIds(gone);
    assert ConsistentExcept(s1, ids) by {
      forall m | m in s1.members && m.id !in ids ensures MemberConsistent(s1.results, m) {
        forall x | x in s.results && !GameNotIn(doomed)(x) ensures x.memberId != Some(m.id) {
          assert x in gone;
        }
        RowsOfFilter(s.results, GameNotIn(doomed), m.id);
      }
    }
    UpdateEachRestores(s1, ids, PointedIds(gone));
  }
}

=== FILE: schema.dfy ===
/** The stored entities of src/lib/schema.ts as immutable values, and the
    abstract store the server actions read and rewrite. */
module Schema {
  import opened Wrappers

  /** One row of `game_results`: one seat of one game. `memberId` is a weak,
      nullable reference; `memberName` is the name snapshot taken when the row was written. */
  datatype ResultRow = ResultRow(
    gameId: int,
    memberId: Option<int>,
    memberName: string,
    score: real,
    rank: int,
    rankBonus: real)

  /** The cached statistics columns of `members`. */
  datatype Stats = Stats(
    points: real,
    basePoints: real,
    games: nat,
    first: nat,
    second: nat,
    third: nat,
    fourth: nat,
    highestScore: Option<real>,
    catCount: nat,
    negativeCount: nat)

  /** The column defaults of `members`, also what a member without results is reset to. */
  const ZeroStats := Stats(0.0, 0.0, 0, 0, 0, 0, 0, None, 0, 0)

  /** One row of `members`; `name` is unique across the table. */
  datatype Member = Member(id: int, name: string, stats: Stats, createdAt: string)

  /** One row of `game_records`. */
  datatype GameRecord = GameRecord(id: int, timestamp: string)

  /** The three tables, each in row order, and the AUTOINCREMENT counters of `members`
      and `game_records`: the id the next inserted row receives (ids are never reused). */
  datatype Store = Store(
    members: seq<Member>,
    games: seq<GameRecord>,
    results: seq<ResultRow>,
    nextMemberId: int,
    nextGameId: int)

  /** `select ... from game_results where member_id = id`, in table order. */
  function RowsOf(results: seq<ResultRow>, id: int): (rows: seq<ResultRow>)
    ensures |rows| <= |results|
    ensures forall r :: r in rows <==> r in results && r.memberId == Some(id)
  {
    if |results| == 0 then []
    else (if results[0].memberId == Some(id) then [results[0]] else []) + RowsOf(results[1..], id)
  }

  /** `getMemberByName`: the member with that exact name, if any. */
  function MemberNamed(members: seq<Member>, name: string): (m: Option<Member>)
    ensures m.Some? ==> m.value in members && m.value.name == name
    ensures m.None? ==> forall k :: 0 <= k < |members| ==> members[k].name != name
  {
    if |members| == 0 then None
    else if members[0].name == name then Some(members[0])
    else MemberNamed(members[1..], name)
  }

  /** Member names are unique and so are member ids. */
  predicate UniqueMembers(members: seq<Member>) {
    forall a, b :: 0 <= a < b < |members| ==> members[a].name != members[b].name && members[a].id != members[b].id
  }

  /** Rows that pass `keep`, in table order (a `where` clause or the rows a `delete` leaves). */
  function Filter(rows: seq<ResultRow>, keep: ResultRow -> bool): (r: seq<ResultRow>)
    ensures |r| <= |rows|
    ensures forall x :: x in r <==> x in rows && keep(x)
  {
    if |rows| == 0 then []
    else (if keep(rows[0]) then [rows[0]] else []) + Filter(rows[1..], keep)
  }

  /** `Filter` keeps every copy of a kept row: a row occurs in the result as often as in
      the input when it is kept, and not at all otherwise. */
  lemma {:induction false} FilterCounts(rows: seq<ResultRow>, keep: ResultRow -> bool)
    ensures forall x :: multiset(Filter(rows, keep))[x] == if keep(x) then multiset(rows)[x] else 0
  {
    if |rows| > 0 {
      assert rows == [rows[0]] + rows[1..];
      FilterCounts(rows[1..], keep);
    }
  }

  /** Every row rewritten by `f` (an `update ... set` whose `where` is folded into `f`). */
  function MapRows(rows: seq<ResultRow>, f: ResultRow -> ResultRow): (r: seq<ResultRow>)
    ensures |r| == |rows|
    ensures forall i :: 0 <= i < |rows| ==> r[i] == f(rows[i])
  {
    if |rows| == 0 then [] else [f(rows[0])] + MapRows(rows[1..], f)
  }

  lemma {:induction false} RowsOfAppend(a: seq<ResultRow>, b: seq<ResultRow>, id: int)
    ensures RowsOf(a + b, id) == RowsOf(a, id) + RowsOf(b, id)
  {
    if |a| == 0 {
      assert a + b == b;
    } else {
      assert (a + b)[1..] == a[1..] + b;
      RowsOfAppend(a[1..], b, id);
    }
  }

  /** Dropping rows that do not belong to `id` leaves the rows of `id` as they were. */
  lemma {:induction false} RowsOfFilter(rows: seq<ResultRow>, keep: ResultRow -> bool, id: int)
    requires forall x :: x in rows && !keep(x) ==> x.memberId != Some(id)
    ensures RowsOf(Filter(rows, keep), id) == RowsOf(rows, id)
  {
    if |rows| > 0 {
      RowsOfFilter(rows[1..], keep, id);
      if keep(rows[0]) {
        assert Filter(rows, keep) == [rows[0]] + Filter(rows[1..], keep);
        RowsOfAppend([rows[0]], Filter(rows[1..], keep), id);
        assert [rows[0]][1..] == [];
      } else {
        assert rows[0] in rows;
        assert Filter(rows, keep) == Filter(rows[1..], keep);
      }
    }
  }

  /** After a rewrite, the rows of `id` are the rewritten images of the rows `sel` picks,
      when `sel` picks exactly the rows the rewrite points at `id`. */
  lemma {:induction false} RowsOfMap(rows: seq<ResultRow>, f: ResultRow -> ResultRow, sel: ResultRow -> bool, id: int)
    requires forall x :: x in rows ==> (sel(x) <==> f(x).memberId == Some(id))
    ensures RowsOf(MapRows(rows, f), id) == MapRows(Filter(rows, sel), f)
  {
    if |rows| > 0 {
      RowsOfMap(rows[1..], f, sel, id);
      assert MapRows(rows, f) == [f(rows[0])] + MapRows(rows[1..], f);
      RowsOfAppend([f(rows[0])], MapRows(rows[1..], f), id);
      assert [f(rows[0])][1..] == [];
      assert rows[0] in rows;
      assert Filter(rows, sel) == (if sel(rows[0]) then [rows[0]] else []) + Filter(rows[1..], sel);
      MapRowsAppend(if sel(rows[0]) then [rows[0]] else [], Filter(rows[1..], sel), f);
    }
  }

  lemma {:induction false} MapRowsAppend(a: seq<ResultRow>, b: seq<ResultRow>, f: ResultRow -> ResultRow)
    ensures MapRows(a + b, f) == MapRows(a, f) + MapRows(b, f)
  {
    if |a| == 0 {
      assert a + b == b;
    } else {
      assert (a + b)[1..] == a[1..] + b;
      MapRowsAppend(a[1..], b, f);
    }
  }

  /** A member with no pointing row has no rows. */
  lemma {:induction false} RowsOfNone(results: seq<ResultRow>, id: int)
    requires forall x :: x in results ==> x.memberId != Some(id)
    ensures RowsOf(results, id) == []
  {
    if |results| > 0 {
      assert results[0] in results;
      RowsOfNone(results[1..], id);
    }
  }

  /** With unique members, a name or an id identifies the member. */
  lemma UniqueMember(members: seq<Member>, a: Member, b: Member)
    requires UniqueMembers(members) && a in members && b in members
    requires a.name == b.name || a.id == b.id
    ensures a == b
  {
    var i :| 0 <= i < |members| && members[i] == a;
    var j :| 0 <= j < |members| && members[j] == b;
  }
}

=== FILE: scoring.dfy ===
/** Tied-score settlement of one game (src/lib/scoring.ts).

    A game's players are sorted by score, descending; every group of equal
    scores gets a competition rank (1 + the number of players with a strictly
    higher score) and the average of the per-slot bonuses +50/+10/-10/-30 of
    the slots the group occupies. */
module Scoring {

  /** One seat of a game: a trimmed member name and a score in units of 100 points. */
  datatype PlayerScore = PlayerScore(memberName: string, score: real)

  /** The four scores of a game must sum to this value ... */
  const TotalGameScore: real := 1000.0
  /** ... up to this tolerance. */
  const TotalGameScoreTolerance: real := 0.001

  /** Whether `total` is accepted as the sum of a game's four scores
      (the source rejects `Math.abs(total - 1000) > 0.001`). */
  predicate WithinTotal(total: real) {
    -TotalGameScoreTolerance <= total - TotalGameScore <= TotalGameScoreTolerance
  }

  /** `getRankBonus`: the bonus a single player would receive in slot `rank`. */
  function RankBonus(rank: int): real {
    match rank
    case 1 => 50.0
    case 2 => 10.0
    case 3 => -10.0
    case 4 => -30.0
    case _ => 0.0
  }

  /** The sum of the bonuses of the `g` consecutive slots `r, r+1, ..., r+g-1`. */
  function SlotSum(r: int, g: nat): real {
    if g == 0 then 0.0 else SlotSum(r, g - 1) + RankBonus(r + g - 1)
  }

  /** The bonus shared by each member of a tie group of size `g` whose rank is `r`. */
  function GroupBonus(r: int, g: nat): real
    requires g > 0
  {
    SlotSum(r, g) / g as real
  }

  /** `getRankBonus` pays 50, 10, -10, -30 to ranks 1..4 and nothing to any other rank,
      and the whole pool of slots 1..n is 20 as soon as the four paid slots are in it. */
  lemma RankBonusTable(rank: int, n: nat)
    ensures 1 <= rank <= 4 ==> RankBonus(rank) == [50.0, 10.0, -10.0, -30.0][rank - 1]
    ensures rank < 1 || rank > 4 ==> RankBonus(rank) == 0.0
    ensures n >= 4 ==> SlotSum(1, n) == 20.0
  {
    if n >= 4 {
      SlotSumPastFour(n);
    }
  }

  /** Slots beyond the fourth add nothing to the pool. */
  lemma {:induction false} SlotSumPastFour(n: nat)
    requires n >= 4
    ensures SlotSum(1, n) == 20.0
  {
    if n > 4 {
      SlotSumPastFour(n - 1);
    }
  }

  /** A run of slots splits into two consecutive runs. */
  lemma {:induction false} SlotSumSplit(r: int, g1: nat, g2: nat)
    ensures SlotSum(r, g1 + g2) == SlotSum(r, g1) + SlotSum(r + g1, g2)
  {
    if g2 > 0 {
      SlotSumSplit(r, g1, g2 - 1);
    }
  }

  // ---------------------------------------------------------------------------
  // Sorting by score, descending
  // ---------------------------------------------------------------------------

  /** Sorted by score, highest first. */
  predicate NonIncreasing(s: seq<PlayerScore>) {
    forall a, b :: 0 <= a < b < |s| ==> s[a].score >= s[b].score
  }

  /** Inserts `p` into a sorted sequence after every element whose score is at least `p`'s. */
  function Insert(p: PlayerScore, s: seq<PlayerScore>): (r: seq<PlayerScore>)
    requires NonIncreasing(s)
    ensures |r| == |s| + 1
    ensures multiset(r) == multiset(s) + multiset{p}
    ensures NonIncreasing(r)
    ensures r[0] == p || (|s| > 0 && r[0] == s[0])
  {
    if |s| == 0 then [p]
    else if s[0].score >= p.score then
      assert s == [s[0]] + s[1..];
      var rest := Insert(p, s[1..]);
      ConsSorted(s[0], rest);
      [s[0]] + rest
    else
      ConsSorted(p, s);
      [p] + s
  }

  /** A player no lower than the head of a sorted sequence can go in front of it. */
  lemma ConsSorted(x: PlayerScore, s: seq<PlayerScore>)
    requires NonIncreasing(s)
    requires |s| > 0 ==> x.score >= s[0].score
    ensures NonIncreasing([x] + s)
  {
    forall a, b | 0 <= a < b < |s| + 1
      ensures ([x] + s)[a].score >= ([x] + s)[b].score
    {
      if a == 0 {
        assert s[0].score >= s[b - 1].score;
      }
    }
  }

  /** `[...players].sort((a, b) => b.score - a.score)`: a stable sort, highest score first. */
  function SortDesc(ps: seq<PlayerScore>): (r: seq<PlayerScore>)
    ensures |r| == |ps|
    ensures multiset(r) == multiset(ps)
    ensures NonIncreasing(r)
  {
    if |ps| == 0 then []
    else
      assert ps == ps[..|ps| - 1] + [ps[|ps| - 1]];
      Insert(ps[|ps| - 1], SortDesc(ps[..|ps| - 1]))
  }

  // ---------------------------------------------------------------------------
  // Counting players above and level with a score
  // ---------------------------------------------------------------------------

  /** The number of players whose score is strictly higher than `x`. */
  function CountAbove(s: seq<PlayerScore>, x: real): nat {
    if |s| == 0 then 0 else (if s[0].score > x then 1 else 0) + CountAbove(s[1..], x)
  }

  /** The number of players whose score equals `x`. */
  function CountEqual(s: seq<PlayerScore>, x: real): nat {
    if |s| == 0 then 0 else (if s[0].score == x then 1 else 0) + CountEqual(s[1..], x)
  }

  lemma {:induction false} CountAppend(a: seq<PlayerScore>, b: seq<PlayerScore>, x: real)
    ensures CountAbove(a + b, x) == CountAbove(a, x) + CountAbove(b, x)
    ensures CountEqual(a + b, x) == CountEqual(a, x) + CountEqual(b, x)
  {
    if |a| == 0 {
      assert a + b == b;
    } else {
      assert (a + b)[0] == a[0];
      assert (a + b)[1..] == a[1..] + b;
      CountAppend(a[1..], b, x);
    }
  }

  /** Counts when every score lies on one side of `x`. */
  lemma {:induction false} CountUniform(s: seq<PlayerScore>, x: real)
    ensures (forall k :: 0 <= k < |s| ==> s[k].score > x) ==> CountAbove(s, x) == |s| && CountEqual(s, x) == 0
    ensures (forall k :: 0 <= k < |s| ==> s[k].score == x) ==> CountAbove(s, x) == 0 && CountEqual(s, x) == |s|
    ensures (forall k :: 0 <= k < |s| ==> s[k].score < x) ==> CountAbove(s, x) == 0 && CountEqual(s, x) == 0
  {
    if |s| > 0 {
      CountUniform(s[1..], x);
    }
  }

  /** Each player is level with itself. */
  lemma {:induction false} CountEqualMember(s: seq<PlayerScore>, k: nat)
    requires k < |s|
    ensures CountEqual(s, s[k].score) >= 1
  {
    if k > 0 {
      CountEqualMember(s[1..], k - 1);
    }
  }

  /** Inserting a player adds it to exactly the counts it belongs to. */
  lemma {:induction false} CountInsert(p: PlayerScore, s: seq<PlayerScore>, x: real)
    requires NonIncreasing(s)
    ensures CountAbove(Insert(p, s), x) == CountAbove(s, x) + (if p.score > x then 1 else 0)
    ensures CountEqual(Insert(p, s), x) == CountEqual(s, x) + (if p.score == x then 1 else 0)
  {
    if |s| > 0 && s[0].score >= p.score {
      CountInsert(p, s[1..], x);
      assert Insert(p, s)[1..] == Insert(p, s[1..]);
    }
  }

  /** Sorting does not change how many players are above or level with a score. */
  lemma {:induction false} CountSort(ps: seq<PlayerScore>, x: real)
    ensures CountAbove(SortDesc(ps), x) == CountAbove(ps, x)
    ensures CountEqual(SortDesc(ps), x) == CountEqual(ps, x)
  {
    if |ps| > 0 {
      var init := ps[..|ps| - 1];
      var last := ps[|ps| - 1];
      assert ps == init + [last];
      CountSort(init, x);
      CountInsert(last, SortDesc(init), x);
      CountAppend(init, [last], x);
    }
  }

  /** A higher score has fewer players above it: all players above or level with `x` are above `y`. */
  lemma {:induction false} CountAboveStep(s: seq<PlayerScore>, x: real, y: real)
    requires x > y
    ensures CountAbove(s, y) >= CountAbove(s, x) + CountEqual(s, x)
  {
    if |s| > 0 {
      CountAboveStep(s[1..], x, y);
    }
  }

  /** A count never exceeds the length. */
  lemma {:induction false} CountBounded(s: seq<PlayerScore>, x: real)
    ensures CountAbove(s, x) + CountEqual(s, x) <= |s|
  {
    if |s| > 0 {
      CountBounded(s[1..], x);
    }
  }

  /** When every score from index `i` on is at most `x`, at most `i` players are above `x`;
      exactly `i` when moreover every score before `i` is above `x`. */
  lemma {:induction false} CountAboveCut(s: seq<PlayerScore>, i: nat, x: real)
    requires i <= |s|
    requires forall m :: i <= m < |s| ==> s[m].score <= x
    ensures CountAbove(s, x) <= i
    ensures (forall m :: 0 <= m < i ==> s[m].score > x) ==> CountAbove(s, x) == i
  {
    if |s| > 0 {
      if i == 0 {
        CountAboveCut(s[1..], 0, x);
      } else {
        CountAboveCut(s[1..], i - 1, x);
      }
    }
  }

  /** When exactly the scores at indices `[i, j)` equal `x`, `j - i` players are level with `x`. */
  lemma {:induction false} CountEqualRun(s: seq<PlayerScore>, i: nat, j: nat, x: real)
    requires i <= j <= |s|
    requires forall m :: 0 <= m < |s| ==> (s[m].score == x <==> i <= m < j)
    ensures CountEqual(s, x) == j - i
  {
    if |s| > 0 {
      if i > 0 {
        CountEqualRun(s[1..], i - 1, j - 1, x);
      } else if j > 0 {
        CountEqualRun(s[1..], 0, j - 1, x);
      } else {
        CountEqualRun(s[1..], 0, 0, x);
      }
    }
  }

  /** In a sorted sequence, nobody behind index `k` is above `s[k]`, so at most `k` players are. */
  lemma CountAboveSorted(s: seq<PlayerScore>, k: nat)
    requires NonIncreasing(s) && k < |s|
    ensures CountAbove(s, s[k].score) <= k
    ensures k > 0 && s[k - 1].score > s[k].score ==> CountAbove(s, s[k].score) == k
  {
    CountAboveCut(s, k, s[k].score);
  }

  /** For a maximal run `[i, j)` of equal scores in a sorted sequence, the run's
      rank slots start right after the `i` players before it and it has `j - i` members. */
  lemma GroupCounts(s: seq<PlayerScore>, i: nat, j: nat)
    requires NonIncreasing(s)
    requires i < j <= |s|
    requires i == 0 || s[i - 1].score != s[i].score
    requires forall k :: i <= k < j ==> s[k].score == s[i].score
    requires j == |s| || s[j].score != s[i].score
    ensures CountAbove(s, s[i].score) == i
    ensures CountEqual(s, s[i].score) == j - i
  {
    var x := s[i].score;
    assert forall m :: 0 <= m < i ==> s[m].score > x by {
      forall m | 0 <= m < i
        ensures s[m].score > x
      {
        assert s[m].score >= s[i - 1].score;
      }
    }
    assert forall m :: j <= m < |s| ==> s[m].score < x by {
      forall m | j <= m < |s|
        ensures s[m].score < x
      {
        assert s[m].score <= s[j].score;
      }
    }
    CountAboveCut(s, i, x);
    CountEqualRun(s, i, j, x);
  }

  // ---------------------------------------------------------------------------
  // The settlement, defined by counting
  // ---------------------------------------------------------------------------

  /** The output of `processTiedScores`. */
  datatype Settlement = Settlement(sortedPlayers: seq<PlayerScore>, ranks: seq<int>, rankBonuses: seq<real>)

  /** The size of the tie group of the player at index `k`. */
  function TieCount(s: seq<PlayerScore>, k: nat): (g: nat)
    requires k < |s|
    ensures 1 <= g <= |s|
  {
    CountEqualMember(s, k);
    CountBounded(s, s[k].score);
    CountEqual(s, s[k].score)
  }

  /** Rank of every seat of a sorted game: 1 + the number of players strictly above it. */
  function RanksOf(s: seq<PlayerScore>): (r: seq<int>)
    ensures |r| == |s|
  {
    seq(|s|, k requires 0 <= k < |s| => 1 + CountAbove(s, s[k].score))
  }

  /** Bonus of every seat of a sorted game: the average bonus of the slots its tie group occupies. */
  function BonusesOf(s: seq<PlayerScore>): (r: seq<real>)
    ensures |r| == |s|
  {
    seq(|s|, k requires 0 <= k < |s| => GroupBonus(1 + CountAbove(s, s[k].score), TieCount(s, k)))
  }

  /** Reference definition of the settlement: sort, then give each seat
      rank 1 + (players strictly above it) and the average bonus of its tie group's slots. */
  function Settle(players: seq<PlayerScore>): Settlement {
    var sorted := SortDesc(players);
    Settlement(sorted, RanksOf(sorted), BonusesOf(sorted))
  }

  /** Every seat of a maximal tie run `[i, j)` of a sorted game gets rank `i + 1`
      and the average bonus of slots `i + 1 .. j`. */
  lemma GroupStanding(s: seq<PlayerScore>, i: nat, j: nat)
    requires NonIncreasing(s)
    requires i < j <= |s|
    requires i == 0 || s[i - 1].score != s[i].score
    requires forall k :: i <= k < j ==> s[k].score == s[i].score
    requires j == |s| || s[j].score != s[i].score
    ensures forall k :: i <= k < j ==> RanksOf(s)[k] == i + 1 && BonusesOf(s)[k] == GroupBonus(i + 1, j - i)
  {
    GroupCounts(s, i, j);
  }

  /** The scan `while (j < n && sorted[j].score === sorted[i].score) j++`:
      the end of the maximal run of scores equal to `s[i].score` starting at `i`. */
  method ScanTieGroup(s: seq<PlayerScore>, i: nat) returns (j: nat)
    requires i < |s|
    ensures i < j <= |s|
    ensures forall k :: i <= k < j ==> s[k].score == s[i].score
    ensures j == |s| || s[j].score != s[i].score
  {
    j := i + 1;
    while j < |s| && s[j].score == s[i].score
      invariant i < j <= |s|
      invariant forall k :: i <= k < j ==> s[k].score == s[i].score
    {
      j := j + 1;
    }
  }

  /** The loop `for (offset = 0; offset < groupSize; offset++) bonusSum += getRankBonus(currentRank + offset)`. */
  method SumSlotBonuses(currentRank: int, groupSize: nat) returns (bonusSum: real)
    ensures bonusSum == SlotSum(currentRank, groupSize)
  {
    bonusSum := 0.0;
    var offset := 0;
    while offset < groupSize
      invariant 0 <= offset <= groupSize
      invariant bonusSum == SlotSum(currentRank, offset)
    {
      bonusSum := bonusSum + RankBonus(currentRank + offset);
      offset := offset + 1;
    }
  }

  /** `bonusSum / groupSize`: the bonus each member of the group receives. */
  method AverageBonus(currentRank: int, groupSize: nat) returns (bonus: real)
    requires groupSize > 0
    ensures bonus == GroupBonus(currentRank, groupSize)
  {
    var bonusSum := SumSlotBonuses(currentRank, groupSize);
    bonus := bonusSum / groupSize as real;
  }

  /** The loop `for (k = i; k < j; k++) { ranks[k] = rank; rankBonuses[k] = bonus }`:
      overwrites exactly the indices `[i, j)`. */
  method AssignGroup(ranks: seq<int>, rankBonuses: seq<real>, i: nat, j: nat, rank: int, bonus: real)
    returns (ranks': seq<int>, rankBonuses': seq<real>)
    requires i <= j <= |ranks| == |rankBonuses|
    ensures |ranks'| == |ranks| && |rankBonuses'| == |rankBonuses|
    ensures forall k :: 0 <= k < |ranks| ==>
      && ranks'[k] == (if i <= k < j then rank else ranks[k])
      && rankBonuses'[k] == (if i <= k < j then bonus else rankBonuses[k])
  {
    ranks', rankBonuses' := ranks, rankBonuses;
    var k := i;
    while k < j
      invariant i <= k <= j
      invariant |ranks'| == |ranks| && |rankBonuses'| == |rankBonuses|
      invariant forall m :: 0 <= m < |ranks| ==>
        && ranks'[m] == (if i <= m < k then rank else ranks[m])
        && rankBonuses'[m] == (if i <= m < k then bonus else rankBonuses[m])
    {
      ranks' := ranks'[k := rank];
      rankBonuses' := rankBonuses'[k := bonus];
      k := k + 1;
    }
  }

  /** Writing a maximal tie run's standing over `[i, j)` extends the correct prefix to `j`. */
  lemma GroupAssigned(s: seq<PlayerScore>, i: nat, j: nat, rank: int, bonus: real,
                      r0: seq<int>, b0: seq<real>, r: seq<int>, b: seq<real>)
    requires NonIncreasing(s)
    requires i < j <= |s|
    requires i == 0 || s[i - 1].score != s[i].score
    requires forall k :: i <= k < j ==> s[k].score == s[i].score
    requires j == |s| || s[j].score != s[i].score
    requires |r0| == |b0| == |r| == |b| == |s|
    requires forall k :: 0 <= k < i ==> r0[k] == RanksOf(s)[k] && b0[k] == BonusesOf(s)[k]
    requires rank == i + 1 && bonus == GroupBonus(i + 1, j - i)
    requires forall k :: 0 <= k < |r0| ==>
      && r[k] == (if i <= k < j then rank else r0[k])
      && b[k] == (if i <= k < j then bonus else b0[k])
    ensures forall k :: 0 <= k < j ==> r[k] == RanksOf(s)[k] && b[k] == BonusesOf(s)[k]
  {
    GroupStanding(s, i, j);
  }

  /** `processTiedScores`: walks the sorted players one tie group at a time;
      proved to compute `Settle`. The outer loop keeps `currentRank == i + 1`
      and ends with `currentRank == n + 1`, every index assigned once. */
  method ProcessTiedScores(players: seq<PlayerScore>)
    returns (sortedPlayers: seq<PlayerScore>, ranks: seq<int>, rankBonuses: seq<real>)
    ensures Settlement(sortedPlayers, ranks, rankBonuses) == Settle(players)
  {
    sortedPlayers := SortDesc(players);
    var n := |sortedPlayers|;
    ghost var targetRanks := RanksOf(sortedPlayers);
    ghost var targetBonuses := BonusesOf(sortedPlayers);
    ranks := seq(n, _ => 0);
    rankBonuses := seq(n, _ => 0.0);

    var currentRank := 1;
    var i := 0;
    while i < n
      invariant 0 <= i <= n
      invariant currentRank == i + 1
      invariant |ranks| == n && |rankBonuses| == n
      invariant 0 < i < n ==> sortedPlayers[i - 1].score != sortedPlayers[i].score
      invariant forall k :: 0 <= k < i ==> ranks[k] == targetRanks[k] && rankBonuses[k] == targetBonuses[k]
    {
      var j := ScanTieGroup(sortedPlayers, i);
      var groupSize := j - i;
      var bonus := AverageBonus(currentRank, groupSize);
      ghost var ranks0, bonuses0 := ranks, rankBonuses;
      ranks, rankBonuses := AssignGroup(ranks, rankBonuses, i, j, currentRank, bonus);
      GroupAssigned(sortedPlayers, i, j, currentRank, bonus, ranks0, bonuses0, ranks, rankBonuses);
      currentRank := currentRank + groupSize;
      i := j;
    }
    assert currentRank == n + 1;
  }
}

=== FILE: settlement_facts.dfy ===
/** Properties of the tied-score settlement of src/lib/scoring.ts:
    competition ranking, shared standings of tied players, conservation of the
    bonus pool, and the worked examples of the league rules. */
module SettlementFacts {
  import opened Scoring

  /** The sum of a sequence of reals. */
  function Sum(xs: seq<real>): real {
    if |xs| == 0 then 0.0 else xs[0] + Sum(xs[1..])
  }

  lemma {:induction false} SumAppend(a: seq<real>, b: seq<real>)
    ensures Sum(a + b) == Sum(a) + Sum(b)
  {
    if |a| == 0 {
      assert a + b == b;
    } else {
      assert (a + b)[0] == a[0];
      assert (a + b)[1..] == a[1..] + b;
      SumAppend(a[1..], b);
    }
  }

  lemma SumSplitAt(xs: seq<real>, i: nat, j: nat)
    requires i <= j <= |xs|
    ensures Sum(xs[i..]) == Sum(xs[i..j]) + Sum(xs[j..])
  {
    assert xs[i..] == xs[i..j] + xs[j..];
    SumAppend(xs[i..j], xs[j..]);
  }

  lemma SumEmptySuffix(xs: seq<real>)
    ensures Sum(xs[|xs|..]) == 0.0
  {
    assert xs[|xs|..] == [];
  }

  lemma SumWhole(xs: seq<real>)
    ensures Sum(xs[0..]) == Sum(xs)
  {
    assert xs[0..] == xs;
  }

  lemma {:induction false} SumConstant(xs: seq<real>, n: nat, c: real)
    requires |xs| == n
    requires forall k :: 0 <= k < |xs| ==> xs[k] == c
    ensures Sum(xs) == n as real * c
  {
    if n > 0 {
      SumConstant(xs[1..], n - 1, c);
    }
  }

  /** `g` shares of a group's average bonus give back the group's slot bonuses. */
  lemma AverageSum(run: seq<real>, r: int, g: nat)
    requires g > 0 && |run| == g
    requires forall k :: 0 <= k < g ==> run[k] == GroupBonus(r, g)
    ensures Sum(run) == SlotSum(r, g)
  {
    SumConstant(run, g, GroupBonus(r, g));
  }

  /** The end of the maximal run of scores equal to `s[i].score` that contains `[i, j)`. */
  function GroupEnd(s: seq<PlayerScore>, i: nat, j: nat): (e: nat)
    requires i < j <= |s|
    requires forall k :: i <= k < j ==> s[k].score == s[i].score
    ensures j <= e <= |s|
    ensures forall k :: i <= k < e ==> s[k].score == s[i].score
    ensures e == |s| || s[e].score != s[i].score
    decreases |s| - j
  {
    if j < |s| && s[j].score == s[i].score then GroupEnd(s, i, j + 1) else j
  }

  /** Sorting keeps the players and orders them highest score first; ranks and
      bonuses come one per player. */
  lemma SettleShape(players: seq<PlayerScore>)
    ensures var st := Settle(players);
      && |st.sortedPlayers| == |st.ranks| == |st.rankBonuses| == |players|
      && multiset(st.sortedPlayers) == multiset(players)
      && NonIncreasing(st.sortedPlayers)
  {
  }

  /** Competition ranking stated on the INPUT: a seat's rank is 1 + the number of
      players of the game with a strictly higher score, and its bonus is the average
      of the slot bonuses over as many slots as there are players with its score. */
  lemma RankCountsHigherPlayers(players: seq<PlayerScore>, k: nat)
    requires k < |players|
    ensures var st := Settle(players);
      var x := st.sortedPlayers[k].score;
      && CountEqual(players, x) >= 1
      && st.ranks[k] == 1 + CountAbove(players, x)
      && st.rankBonuses[k] == GroupBonus(st.ranks[k], CountEqual(players, x))
  {
    var s := SortDesc(players);
    CountSort(players, s[k].score);
    CountEqualMember(s, k);
  }

  /** The shape of competition ranks over the sorted seats: the first is 1, ranks never
      decrease, rank k+1 is at most k+1, a seat level with its predecessor shares its
      rank, and a seat below its predecessor gets rank k+1 (ties consume slots). */
  lemma RankShape(players: seq<PlayerScore>)
    ensures var st := Settle(players);
      && (|players| > 0 ==> st.ranks[0] == 1)
      && (forall k :: 0 <= k < |st.ranks| ==> 1 <= st.ranks[k] <= k + 1)
      && (forall a, b :: 0 <= a <= b < |st.ranks| ==> st.ranks[a] <= st.ranks[b])
      && (forall k :: 0 < k < |st.ranks| && st.sortedPlayers[k - 1].score == st.sortedPlayers[k].score ==>
            st.ranks[k] == st.ranks[k - 1])
      && (forall k :: 0 < k < |st.ranks| && st.sortedPlayers[k - 1].score != st.sortedPlayers[k].score ==>
            st.ranks[k] == k + 1)
  {
    var s := SortDesc(players);
    var r := RanksOf(s);
    forall k | 0 <= k < |r|
      ensures 1 <= r[k] <= k + 1
      ensures k > 0 && s[k - 1].score != s[k].score ==> r[k] == k + 1
    {
      CountAboveSorted(s, k);
    }
    if |players| > 0 {
      CountAboveSorted(s, 0);
    }
    forall a, b | 0 <= a <= b < |r|
      ensures r[a] <= r[b]
    {
      if s[a].score > s[b].score {
        CountAboveStep(s, s[a].score, s[b].score);
      }
    }
  }

  /** Two seats share a rank exactly when they share a score, and tied seats share their bonus. */
  lemma TiesShareStanding(players: seq<PlayerScore>, a: nat, b: nat)
    requires a < |players| && b < |players|
    ensures var st := Settle(players);
      && (st.sortedPlayers[a].score == st.sortedPlayers[b].score <==> st.ranks[a] == st.ranks[b])
      && (st.sortedPlayers[a].score == st.sortedPlayers[b].score ==> st.rankBonuses[a] == st.rankBonuses[b])
  {
    var s := SortDesc(players);
    if s[a].score > s[b].score {
      CountAboveStep(s, s[a].score, s[b].score);
      CountEqualMember(s, a);
    } else if s[a].score < s[b].score {
      CountAboveStep(s, s[b].score, s[a].score);
      CountEqualMember(s, b);
    }
  }

  /** `[i, j)` is a maximal run of equal scores of `s`. */
  predicate MaxRun(s: seq<PlayerScore>, i: nat, j: nat) {
    && i < j <= |s|
    && (i == 0 || s[i - 1].score != s[i].score)
    && (forall k :: i <= k < j ==> s[k].score == s[i].score)
    && (j == |s| || s[j].score != s[i].score)
  }

  /** Every maximal run of `s` receives, in `b`, the slot bonuses of the slots it occupies. */
  ghost predicate RunsGetSlots(s: seq<PlayerScore>, b: seq<real>) {
    |b| == |s| && forall i: nat, j: nat :: MaxRun(s, i, j) ==> Sum(b[i..j]) == SlotSum(i + 1, j - i)
  }

  /** The bonuses of one maximal tie run `[i, j)` sum to the slot bonuses of slots `i+1 .. j`. */
  lemma GroupSum(s: seq<PlayerScore>, i: nat, j: nat)
    requires NonIncreasing(s) && MaxRun(s, i, j)
    ensures Sum(BonusesOf(s)[i..j]) == SlotSum(i + 1, j - i)
  {
    GroupStanding(s, i, j);
    AverageSum(BonusesOf(s)[i..j], i + 1, j - i);
  }

  lemma BonusesGetSlots(s: seq<PlayerScore>)
    requires NonIncreasing(s)
    ensures RunsGetSlots(s, BonusesOf(s))
  {
    forall i: nat, j: nat | MaxRun(s, i, j) ensures Sum(BonusesOf(s)[i..j]) == SlotSum(i + 1, j - i) {
      GroupSum(s, i, j);
    }
  }

  /** From a group boundary `i` on, bonuses that give every run its slots sum to the slot
      bonuses of slots `i+1 .. n`. */
  lemma {:induction false} PoolFrom(s: seq<PlayerScore>, b: seq<real>, i: nat)
    requires RunsGetSlots(s, b)
    requires i <= |s|
    requires 0 < i < |s| ==> s[i - 1].score != s[i].score
    ensures Sum(b[i..]) == SlotSum(i + 1, |s| - i)
    decreases |s| - i
  {
    if i == |s| {
      SumEmptySuffix(b);
    } else {
      var j := GroupEnd(s, i, i + 1);
      assert MaxRun(s, i, j);
      assert j < |s| ==> s[j - 1].score == s[i].score != s[j].score;
      PoolFrom(s, b, j);
      SumSplitAt(b, i, j);
      SlotSumSplit(i + 1, j - i, |s| - j);
      assert (j - i) + (|s| - j) == |s| - i && (i + 1) + (j - i) == j + 1;
    }
  }

  /** The bonuses of a sorted game sum to the slot bonuses of slots 1..n. */
  lemma PoolOfSorted(s: seq<PlayerScore>)
    requires NonIncreasing(s)
    ensures Sum(BonusesOf(s)) == SlotSum(1, |s|)
  {
    BonusesGetSlots(s);
    PoolFrom(s, BonusesOf(s), 0);
    SumWhole(BonusesOf(s));
  }

  /** Ties redistribute but never create or destroy bonus: the bonuses of a game
      sum to the bonuses of slots 1..n, which is 20 for a four-player game
      whatever the tie pattern. */
  lemma BonusPool(players: seq<PlayerScore>)
    ensures Sum(Settle(players).rankBonuses) == SlotSum(1, |players|)
    ensures |players| == 4 ==> Sum(Settle(players).rankBonuses) == 20.0
  {
    PoolOfSorted(SortDesc(players));
    if |players| == 4 {
      assert SlotSum(1, |players|) == SlotSum(1, 4);
      SlotSumPastFour(4);
    }
  }

  // ---------------------------------------------------------------------------
  // Tie patterns
  // ---------------------------------------------------------------------------

  /** No score is shared by two players. */
  predicate DistinctScores(ps: seq<PlayerScore>) {
    forall a, b :: 0 <= a < b < |ps| ==> ps[a].score != ps[b].score
  }

  lemma {:induction false} CountEqualDistinct(ps: seq<PlayerScore>, x: real)
    requires DistinctScores(ps)
    ensures CountEqual(ps, x) <= 1
  {
    if |ps| > 0 {
      CountEqualDistinct(ps[1..], x);
      if ps[0].score == x {
        CountEqualRun(ps[1..], 0, 0, x);
      }
    }
  }

  lemma {:induction false} CountEqualPair(s: seq<PlayerScore>, a: nat, b: nat)
    requires a < b < |s| && s[a].score == s[b].score
    ensures CountEqual(s, s[a].score) >= 2
  {
    if a == 0 {
      CountEqualMember(s[1..], b - 1);
    } else {
      CountEqualPair(s[1..], a - 1, b - 1);
    }
  }

  /** A seat whose score nobody else has takes its own slot: rank `k + 1`, that slot's bonus. */
  lemma SoleSeat(s: seq<PlayerScore>, k: nat)
    requires NonIncreasing(s) && k < |s|
    requires CountEqual(s, s[k].score) <= 1
    ensures RanksOf(s)[k] == k + 1 && BonusesOf(s)[k] == RankBonus(k + 1)
  {
    if k > 0 && s[k - 1].score == s[k].score {
      CountEqualPair(s, k - 1, k);
    }
    if k + 1 < |s| && s[k].score == s[k + 1].score {
      CountEqualPair(s, k, k + 1);
    }
    GroupStanding(s, k, k + 1);
    SingleSlot(k + 1);
  }

  /** A group of one gets its slot's bonus. */
  lemma SingleSlot(r: int)
    ensures GroupBonus(r, 1) == RankBonus(r)
  {
    assert SlotSum(r, 1) == RankBonus(r);
  }

  /** Four different scores: ranks 1, 2, 3, 4 and bonuses 50, 10, -10, -30 in sorted order. */
  lemma NoTies(players: seq<PlayerScore>)
    requires |players| == 4 && DistinctScores(players)
    ensures Settle(players).ranks == [1, 2, 3, 4]
    ensures Settle(players).rankBonuses == [50.0, 10.0, -10.0, -30.0]
  {
    var s := SortDesc(players);
    forall k | 0 <= k < 4
      ensures RanksOf(s)[k] == k + 1 && BonusesOf(s)[k] == RankBonus(k + 1)
    {
      CountSort(players, s[k].score);
      CountEqualDistinct(players, s[k].score);
      SoleSeat(s, k);
    }
    Four(RanksOf(s), 1, 2, 3, 4);
    Four(BonusesOf(s), 50.0, 10.0, -10.0, -30.0);
  }

  /** Four equal scores: one group, everyone ranked 1st with bonus (50+10-10-30)/4 = 5. */
  lemma AllTied(players: seq<PlayerScore>)
    requires |players| == 4
    requires forall k :: 0 <= k < 4 ==> players[k].score == players[0].score
    ensures Settle(players).ranks == [1, 1, 1, 1]
    ensures Settle(players).rankBonuses == [5.0, 5.0, 5.0, 5.0]
  {
    var s := SortDesc(players);
    var x := players[0].score;
    forall k | 0 <= k < 4
      ensures s[k].score == x
    {
      assert s[k] in multiset(players);
    }
    forall k | 0 <= k < 4
      ensures RanksOf(s)[k] == 1 && BonusesOf(s)[k] == 5.0
    {
      GroupStanding(s, 0, 4);
    }
  }

  /** Inserting a player no higher than everyone appends it. */
  lemma {:induction false} InsertLowest(p: PlayerScore, s: seq<PlayerScore>)
    requires NonIncreasing(s)
    requires forall k :: 0 <= k < |s| ==> s[k].score >= p.score
    ensures Insert(p, s) == s + [p]
  {
    if |s| > 0 {
      InsertLowest(p, s[1..]);
      assert s == [s[0]] + s[1..];
    }
  }

  /** Sorting an already sorted sequence leaves it as it is (the sort is stable). */
  lemma {:induction false} SortSorted(ps: seq<PlayerScore>)
    requires NonIncreasing(ps)
    ensures SortDesc(ps) == ps
  {
    if |ps| > 0 {
      var init := ps[..|ps| - 1];
      var last := ps[|ps| - 1];
      assert ps == init + [last];
      assert NonIncreasing(init);
      SortSorted(init);
      assert forall k :: 0 <= k < |init| ==> init[k].score >= last.score;
      InsertLowest(last, init);
      assert SortDesc(ps) == Insert(last, init);
    }
  }

  lemma Four<T>(xs: seq<T>, a: T, b: T, c: T, d: T)
    requires |xs| == 4 && xs[0] == a && xs[1] == b && xs[2] == c && xs[3] == d
    ensures xs == [a, b, c, d]
  {
  }

  /** A tie for first above two distinct lower scores (300, 300, 250, 150, say):
      ranks 1, 1, 3, 4 and bonuses (50+10)/2 = 30, 30, -10, -30. */
  lemma TopTwoTied(ps: seq<PlayerScore>)
    requires |ps| == 4
    requires ps[0].score == ps[1].score > ps[2].score > ps[3].score
    ensures Settle(ps).sortedPlayers == ps
    ensures Settle(ps).ranks == [1, 1, 3, 4]
    ensures Settle(ps).rankBonuses == [30.0, 30.0, -10.0, -30.0]
  {
    assert NonIncreasing(ps);
    SortSorted(ps);
    var r, b := RanksOf(ps), BonusesOf(ps);
    assert r[0] == r[1] == 1 && b[0] == b[1] == 30.0 by {
      GroupStanding(ps, 0, 2);
      assert GroupBonus(1, 2) == 30.0;
    }
    assert r[2] == 3 && b[2] == -10.0 by {
      GroupStanding(ps, 2, 3);
      SingleSlot(3);
    }
    assert r[3] == 4 && b[3] == -30.0 by {
      GroupStanding(ps, 3, 4);
      SingleSlot(4);
    }
    Four(RanksOf(ps), 1, 1, 3, 4);
    Four(BonusesOf(ps), 30.0, 30.0, -10.0, -30.0);
  }

  /** One leader above a three-way tie (400, 200, 200, 200, say):
      ranks 1, 2, 2, 2 and bonuses 50, (10-10-30)/3 = -10, -10, -10. */
  lemma ThreeTiedBelowLeader(ps: seq<PlayerScore>)
    requires |ps| == 4
    requires ps[0].score > ps[1].score == ps[2].score == ps[3].score
    ensures Settle(ps).sortedPlayers == ps
    ensures Settle(ps).ranks == [1, 2, 2, 2]
    ensures Settle(ps).rankBonuses == [50.0, -10.0, -10.0, -10.0]
  {
    assert NonIncreasing(ps);
    SortSorted(ps);
    GroupStanding(ps, 0, 1);
    GroupStanding(ps, 1, 4);
    assert GroupBonus(2, 3) == -10.0;
    Four(RanksOf(ps), 1, 2, 2, 2);
    Four(BonusesOf(ps), 50.0, -10.0, -10.0, -10.0);
  }
}

=== FILE: text.dfy ===
/** String helpers with JavaScript semantics: `String.prototype.trim` and
    the "all distinct" test the source performs with `new Set(xs).size`. */
module Text {

  /** The characters `String.prototype.trim` removes: WhiteSpace and
      LineTerminator of section 12.2 and 12.3 of ECMA-262. */
  predicate IsJsWhitespace(c: char) {
    || c == '\t' || c == '\n' || c == '\U{000B}' || c == '\U{000C}' || c == '\r'
    || c == ' ' || c == '\U{00A0}' || c == '\U{1680}'
    || ('\U{2000}' <= c <= '\U{200A}')
    || c == '\U{2028}' || c == '\U{2029}' || c == '\U{202F}' || c == '\U{205F}'
    || c == '\U{3000}' || c == '\U{FEFF}'
  }

  /** A string with no whitespace at either end. */
  predicate IsTrimmed(s: string) {
    |s| == 0 || (!IsJsWhitespace(s[0]) && !IsJsWhitespace(s[|s| - 1]))
  }

  /** Drops leading whitespace (`trimStart`). */
  function TrimStart(s: string): string {
    if |s| > 0 && IsJsWhitespace(s[0]) then TrimStart(s[1..]) else s
  }

  /** Drops trailing whitespace (`trimEnd`). */
  function TrimEnd(s: string): string {
    if |s| > 0 && IsJsWhitespace(s[|s| - 1]) then TrimEnd(s[..|s| - 1]) else s
  }

  /** `TrimStart` keeps a suffix that does not start with whitespace, and every character
      it drops is whitespace. */
  lemma {:induction false} TrimStartCuts(s: string)
    ensures |TrimStart(s)| <= |s| && TrimStart(s) == s[|s| - |TrimStart(s)|..]
    ensures |TrimStart(s)| > 0 ==> !IsJsWhitespace(TrimStart(s)[0])
    ensures forall i :: 0 <= i < |s| - |TrimStart(s)| ==> IsJsWhitespace(s[i])
  {
    if |s| > 0 && IsJsWhitespace(s[0]) {
      TrimStartCuts(s[1..]);
    }
  }

  /** `TrimEnd` keeps a prefix that does not end with whitespace, and every character it
      drops is whitespace. */
  lemma {:induction false} TrimEndCuts(s: string)
    ensures |TrimEnd(s)| <= |s| && TrimEnd(s) == s[..|TrimEnd(s)|]
    ensures |TrimEnd(s)| > 0 ==> !IsJsWhitespace(TrimEnd(s)[|TrimEnd(s)| - 1])
    ensures forall i :: |TrimEnd(s)| <= i < |s| ==> IsJsWhitespace(s[i])
  {
    if |s| > 0 && IsJsWhitespace(s[|s| - 1]) {
      TrimEndCuts(s[..|s| - 1]);
    }
  }

  /** `s[a..b]` is what remains of `s` once whitespace-only ends are cut away. */
  predicate CutsWhitespace(s: string, a: int, b: int) {
    && 0 <= a <= b <= |s|
    && (forall i :: 0 <= i < a ==> IsJsWhitespace(s[i]))
    && (forall i :: b <= i < |s| ==> IsJsWhitespace(s[i]))
  }

  /** `s.trim()`. */
  function Trim(s: string): string {
    TrimEnd(TrimStart(s))
  }

  /** `s.trim()` is a slice of `s` with no whitespace at either end, and everything cut
      away on both sides is whitespace. */
  lemma TrimShape(s: string)
    ensures IsTrimmed(Trim(s))
    ensures exists a, b :: CutsWhitespace(s, a, b) && Trim(s) == s[a..b]
  {
    var t := TrimStart(s);
    TrimStartCuts(s);
    TrimEndCuts(t);
    var r := TrimEnd(t);
    var a := |s| - |t|;
    assert r == s[a..a + |r|];
    assert CutsWhitespace(s, a, a + |r|);
    if |r| > 0 {
      assert r[0] == t[0];
    }
  }

  /** An already trimmed string is its own trim. */
  lemma TrimOfTrimmed(s: string)
    requires IsTrimmed(s)
    ensures Trim(s) == s
  {
  }

  /** Trimming twice is trimming once. */
  lemma TrimIdempotent(s: string)
    ensures Trim(Trim(s)) == Trim(s)
  {
    TrimShape(s);
    TrimOfTrimmed(Trim(s));
  }

  /** Every character is whitespace (the empty string included). */
  predicate WhitespaceOnly(s: string) {
    forall i :: 0 <= i < |s| ==> IsJsWhitespace(s[i])
  }

  /** The trimmed string is empty exactly when `s` consists of whitespace only. */
  lemma TrimEmptyIff(s: string)
    ensures Trim(s) == [] <==> WhitespaceOnly(s)
  {
    TrimShape(s);
    if Trim(s) != [] {
      var r := Trim(s);
      var a, b :| CutsWhitespace(s, a, b) && r == s[a..b];
      assert s[a] == r[0];
    }
  }

  /** Pairwise distinct elements. */
  predicate Distinct<T(==)>(s: seq<T>) {
    forall i, j :: 0 <= i < j < |s| ==> s[i] != s[j]
  }

  /** The elements of a sequence as a set (`new Set(xs)`). */
  function ToSet<T>(s: seq<T>): set<T> {
    set x | x in s
  }

  /** `new Set(xs).size === xs.length` holds exactly when the elements are pairwise distinct. */
  lemma {:induction false} DistinctIffSetSize<T>(s: seq<T>)
    ensures |ToSet(s)| <= |s|
    ensures |ToSet(s)| == |s| <==> Distinct(s)
  {
    if |s| > 0 {
      var init := s[..|s| - 1];
      var last := s[|s| - 1];
      DistinctIffSetSize(init);
      assert s == init + [last];
      assert ToSet(s) == ToSet(init) + {last};
      if last in init {
        assert ToSet(s) == ToSet(init);
        var k :| 0 <= k < |init| && init[k] == last;
        assert s[k] == s[|s| - 1];
      } else {
        assert |ToSet(s)| == |ToSet(init)| + 1;
        if Distinct(init) {
          forall i, j | 0 <= i < j < |s|
            ensures s[i] != s[j]
          {
            if j == |s| - 1 {
              assert s[i] == init[i];
            } else {
              assert s[i] == init[i] && s[j] == init[j];
            }
          }
        } else {
          var i, j :| 0 <= i < j < |init| && init[i] == init[j];
          assert s[i] == s[j];
        }
      }
    }
  }

  /** The position of the first occurrence of `x` in `xs`. */
  function FirstIndex<T(==)>(xs: seq<T>, x: T): (k: nat)
    requires x in xs
    ensures k < |xs| && xs[k] == x
    ensures forall j :: 0 <= j < k ==> xs[j] != x
  {
    if xs[0] == x then 0 else 1 + FirstIndex(xs[1..], x)
  }

  /** Appending to a list does not move the first occurrence of an element it holds. */
  lemma FirstIndexOfPrefix<T>(xs: seq<T>, y: T, x: T)
    requires x in xs
    ensures x in xs + [y] && FirstIndex(xs + [y], x) == FirstIndex(xs, x)
  {
    var k := FirstIndex(xs, x);
    assert (xs + [y])[k] == x;
  }

  /** Iterating `new Set(xs)`: each element once, in the order of first occurrence. */
  function Dedup<T(==)>(xs: seq<T>): (ys: seq<T>)
    ensures forall x | x in ys :: x in xs
    ensures forall x | x in xs :: x in ys
    ensures Distinct(ys)
    ensures forall i, j :: 0 <= i < j < |ys| ==> FirstIndex(xs, ys[i]) < FirstIndex(xs, ys[j])
  {
    if |xs| == 0 then []
    else
      var init := xs[..|xs| - 1];
      var last := xs[|xs| - 1];
      assert xs == init + [last];
      var d := Dedup(init);
      assert forall k :: 0 <= k < |d| ==> FirstIndex(xs, d[k]) == FirstIndex(init, d[k]) by {
        forall k | 0 <= k < |d| ensures FirstIndex(xs, d[k]) == FirstIndex(init, d[k]) {
          FirstIndexOfPrefix(init, last, d[k]);
        }
      }
      if last in d then d
      else
        assert FirstIndex(xs, last) == |xs| - 1;
        d + [last]
  }

  /** A sequence without repetitions is its own set iteration. */
  lemma {:induction false} DedupOfDistinct<T>(xs: seq<T>)
    requires Distinct(xs)
    ensures Dedup(xs) == xs
  {
    if |xs| > 0 {
      var init := xs[..|xs| - 1];
      DedupOfDistinct(init);
      assert xs[|xs| - 1] !in init by {
        forall k | 0 <= k < |init| ensures init[k] != xs[|xs| - 1] {
          assert init[k] == xs[k];
        }
      }
      assert xs == init + [xs[|xs| - 1]];
    }
  }
}

=== FILE: wrappers.dfy ===
/** Failure-compatible wrappers shared by every module of the model. */
module Wrappers {

  /** A value that may be absent: a nullable column, a missing map entry. */
  datatype Option<+T> = None | Some(value: T) {
    predicate IsFailure() {
      None?
    }

    function PropagateFailure<U>(): Option<U>
      requires None?
    {
      None
    }

    function Extract(): T
      requires Some?
    {
      value
    }
  }

  /** The `{ success: true, ... } | { success: false, error }` shape of the server actions. */
  datatype Result<+R, +E> = Success(value: R) | Failure(error: E) {
    predicate IsFailure() {
      Failure?
    }

    function PropagateFailure<U>(): Result<U, E>
      requires Failure?
    {
      Failure(error)
    }

    function Extract(): R
      requires Success?
    {
      value
    }
  }
}
